=== FILE: README.md ===
# RedisTimeSeries query core in Dafny

This project models the query core of the RedisTimeSeries module (the
`clairewang87/Redis_TimeSeries-1` tree) and proves properties of the model.
It has one Dafny module per source file:

- `Indexer` (`src/indexer.c`) covers:
  - the label index, a map from `key=value` and `key` entries to sets of series names;
  - parsing one filter predicate and its value list;
  - the set operations;
  - `QueryIndex`, which evaluates a filter against the index;
  - the reference-counted predicate list.
- `QueryLanguage` (`src/query_language.c`) covers:
  - the argument parsers for LABELS, RETENTION, CHUNK_SIZE, the duplicate policy, AGGREGATION, the range bounds, COUNT and the FILTER list;
  - the reducer name;
  - the whole `TS.MRANGE` command line.
- `SeriesIterator` (`src/series_iterator.c`) covers:
  - the range scan over a series' chunks, forward and in reverse;
  - the time-bucket aggregation on top of the scan.
- `Reply` (`src/reply.c`) covers the reply shapes:
  - a sample;
  - a series' range, with the retention clamp and the COUNT cap;
  - the label pairs;
  - the per-series entry of multi-series replies;
  - the last data point.
- `CompressedChunk` (`src/compressed_chunk.c`) covers:
  - the sample-level behaviour of a Gorilla chunk: allocation, growth, trimming, splitting and upsert;
  - the field order of its serialisation.
- `ResultSet` (`src/resultset.c`) covers:
  - grouping series by a label value, with groups kept in key order;
  - the per-group reduction and its `__reducer__`/`__source__` labels;
  - the grouped reply;
  - freeing.
- `GearsCommands` (`src/gears_commands.c`) covers `TS.MGET`, `TS.MRANGE`/`TS.MREVRANGE` and `TS.QUERYINDEX` over RedisGears. Each command is a ledger of events:
  - replies;
  - list creations, retains and releases;
  - client block and unblock;
  - done-callback registration;
  - series frees.

  Properties are stated over these ledgers: one well-formed reply per command, every reference released once, replies before the unblock.
- `Common` and `Tsdb` hold the shared types:
  - `Option` and `Result`;
  - 64- and 32-bit casts;
  - `RMUtil_ArgIndex`;
  - `Sample`, `Label`, `Chunk` and `Series`.

Some members carry the source function's name but model a corrected version of the code. These are `ParseGroupBy`, `ParseMRange`, `ParseMRangeFilters`, `Launch`, `MGet`, `MRange`, `QueryIndex` (in `GearsCommands`), `DoneHead` and `MRangeDoneLedger`. The code as written is modelled by the `…AsWritten` members next to them. The lemmas in the table below relate the two. "## Findings" names each corrected half.

Integers are unbounded. The source's `size_t` wrap-around and its narrowing to `int` are written out where they matter (`FilterTokenCountAsWritten`, `ToI32`). So is the unsigned storage of signed range bounds (`ToU64`).

## Model

| member | source | states |
|---|---|---|
| Indexer.ParseValueListShape | src/indexer.c:39-77 | An accepted list token ends in `)`. `)` alone is the empty list. Otherwise there is one element per comma plus one, each non-empty and free of commas. |
| Indexer.ValueListRoundTrip | src/indexer.c:39-77 | Non-empty, comma-free values written `v1,...,vn)` parse back to exactly those values. |
| Indexer.EmptyElementRejected | src/indexer.c:64-75 | A list with an empty element such as `a,,b)` is refused: `strtok_r` runs out of tokens before `count` values are read. |
| Indexer.ParsePredicate | src/indexer.c:79-115 | An accepted predicate has a non-empty key free of the separator's characters. A single-value separator yields at most one value. Failure without a list separator means the argument is made only of separator characters. |
| Indexer.CountPredicateType | src/indexer.c:117-125 | The count is the number of predicates of that type, and is zero exactly when none has it. |
| Indexer.IndexUnderKey | src/indexer.c:127-140 | The entry exists afterwards. The name is in it exactly when the operation is an add. Apart from the name the entry is unchanged, and every other entry is untouched. |
| Indexer.IndexOperationSpec | src/indexer.c:142-162 | Every entry a label touches holds its old names with the series added or removed. Missing entries are created. Every other entry stays as it was. |
| Indexer.AddThenRemove | src/indexer.c:142-176 | Indexing a series and then removing it leaves every touched entry without the name, and every other entry as before. |
| Indexer.Union | src/indexer.c:178-189 | The destination ends up holding the union. |
| Indexer.Intersect | src/indexer.c:191-205 | The left set ends up holding the intersection. |
| Indexer.Difference | src/indexer.c:207-230 | The left set ends up holding the difference. An empty right set leaves it unchanged. |
| Indexer.ValuesUnion | src/indexer.c:232-275 | The union over the listed values of the `key=value` entries. The result is absent exactly when none of those entries exists. |
| Indexer.KeySet | src/indexer.c:232-275 | A containment predicate refers to the `key` entry, or to nothing when that entry is missing. Any other predicate refers to the union of its `key=value` entries. |
| Indexer.QueryIndexPredicate | src/indexer.c:277-332 | The first positive predicate starts the result. Later positive predicates intersect with it and negative ones subtract from it. A negative predicate before any result leaves no result. |
| Indexer.PromoteSmallestToFront | src/indexer.c:334-367 | A permutation that swaps the first predicate with the least keys into position 0. One predicate or none is left alone. |
| Indexer.PermutationPreservesMatches | src/indexer.c:334-367 | The filter's meaning does not depend on the order of its predicates, so promotion does not change the answer. |
| Indexer.QueryIndex | src/indexer.c:368-402 | The answer is exactly the set of series names the filter matches: every positive predicate admits the name, no negative one does, and at least one predicate is positive. |
| Indexer.ReleasePredicates | src/indexer.c:419-431 | A release frees the list exactly when it held its last reference. Otherwise the count drops by one. |
| Indexer.SharedListFreedByLastRelease | src/indexer.c:419-431 | A list with `n` holders survives `n - 1` releases and is freed by the `n`-th, exactly once. |
| QueryLanguage.ParseLabels | src/query_language.c:13-45 | Without LABELS the list is empty. Otherwise an accepted list has one pair for every two arguments after LABELS (an odd last argument is ignored), and every pair is a valid label. |
| QueryLanguage.LabelsRoundTrip | src/query_language.c:13-45 | Valid labels written after LABELS are read back exactly. |
| QueryLanguage.InvalidLabelRefused | src/query_language.c:24-36 | A single invalid pair refuses the whole label list. |
| QueryLanguage.ParseDuplicatePolicy | src/query_language.c:47-69 | Without the policy option the default is used. With it, the next argument must name a known policy, which is returned. Otherwise it is an error. |
| QueryLanguage.ParseCreateArgs | src/query_language.c:71-115 | The steps run in source order, and each error is passed on. A label error gives "Couldn't parse LABELS". A missing, unreadable or negative RETENTION gives "Couldn't parse RETENTION". A missing, unreadable or non-positive CHUNK_SIZE gives "Couldn't parse CHUNK_SIZE". A duplicate-policy error is returned as it is. The command is accepted exactly when all four parts are valid. It then has its LABELS, the RETENTION and CHUNK_SIZE read after their options (or the defaults), UNCOMPRESSED set when the flag is present, and the parsed policy. |
| QueryLanguage.CreateArgsRoundTrip | src/query_language.c:71-115 | `RETENTION r CHUNK_SIZE c`, written after arguments that hold no option word, reads back as `r` and `c` with no labels. The command is then accepted exactly when its duplicate policy is, and without a policy option it is the default context. |
| QueryLanguage.ParseAggregationArgs | src/query_language.c:117-174 | No AGGREGATION after the command name means absent. A missing or unreadable bucket gives "Couldn't parse AGGREGATION". Then a type name outside `[0, TS_AGG_TYPES_MAX)` gives "Unknown aggregation type", and a bucket of zero or less gives "timeBucket must be greater than zero". Otherwise, and only then, the clause is accepted with that type and bucket. |
| QueryLanguage.AggregationRoundTrip | src/query_language.c:117-151 | `AGGREGATION name d`, written after arguments without AGGREGATION, reads back as the type `name` denotes and the bucket `d`, for any valid type and positive `d`. |
| QueryLanguage.ParseRangeArguments | src/query_language.c:176-207 | `-` is 0 and `+` is the series' last timestamp. Otherwise a bound is the canonical decimal integer, stored into the unsigned timestamp. Each unreadable bound gets its own error, and the start bound is checked first. |
| QueryLanguage.RangeOfWrittenBounds | src/query_language.c:176-207 | Bounds written in decimal come back as timestamps, with negative ones wrapped modulo 2^64. |
| QueryLanguage.ParseCount | src/query_language.c:209-230 | Without COUNT the default is kept. A COUNT at the end gives "COUNT argument is missing". A COUNT not right after AGGREGATION gives the integer after it, or "Couldn't parse COUNT" when that is not one. Any limit other than the default is an integer written right after some COUNT. |
| QueryLanguage.CountRoundTrip | src/query_language.c:209-230 | A limit written as `COUNT n` after arguments holding no COUNT, and not right after AGGREGATION, reads back as `n`. |
| QueryLanguage.CountAfterAggregationIsType | src/query_language.c:209-230 | A COUNT right after AGGREGATION is the aggregation type, not the limit, and with no later COUNT the default is kept. |
| QueryLanguage.CountAfterAggregationReadsNext | src/query_language.c:216-227 | After `AGGREGATION COUNT`, the limit is read after the next COUNT, with the same parse error when that argument is not an integer. |
| QueryLanguage.Classify | src/query_language.c:249-282 | The separator chosen occurs in the token. `!=(` is looked for before `!=`, and `=(` before `=`. A token without `=` has no separator. |
| QueryLanguage.ParsePredicateToken | src/query_language.c:249-282 | An accepted token was classified, and its predicate's type, key and values agree with the classification and the split. |
| QueryLanguage.RenderRoundTrip | src/query_language.c:249-282 | Every predicate written as a filter token parses back to itself, so the classification order never mistakes one separator for another. |
| QueryLanguage.ParseLabelList | src/query_language.c:232-286 | The list is sized for every token and holds one reference. It succeeds exactly when every token parses. The predicates kept are the parses of the leading tokens. |
| QueryLanguage.ParseReduceOp | src/query_language.c:288-302 | The reducer is `sum` exactly when the name starts with `sum`, ignoring case, and likewise for `max` and `min`. Any other name is refused. |
| QueryLanguage.ReduceOpPrefix | src/query_language.c:288-302 | Only the first three characters decide the reducer. |
| QueryLanguage.ParseMRangeOptions | src/query_language.c:304-339 | Fewer than four arguments is a wrong-arity error. Otherwise the range parse from position 1, the aggregation parse, the FILTER lookup and the COUNT parse run in that order, and the first error is passed on as the reply message. The head is accepted exactly when all four succeed. It then holds their results: the range (`+` is the largest signed timestamp), the aggregation when the clause is present, the FILTER position and the COUNT (default -1). |
| QueryLanguage.FilterTokenCountAsWritten | src/query_language.c:345-348 | The filter count is a `size_t` difference, so it lies below 2^64 and is zero exactly when the two positions are equal. |
| QueryLanguage.NarrowedFilterCount | src/query_language.c:345-355 | Narrowed to the `int` parameter of `parseLabelListFromArgs`, the wrapped count is the plain difference, negative when the last filter position is before FILTER. |
| QueryLanguage.GroupByBeforeFilterAsWritten | src/query_language.c:345-355 | For `TS.MRANGE - + GROUPBY FILTER REDUCE sum` the count wraps to 2^64 - 2, passes the zero test and is narrowed to -2. That leads to undefined behaviour. |
| QueryLanguage.ReduceLastAsWritten | src/query_language.c:379-388 | With REDUCE as the last argument the arity test passes, and the reducer is read from `argv[argc]`. |
| QueryLanguage.ParseGroupByAgrees | src/query_language.c:370-393 | The GROUPBY clause as written agrees with the corrected one wherever it is defined. It is undefined exactly when the command ends in `GROUPBY label x REDUCE`. |
| QueryLanguage.ParseMRangeFiltersAgrees | src/query_language.c:341-396 | The filter half as written agrees with the corrected one wherever it is defined. It is undefined exactly when GROUPBY precedes FILTER, or when the filters are accepted and the GROUPBY clause as written is undefined. There the corrected half refuses, with "missing labels for filter argument" or for its arity. |
| QueryLanguage.ParseMRangeAgrees | src/query_language.c:304-396 | `parseMRangeCommand` as written agrees with the corrected parse wherever it is defined. Where it is not, the corrected parse refuses with every allocated list freed, and once the head of the command parses, a GROUPBY before FILTER is always undefined. |
| QueryLanguage.MRangeArgsFree | src/query_language.c:398-400 | Freeing the arguments frees the predicate list exactly when they held its last reference. |
| QueryLanguage.MRangeOfFilters | src/query_language.c:304-396 | `TS.MRANGE - + FILTER` followed by written filters with a matcher is accepted over the whole range, with no aggregation, no GROUPBY and those exact predicates. |
| QueryLanguage.MRangeOfWritten | src/query_language.c:304-396 | `TS.MRANGE from to AGGREGATION name d FILTER` followed by written filters with a matcher is accepted with those bounds as timestamps, that aggregation and those exact predicates. |
| SeriesIterator.StartChunk | src/series_iterator.c:44-58 | The `<=` seek lands on the last chunk keyed at or before the key. When there is none, the reseek lands on the first chunk. |
| SeriesIterator.ForwardIsFilter | src/series_iterator.c:108-135 | From any position the forward scan yields the in-range samples of the rest of the series, given no later chunk is keyed at or before the start. |
| SeriesIterator.BackwardIsFilter | src/series_iterator.c:136-162 | From any position the reverse scan yields the in-range samples before it, latest first, given no earlier chunk starts after the end. |
| SeriesIterator.ScanForward | src/series_iterator.c:19-135 | A forward range query yields exactly the series' samples in `[min, max]`, in time order. |
| SeriesIterator.ScanReverse | src/series_iterator.c:19-162 | A reverse range query yields exactly the series' samples in `[min, max]`, latest first. |
| SeriesIterator.InitAgg | src/series_iterator.c:63-67 | The aggregation starts with no pending values, and its first bucket starts at a multiple of the bucket width and holds the timestamp it is set up with. |
| SeriesIterator.BucketAligned | src/series_iterator.c:188-190 | A bucket start is a multiple of the width, and the bucket holds the timestamp. |
| SeriesIterator.CrossesIffNewBucket | src/series_iterator.c:172-176 | On the scan's side of the current bucket, a sample triggers the hand-out exactly when its bucket differs. |
| SeriesIterator.NextAggregated | src/series_iterator.c:167-215 | A call yields nothing exactly when the aggregation was already flushed or the range was empty. A sample it yields is stamped with the open bucket's aligned start. The state stays consistent and never moves back. |
| SeriesIterator.DrainIsAggregate | src/series_iterator.c:167-215 | Calling it until the end yields one sample per run of samples that share a bucket, in scan order, each with the finalized value of the run. |
| SeriesIterator.ForwardInit | src/series_iterator.c:63-67 | Going forward, the set-up timestamp is at or before the first sample in range. |
| SeriesIterator.ReverseInit | src/series_iterator.c:63-67 | In reverse, the set-up timestamp is at or after the latest sample in range. |
| SeriesIterator.RangeQueryIsReference | src/series_iterator.c:217-223 | A range query returns the series' samples in `[min, max]`, in time order or latest first. With an aggregation it returns one sample per bucket run of those samples. |
| Reply.SampleRoundTrip | src/reply.c:88-95 | A sample reply is `[timestamp, value]`, which reads back as the sample. |
| Reply.ClampedStart | src/reply.c:49-52 | With a retention period, and a last timestamp past it, the start is raised to the retention window. It is never lowered. |
| Reply.CapCount | src/reply.c:64-69 | The reply loop stops when the samples run out or the cap is reached. COUNT -1 lets every sample through. A count of zero or more lets through at most that many, and any other negative count lets none through. |
| Reply.ReplySamples | src/reply.c:64-72 | The postponed array holds the first capped-count sample replies of the iterator's samples, in order. |
| Reply.ReplySeriesRange | src/reply.c:36-74 | An empty array when the clamp empties the range. Otherwise the capped samples of the range query from the clamped start. Without aggregation these are the stored samples in range, in the requested order. |
| Reply.LabelsRoundTrip | src/reply.c:76-83 | The label reply is one `[key, value]` pair per label in stored order, and reads back as the labels. |
| Reply.ReplySeriesArrayPos | src/reply.c:16-34 | Three elements: the key name, the labels (an empty array unless WITHLABELS) and the range reply. |
| Reply.LastDatapointReply | src/reply.c:97-103 | An empty array exactly when the series has no samples. Otherwise it reads back as the last sample. |
| CompressedChunk.NewChunk | src/compressed_chunk.c:24-31 | A new chunk has the requested size and no samples. |
| CompressedChunk.EnsureAddSample | src/compressed_chunk.c:55-66 | The sample is always appended. The chunk grows by exactly one 32-byte step exactly when the first append reported it full. |
| CompressedChunk.TrimChunk | src/compressed_chunk.c:68-81 | Samples and written bits are kept. With more than one whole byte unused, the size is rounded to a multiple of 8 bytes that still holds the written bits plus one byte. It only shrinks from a size that was already a multiple of 8. Otherwise the chunk is unchanged. |
| CompressedChunk.SplitChunk | src/compressed_chunk.c:83-111 | The kept and moved samples concatenate to the original. The moved half has `n/2` samples and the kept half `n - n/2`. |
| CompressedChunk.UpsertSample | src/compressed_chunk.c:113-162 | A rejected duplicate is CR_ERR and leaves the chunk unchanged. Otherwise the new sample sits among the stored ones at its timestamp, replacing a stored sample with that timestamp. The size delta is 0 for a replacement and 1 for an insertion. |
| CompressedChunk.UpsertSorted | src/compressed_chunk.c:128-155 | On a sorted chunk the upsert puts the sample between the stored samples before and after its timestamp, and the result stays sorted. It replaces exactly when the timestamp was present. |
| CompressedChunk.AppendAll | src/compressed_chunk.c:150-155 | The tail loop appends every remaining sample in order. |
| CompressedChunk.NewChunkRecord | src/compressed_chunk.c:24-31 | A new record has the requested size, zero samples, zero bits written, the value encoder's leading and trailing at 32, and zeroed data. |
| CompressedChunk.NewChunkViews | src/compressed_chunk.c:24-31 | The sample view and the stored fields of a new chunk describe the same chunk: the same size, sample count and written bits. |
| CompressedChunk.SerializeRoundTrip | src/compressed_chunk.c:258-297 | Loading what was saved restores every field and the data. |
| CompressedChunk.Serialize | src/compressed_chunk.c:258-275 | Saving writes ten unsigned fields and then the data buffer. |
| CompressedChunk.Deserialize | src/compressed_chunk.c:277-297 | Loading reads the ten fields and the buffer back in the order they were saved. A stream of another shape gives `None`, which stands for a stream the reader cannot supply. |
| CompressedChunk.DeserializeRoundTrip | src/compressed_chunk.c:258-297 | Saving what was loaded writes the same stream. |
| ResultSet.NewResultSet | src/resultset.c:152-167 | A new result set has the group-by key and no groups. |
| ResultSet.AddToGroup | src/resultset.c:92-101 | The series is appended at the end of the group, and the entries already there are unchanged. |
| ResultSet.AddSerie | src/resultset.c:243-262 | A series is added exactly when it carries the group-by label. Otherwise the result set is unchanged. |
| ResultSet.AddSerieSpec | src/resultset.c:243-262 | Adding keeps the groups sorted and distinct, and appends the series to its label value's list. That value then has a group, and no other value's list changes. |
| ResultSet.GroupsOfSeries | src/resultset.c:243-262 | After adding series one by one there is one group per label value present, listing exactly the series with that value, in order. |
| ResultSet.ReducerNameRoundTrip | src/resultset.c:125-150 | The `__reducer__` label value is three letters and parses back as the reducer. |
| ResultSet.GroupApplyReducer | src/resultset.c:195-241 | The group becomes one series named `<labelKey>=<labelValue>`. It carries exactly the three reduced labels, with `__source__` holding the key names joined by commas and none trailing. |
| ResultSet.SourceNamesRoundTrip | src/resultset.c:219-231 | Splitting the `__source__` label on commas gives back the group's non-empty key names. |
| ResultSet.ApplyReducer | src/resultset.c:169-193 | Every group is reduced in key order. Keys are untouched, so the result set stays valid, and each group holds one series. |
| ResultSet.ReplyResultSet | src/resultset.c:264-290 | The array declares one entry per group and then holds one entry per listed series, group by group in key order. |
| ResultSet.MembersCount | src/resultset.c:264-290 | The declared length equals the number of entries exactly when every group holds one series. |
| ResultSet.Free | src/resultset.c:292-307 | Every series the groups list is freed once, in key order, and nothing else. |
| GearsCommands.MGetParse | src/gears_commands.c:104-126 | Wrong arity exactly when there are fewer than three arguments or no FILTER. Otherwise "failed parsing labels" exactly when some token after FILTER does not parse, and "please provide at least one matcher" exactly when all parse and none is an equality or list match. The list is accepted exactly when all parse and one matches. It then holds the parse of each token, in order, with one reference. Only the tokens after FILTER must fit the 255-byte predicate buffer. |
| GearsCommands.MGetOfFilters | src/gears_commands.c:104-126 | `TS.MGET FILTER` followed by written filters with a matcher is accepted as exactly those predicates, in a list held once. |
| GearsCommands.MGetAsWrittenRun | src/gears_commands.c:104-155 | `TS.MGET` as written equals the corrected command unless `CreateCtx` fails on an accepted command. It ends well exactly when that does not happen. |
| GearsCommands.MGetAsWrittenCreateError | src/gears_commands.c:128-153 | After a `CreateCtx` error on an accepted command, the client neither gets a single error reply nor is blocked with just a done-callback, which is how a dispatch should end. |
| GearsCommands.LaunchAsWrittenCreateError | src/gears_commands.c:128-153 | After a `CreateCtx` error the client gets the error and, when the run fails, a second error. When the run succeeds it is also blocked with the done-callback registered, so a second reply follows. |
| GearsCommands.LaunchAsWrittenNoCreateError | src/gears_commands.c:164-192 | Without a `CreateCtx` error the dispatch as written is the corrected one. The exception is a failed run of `TS.MRANGE`, which omits the release of the command's own reference. |
| GearsCommands.MGetDoneReply | src/gears_commands.c:13-27 | The client of `TS.MGET` gets one well-formed array of the records in order, before the unblock. The plan's reference is released once. |
| GearsCommands.MRangeAsWrittenRun | src/gears_commands.c:157-193 | `TS.MRANGE` as written, where defined, equals the corrected command exactly when the parse refuses it or both the context and the run succeed. Otherwise it does not end well. |
| GearsCommands.MRangeLaunchAsWrittenRun | src/gears_commands.c:162-192 | An accepted `TS.MRANGE` is dispatched as in the corrected code when the context and the run succeed. Otherwise it does not end well. |
| GearsCommands.MRangeAsWrittenRunError | src/gears_commands.c:179-184 | When `RGM_Run` fails, one release is made against two references taken, so the ledger does not balance. |
| GearsCommands.QueryIndexAsWrittenRun | src/gears_commands.c:195-223 | `TS.QUERYINDEX` as written equals the corrected command unless `CreateCtx` fails. It ends well exactly when it does not fail. |
| GearsCommands.MRangeDoneAsWritten | src/gears_commands.c:29-102 | With GROUPBY, `mrange_done` as written is the corrected callback. Without it, the client gets a header declaring every record and then the entries of the series records, all before the unblock. Every series record's series is freed and both references are released. |
| GearsCommands.MRangeDoneAsWrittenReply | src/gears_commands.c:42-66 | Without GROUPBY, `mrange_done` as written gives a well-formed reply exactly when every record is a series record. |
| GearsCommands.MRangeDoneAsWrittenAllSeries | src/gears_commands.c:29-102 | When every record is a series record, `mrange_done` as written is the corrected callback. |
| GearsCommands.UngroupedAsWrittenOther | src/gears_commands.c:42-50 | For the records `[OtherRecord(0)]` the reply declares one element and holds none. |
| GearsCommands.SlotsFreeSeries | src/gears_commands.c:45-52 | Freeing the `tempSeries` slots (94-97) frees every series record's series once, in record order, and nothing else. The zeroed slots of other records free nothing. |
| GearsCommands.GroupedSeries | src/gears_commands.c:38-91 | With GROUPBY there is one group per label value among the series records, in key order, each listing exactly the series with that value. After the reduction each group holds the one series named after it. |
| GearsCommands.GroupedReplyShape | src/gears_commands.c:68-91 | With GROUPBY the client gets one well-formed array with one entry per group, each the reduced series' range without aggregation. |

## Left out

- SeriesIterator.NextAggregated: takes a total `finalize: seq<Value> -> Value`, but the C `finalize` can fail. In the middle of a scan (src/series_iterator.c:180-186) a failed finalize emits nothing and does not reset the context, so that bucket's values merge into the next bucket. At the end of a scan (205-209) it returns CR_OK with a stale sample. RangeQueryIsReference relies on the total `finalize`, so neither path is modelled.
- SeriesIterator.ScanForward: the chunk iterator is a sequence of decoded samples and never fails. The CR_ERR returns of src/series_iterator.c:121-122 and 149-150 are not modelled, and neither is decoding the Gorilla bits.
- GearsCommands.Run: assumes that `RedisGears_FreeFlatExecution` frees the plan argument and releases its predicate list. That code is in RedisGears, which is not part of this model. MRangeAsWrittenRunError and every balanced ledger depend on it.
- GearsCommands.DoneTail: assumes that `RedisGears_DropExecution` releases the plan's reference to the predicate list. That code is not part of this model either, and the balanced ledgers of the done-callbacks depend on it.
- Reply.SampleReply: the value is sent as the text `fpconv_dtoa` makes of it (src/reply.c:91-94). The model keeps the value itself (`Dbl(v)`), so number formatting is not modelled.
- QueryLanguage.ParseAggregationArgs: `GetAggClass` is not part of this model. Its NULL result and the "Failed to retrieve aggregation class" error (src/query_language.c:163-167) are dropped, and the aggregation type index stands for the class. The type names are read through a parameter (`aggTypeOf`), because `RMStringLenAggTypeToEnum` is not part of this model.
- Indexer.ParsePredicate: requires arguments shorter than 255 characters. The source copies the argument into a 255-byte buffer (src/indexer.c:87-89), and longer arguments would overflow it. Only the filter tokens are passed to it, so the command parsers bound only those. `QueryLanguage.FilterTokensFit` bounds the tokens between FILTER and GROUPBY or the end, and `GearsCommands.MGetTokensFit` the tokens after FILTER. Other arguments, such as a GROUPBY label, may have any length.
- CompressedChunk.Deserialize: `Compressed_Deserialize` (src/compressed_chunk.c:277-297) reads its fields without checking the stream. The model returns `None` for a stream not of the saved shape, and the source's behaviour on such a stream is not modelled.
- CompressedChunk.UpsertSample: requires a non-empty chunk. On an empty chunk the source compares with an uninitialised `iterSample` (src/compressed_chunk.c:127-136).
- CompressedChunk.EnsureAddSample: the Gorilla encoder is a parameter `cost`, the number of bits one append takes. `CostBounded` assumes every append fits in one 32-byte growth step, which is what the source's assert after the retry relies on (src/compressed_chunk.c:55-66). The bit layout and the zero-fill of grown bytes are not modelled.
- CompressedChunk.Serialize: models the field order of `Compressed_Serialize`/`Compressed_Deserialize`. The RDB and RedisGears writers and readers they are called with (src/compressed_chunk.c:299-337) are I/O and are left out.
- CompressedChunk.NewChunk: `Compressed_FreeChunk`, `Compressed_CloneChunk`, the accessors (`NumOfSample`, `GetFirstTimestamp`, `GetLastTimestamp`, `GetChunkSize`) and `decompressChunk` with the chunk iterator are left out. The accessors are plain reads of the fields this model keeps.
- Common.ArgIndex: strings are `seq<char>`. Embedded NUL bytes, encodings and the exact byte comparison of `strcasecmp` beyond ASCII case are not modelled. `RMUtil_ArgIndex` is modelled as the first case-insensitive match, or -1.
- QueryLanguage.ParseLongLong: `RedisModule_StringToLongLong` is modelled as the canonical decimal form within the signed 64-bit range. Redis's own implementation is not part of this model.
- ResultSet.GroupApplyReducer: `MultiSerieReduce` lives in another file and is not part of this model. It is a parameter (`merge`), so the reduced series' samples are what the fold of `merge` gives.
- ResultSet.Free: `FreeTempSeries` (src/resultset.c:55-72) is one event per series. Its chunk and label frees are not modelled.
- GearsCommands.MGetDoneReply: records are opaque beyond their type. The shard mappers, record serialisation and the cluster execution are in RedisGears and are not part of this model. A command's run is summarised by the parameters `createErr`, `runErr` and the callback's `records`.
- Indexer.QueryIndex: the index is a map from structured keys to name sets. It stands for the module's dictionary of `__index_key=value` strings, and the string printing of those keys is not modelled.

## Findings

| source | as written | input that shows it | evidently intended | confidence | as-written member | corrected member |
|---|---|---|---|---|---|---|
| src/query_language.c:345-348 | The filter count is `last_filter_pos - filter_location` in `size_t`. With GROUPBY before FILTER it wraps to 2^64 - 2 and passes the `== 0` test. `parseLabelListFromArgs` narrows it to the `int` -2, the list allocation fails, and the list is then cleared through a null pointer. | `TS.MRANGE - + GROUPBY FILTER REDUCE sum` | Refuse the command with "missing labels for filter argument". | not executed | QueryLanguage.GroupByBeforeFilterAsWritten | QueryLanguage.ParseMRangeFiltersAgrees |
| src/query_language.c:387 | The arity test `argc - groupby_location != 4` passes when REDUCE is the last argument, and the reducer is read from `argv[reduce_location + 1]`, one past the end. | `TS.MRANGE - + FILTER a=b GROUPBY x y REDUCE` | Refuse the command for its arity. | not executed | QueryLanguage.ReduceLastAsWritten | QueryLanguage.ParseGroupByAgrees |
| src/gears_commands.c:42 | Without GROUPBY the reply array declares `len` elements, one per record, but records that are not series records are skipped (48-50). The array then holds fewer elements than it declares. | records `[OtherRecord(0)]` | Declare one element per series record written. | not executed | GearsCommands.MRangeDoneAsWrittenReply | GearsCommands.MRangeDoneReply |
| src/gears_commands.c:129-132 | A `CreateCtx` error is replied, but the command carries on. It runs the plan and either replies a second error or blocks the client for the done-callback's reply. The same happens at 165-168 and 197-200. | an accepted `TS.MGET` whose `CreateCtx` fails | Release the list and return after the error. | not executed | GearsCommands.MGetAsWrittenRun | GearsCommands.MGetWellRun |
| src/gears_commands.c:179-184 | When `RGM_Run` fails, `TS.MRANGE` returns without `MRangeArgs_Free`. The reference the command holds on its predicate list is never released. This rests on the GearsCommands.Run assumption under "## Left out". | an accepted `TS.MRANGE` whose `RGM_Run` fails | Free the arguments before returning the error. | not executed | GearsCommands.MRangeAsWrittenRunError | GearsCommands.MRangeWellRun |

=== FILE: common.dfy ===
/**
 * Shared vocabulary of the time-series model: failure-compatible results,
 * the C string operations the module relies on (substring search,
 * case-insensitive comparison, argument lookup, comma joining) and the
 * 64-bit integer conversions that C performs implicitly.
 */
module Common {

  datatype Option<+T> = None | Some(value: T)

  datatype Result<+T, +E> = Ok(value: T) | Err(error: E)

  const U64_MODULUS: int := 0x1_0000_0000_0000_0000
  const LLONG_MAX: int := 0x7FFF_FFFF_FFFF_FFFF
  const LLONG_MIN: int := -0x8000_0000_0000_0000

  /** Reinterpreting a signed 64-bit value as unsigned, as a C cast does. */
  function ToU64(n: int): (r: nat)
    ensures r < U64_MODULUS
    ensures 0 <= n < U64_MODULUS ==> r == n
    ensures LLONG_MIN <= n < 0 ==> r == n + U64_MODULUS
  {
    n % U64_MODULUS
  }

  /** Reinterpreting an unsigned 64-bit value as signed, as a C cast does. */
  function ToI64(u: nat): (r: int)
    requires u < U64_MODULUS
    ensures LLONG_MIN <= r <= LLONG_MAX
    ensures ToU64(r) == u
  {
    if u <= LLONG_MAX then u else u - U64_MODULUS
  }

  const I32_MODULUS: int := 0x1_0000_0000
  const INT_MAX: int := 0x7FFF_FFFF
  const INT_MIN: int := -0x8000_0000

  /**
   * Passing a wider integer where C expects an `int`: the value is kept
   * modulo 2^32 and read back as signed, as the usual compilers do.
   */
  function ToI32(n: int): (r: int)
    ensures INT_MIN <= r <= INT_MAX
    ensures INT_MIN <= n <= INT_MAX ==> r == n
  {
    if INT_MIN <= n <= INT_MAX then n
    else
      var m := n % I32_MODULUS;
      if m <= INT_MAX then m else m - I32_MODULUS
  }

  /** Narrowing keeps the value modulo 2^32. */
  lemma NarrowingKeepsResidue(n: int)
    ensures (n - ToI32(n)) % I32_MODULUS == 0
  {
  }

  /** Storing a signed value through an unsigned slot and reading it back is lossless. */
  lemma SignedRoundTrip(n: int)
    requires LLONG_MIN <= n <= LLONG_MAX
    ensures ToI64(ToU64(n)) == n
  {
  }

  /** `pat` occurs in `s` starting at `i`. */
  predicate OccursAt(s: string, pat: string, i: nat)
  {
    i + |pat| <= |s| && s[i..i + |pat|] == pat
  }

  /** C `strstr(s, pat) != NULL`. */
  function HasSubstring(s: string, pat: string): (r: bool)
    ensures r <==> exists i: nat :: OccursAt(s, pat, i)
  {
    exists i: nat :: i <= |s| && OccursAt(s, pat, i)
  }

  /** ASCII lower-casing, the folding done by `strcasecmp`. */
  function ToLower(c: char): char
  {
    if 'A' <= c <= 'Z' then (c as int + 32) as char else c
  }

  /** C `strcasecmp(a, b) == 0`. */
  predicate EqualsIgnoreCase(a: string, b: string)
  {
    |a| == |b| && forall i :: 0 <= i < |a| ==> ToLower(a[i]) == ToLower(b[i])
  }

  /** C `strncasecmp(s, prefix, |prefix|) == 0`: a shorter `s` fails on its terminator. */
  predicate HasPrefixIgnoreCase(s: string, prefix: string)
  {
    |prefix| <= |s| && EqualsIgnoreCase(s[..|prefix|], prefix)
  }

  /**
   * Position of the first argument at or after `from` that equals `name`
   * ignoring case, or -1 (the lookup done by the rmutil argument helpers).
   */
  function ArgIndexFrom(args: seq<string>, name: string, from: nat): (r: int)
    requires from <= |args|
    ensures r == -1 || from <= r < |args|
    ensures r >= 0 ==> EqualsIgnoreCase(args[r], name)
    ensures r >= 0 ==> forall j :: from <= j < r ==> !EqualsIgnoreCase(args[j], name)
    ensures r == -1 ==> forall j :: from <= j < |args| ==> !EqualsIgnoreCase(args[j], name)
    decreases |args| - from
  {
    if from == |args| then -1
    else if EqualsIgnoreCase(args[from], name) then from
    else ArgIndexFrom(args, name, from + 1)
  }

  function ArgIndex(args: seq<string>, name: string): int
  {
    ArgIndexFrom(args, name, 0)
  }

  /** Number of occurrences of `c` in `s`. */
  function CountChar(s: string, c: char): nat
  {
    if s == [] then 0 else (if s[0] == c then 1 else 0) + CountChar(s[1..], c)
  }

  /** `parts` separated by `sep`, with no leading or trailing separator. */
  function Join(parts: seq<string>, sep: string): string
  {
    if |parts| == 0 then ""
    else if |parts| == 1 then parts[0]
    else parts[0] + sep + Join(parts[1..], sep)
  }

  /** An argument appended after arguments that do not match is found where it stands. */
  lemma ArgIndexAfter(prefix: seq<string>, name: string, rest: seq<string>)
    requires forall j :: 0 <= j < |prefix| ==> !EqualsIgnoreCase(prefix[j], name)
    ensures ArgIndex(prefix + [name] + rest, name) == |prefix|
  {
    var args := prefix + [name] + rest;
    assert args[|prefix|] == name;
    assert EqualsIgnoreCase(name, name);
    assert forall j :: 0 <= j < |prefix| ==> args[j] == prefix[j];
  }

  // Small sequence identities, kept apart so that large proofs need not rediscover them.

  lemma EmptyConcat<T>(a: seq<T>)
    ensures [] + a == a && a + [] == a
  {
  }

  lemma ConcatAssoc<T>(a: seq<T>, b: seq<T>, c: seq<T>)
    ensures a + b + c == a + (b + c)
  {
  }

  lemma TailOfConcat<T>(a: seq<T>, b: seq<T>)
    requires a != []
    ensures (a + b)[1..] == a[1..] + b
  {
  }

  lemma ConsSlice<T>(s: seq<T>, p: nat)
    requires p < |s|
    ensures s[p..] == [s[p]] + s[p + 1..]
  {
  }

  /** `s` back to front. */
  function Reverse<T>(s: seq<T>): (r: seq<T>)
    ensures |r| == |s|
    ensures forall k :: 0 <= k < |s| ==> r[k] == s[|s| - 1 - k]
  {
    if s == [] then [] else [s[|s| - 1]] + Reverse(s[..|s| - 1])
  }
}

=== FILE: compressed_chunk.dfy ===
/**
 * Sample-level operations of the Gorilla-compressed chunk
 * (src/compressed_chunk.c): allocation, growing on a full append,
 * trimming, splitting in two, upserting one sample, and the field order
 * of its serialisation.
 *
 * The bit encoding itself lives in the Gorilla codec, which is not part of
 * this model. A chunk is seen here as the bytes it has allocated, the
 * number of bits the codec has written into them, and the samples those
 * bits decode to; the codec enters only through `Cost`, the number of bits
 * it needs to append a sample after the ones already in the chunk.
 */
module CompressedChunk {

  import opened Common
  import opened Tsdb

  const BIT: nat := 8
  const CHUNK_RESIZE_STEP: nat := 32

  /** The most bits one append may take: one growth step must always make room for it. */
  const MAX_SAMPLE_BITS: nat := CHUNK_RESIZE_STEP * BIT

  /** The initial `prevLeading` and `prevTrailing` of the value encoder. */
  const INITIAL_LEADING_TRAILING: nat := 32

  /** The size of the `u_int64_t` blocks the codec writes in. */
  const BLOCK_BYTES: nat := 8

  type Byte = x: int | 0 <= x < 256

  type U64 = n: int | 0 <= n < U64_MODULUS

  /** A compressed chunk as its samples see it. */
  datatype Compressed = Compressed(size: nat, idx: nat, samples: seq<Sample>)

  /** The bits the codec needs to append a sample after the given samples. */
  type Cost = (seq<Sample>, Sample) -> nat

  /** The written bits lie inside the allocated bytes. */
  predicate Fits(c: Compressed)
  {
    c.idx <= c.size * BIT
  }

  /** No append needs more than one growth step. */
  ghost predicate CostBounded(cost: Cost)
  {
    forall s, x :: cost(s, x) <= MAX_SAMPLE_BITS
  }

  /** `Compressed_NewChunk`: `size` zeroed bytes and no samples. */
  function NewChunk(size: nat): (c: Compressed)
    ensures c.samples == [] && c.size == size && Fits(c)
  {
    Compressed(size, 0, [])
  }

  /** `Compressed_AddSample`: the codec appends when the bits fit, and otherwise reports the chunk full. */
  function AddSample(c: Compressed, x: Sample, cost: Cost): Option<Compressed>
  {
    if c.idx + cost(c.samples, x) <= c.size * BIT then Some(Compressed(c.size, c.idx + cost(c.samples, x), c.samples + [x]))
    else None
  }

  /**
   * `ensureAddSample`: append, and when the chunk is full grow it by one
   * step and append again, which then always succeeds.
   */
  function EnsureAddSample(c: Compressed, x: Sample, cost: Cost): (r: Compressed)
    requires Fits(c) && cost(c.samples, x) <= MAX_SAMPLE_BITS
    ensures r.samples == c.samples + [x] && r.idx == c.idx + cost(c.samples, x) && Fits(r)
    ensures r.size == c.size <==> AddSample(c, x, cost).Some?
    ensures r.size != c.size ==> r.size == c.size + CHUNK_RESIZE_STEP
  {
    match AddSample(c, x, cost)
    case Some(r) => r
    case None =>
      var grown := c.(size := c.size + CHUNK_RESIZE_STEP);
      assert AddSample(grown, x, cost).Some?;
      AddSample(grown, x, cost).value
  }

  /**
   * `trimChunk`: when more than one whole byte is unused, shrink to the
   * bytes in use plus one, rounded up past the next multiple of the codec's
   * block size.
   */
  function TrimChunk(c: Compressed): (r: Compressed)
    requires Fits(c)
    ensures r.samples == c.samples && r.idx == c.idx && Fits(r)
    ensures (c.size * BIT - c.idx) / BIT > 1 ==>
      r.size % BLOCK_BYTES == 0 && r.idx + BIT <= r.size * BIT
    ensures (c.size * BIT - c.idx) / BIT <= 1 ==> r == c
    ensures c.size % BLOCK_BYTES == 0 ==> r.size <= c.size
  {
    var excess := (c.size * BIT - c.idx) / BIT;
    if excess > 1 then
      var newSize := c.size - excess + 1;
      c.(size := newSize + BLOCK_BYTES - newSize % BLOCK_BYTES)
    else c
  }

  /**
   * `Compressed_SplitChunk`: the chunk keeps its first `n - n/2` samples and
   * a new chunk receives the last `n/2`, each rebuilt from an empty chunk of
   * the original size and then trimmed.
   */
  method SplitChunk(c: Compressed, cost: Cost) returns (kept: Compressed, moved: Compressed)
    requires CostBounded(cost)
    ensures kept.samples + moved.samples == c.samples
    ensures |moved.samples| == |c.samples| / 2 && |kept.samples| == |c.samples| - |c.samples| / 2
    ensures Fits(kept) && Fits(moved)
  {
    var count := |c.samples|;
    var split := count / 2;
    var curNumSamples := count - split;
    var newChunk1 := NewChunk(c.size);
    var newChunk2 := NewChunk(c.size);
    var i := 0;
    while i < curNumSamples
      invariant 0 <= i <= curNumSamples
      invariant newChunk1.samples == c.samples[..i] && Fits(newChunk1)
    {
      newChunk1 := EnsureAddSample(newChunk1, c.samples[i], cost);
      i := i + 1;
    }
    while i < count
      invariant curNumSamples <= i <= count
      invariant newChunk2.samples == c.samples[curNumSamples..i] && Fits(newChunk2)
    {
      newChunk2 := EnsureAddSample(newChunk2, c.samples[i], cost);
      i := i + 1;
    }
    kept := TrimChunk(newChunk1);
    moved := TrimChunk(newChunk2);
    assert c.samples[..curNumSamples] + c.samples[curNumSamples..] == c.samples;
  }

  // ---------------------------------------------------------------------
  // Compressed_UpsertSample
  // ---------------------------------------------------------------------

  /** `handleDuplicateSample`: given the stored and the new sample, the value to keep, or None to reject. */
  type DuplicatePolicy = (Sample, Sample) -> Option<Value>

  /** The position of the first sample at or after `t`, or `|s|` when there is none. */
  function FirstAtOrAfter(s: seq<Sample>, t: Timestamp): (p: nat)
    ensures p <= |s|
    ensures forall k :: 0 <= k < p ==> s[k].timestamp < t
    ensures p < |s| ==> s[p].timestamp >= t
  {
    if s == [] || s[0].timestamp >= t then 0 else 1 + FirstAtOrAfter(s[1..], t)
  }

  /** The upsert meets a stored sample with the same timestamp. */
  predicate Replaces(s: seq<Sample>, t: Timestamp)
  {
    var p := FirstAtOrAfter(s, t);
    p < |s| && s[p].timestamp == t
  }

  /** The duplicate policy refuses the new sample. */
  predicate DupRejected(s: seq<Sample>, x: Sample, dup: DuplicatePolicy)
  {
    Replaces(s, x.timestamp) && dup(s[FirstAtOrAfter(s, x.timestamp)], x).None?
  }

  /** The value the upserted sample carries: the policy's choice when it replaces a stored sample. */
  function UpsertedValue(s: seq<Sample>, x: Sample, dup: DuplicatePolicy): Value
    requires !DupRejected(s, x, dup)
  {
    if Replaces(s, x.timestamp) then dup(s[FirstAtOrAfter(s, x.timestamp)], x).value else x.value
  }

  /** Where the stored samples the upsert keeps after the new one start: past a replaced sample. */
  function KeptFrom(s: seq<Sample>, t: Timestamp): (q: nat)
    ensures FirstAtOrAfter(s, t) <= q <= |s|
  {
    if Replaces(s, t) then FirstAtOrAfter(s, t) + 1 else FirstAtOrAfter(s, t)
  }

  /** The samples after an upsert of `Sample(t, v)`: it goes before the first sample at or after `t`, replacing one at `t`. */
  function Upserted(s: seq<Sample>, t: Timestamp, v: Value): seq<Sample>
  {
    s[..FirstAtOrAfter(s, t)] + [Sample(t, v)] + s[KeptFrom(s, t)..]
  }

  /** The samples of `s` strictly before `t`, in order. */
  function Before(s: seq<Sample>, t: Timestamp): seq<Sample>
  {
    if s == [] then [] else (if s[0].timestamp < t then [s[0]] else []) + Before(s[1..], t)
  }

  /** The samples of `s` strictly after `t`, in order. */
  function After(s: seq<Sample>, t: Timestamp): seq<Sample>
  {
    if s == [] then [] else (if s[0].timestamp > t then [s[0]] else []) + After(s[1..], t)
  }

  /** Samples all before `t` are kept by `Before` and dropped by `After`. */
  lemma {:induction false} AllBefore(s: seq<Sample>, t: Timestamp)
    requires forall k :: 0 <= k < |s| ==> s[k].timestamp < t
    ensures Before(s, t) == s && After(s, t) == []
  {
    if s != [] {
      AllBefore(s[1..], t);
      assert s == [s[0]] + s[1..];
    }
  }

  /** Samples all after `t` are kept by `After` and dropped by `Before`. */
  lemma {:induction false} AllAfter(s: seq<Sample>, t: Timestamp)
    requires forall k :: 0 <= k < |s| ==> s[k].timestamp > t
    ensures After(s, t) == s && Before(s, t) == []
  {
    if s != [] {
      AllAfter(s[1..], t);
      assert s == [s[0]] + s[1..];
    }
  }

  lemma {:induction false} BeforeConcat(a: seq<Sample>, b: seq<Sample>, t: Timestamp)
    ensures Before(a + b, t) == Before(a, t) + Before(b, t)
  {
    if a == [] {
      assert a + b == b;
    } else {
      assert (a + b)[0] == a[0];
      assert (a + b)[1..] == a[1..] + b;
      BeforeConcat(a[1..], b, t);
    }
  }

  lemma {:induction false} AfterConcat(a: seq<Sample>, b: seq<Sample>, t: Timestamp)
    ensures After(a + b, t) == After(a, t) + After(b, t)
  {
    if a == [] {
      assert a + b == b;
    } else {
      assert (a + b)[0] == a[0];
      assert (a + b)[1..] == a[1..] + b;
      AfterConcat(a[1..], b, t);
    }
  }

  /** A sample between two sorted runs, later than the first and earlier than the second, keeps the whole sorted. */
  lemma JoinSorted(a: seq<Sample>, m: Sample, b: seq<Sample>)
    requires StrictlyIncreasing(a) && StrictlyIncreasing(b)
    requires forall k :: 0 <= k < |a| ==> a[k].timestamp < m.timestamp
    requires forall k :: 0 <= k < |b| ==> m.timestamp < b[k].timestamp
    ensures StrictlyIncreasing(a + [m] + b)
  {
    var out := a + [m] + b;
    forall i, j | 0 <= i < j < |out| ensures out[i].timestamp < out[j].timestamp {
      if j < |a| {
        assert out[i] == a[i] && out[j] == a[j];
      } else if i > |a| {
        assert out[i] == b[i - |a| - 1] && out[j] == b[j - |a| - 1];
      } else if i < |a| {
        assert out[i] == a[i];
        if j > |a| { assert out[j] == b[j - |a| - 1]; }
      } else {
        assert out[j] == b[j - |a| - 1];
      }
    }
  }

  /** In a sorted sequence every sample the upsert keeps after the new one is later than it. */
  lemma TailAbove(s: seq<Sample>, t: Timestamp)
    requires StrictlyIncreasing(s)
    ensures forall k :: KeptFrom(s, t) <= k < |s| ==> t < s[k].timestamp
  {
    var p := FirstAtOrAfter(s, t);
    forall k | p < k < |s| ensures t < s[k].timestamp {
      assert s[p].timestamp < s[k].timestamp;
    }
  }

  /**
   * When the kept samples are all later than `t`, the samples from the first
   * one at or after `t` on hold nothing before `t`, and exactly the kept ones
   * after it.
   */
  lemma TailSplit(s: seq<Sample>, t: Timestamp)
    requires forall k :: KeptFrom(s, t) <= k < |s| ==> t < s[k].timestamp
    ensures Before(s[FirstAtOrAfter(s, t)..], t) == [] && After(s[FirstAtOrAfter(s, t)..], t) == s[KeptFrom(s, t)..]
  {
    var p := FirstAtOrAfter(s, t);
    if p < |s| {
      var tail := s[p + 1..];
      assert forall k :: 0 <= k < |tail| ==> tail[k] == s[p + 1 + k];
      AllAfter(tail, t);
      ConsSlice(s, p);
      BeforeConcat([s[p]], tail, t);
      AfterConcat([s[p]], tail, t);
      BeforeAfterOne(s[p], t);
      EmptyConcat(tail);
    } else {
      assert s[p..] == [];
    }
  }

  /** One sample is before `t`, after it, or neither. */
  lemma BeforeAfterOne(x: Sample, t: Timestamp)
    ensures Before([x], t) == (if x.timestamp < t then [x] else [])
    ensures After([x], t) == (if x.timestamp > t then [x] else [])
  {
    assert [x][1..] == [];
  }

  /** A timestamp that occurs in a sorted sequence is met at the first position at or after it. */
  lemma ReplacesIffPresent(s: seq<Sample>, t: Timestamp)
    requires StrictlyIncreasing(s)
    ensures Replaces(s, t) <==> exists k :: 0 <= k < |s| && s[k].timestamp == t
  {
    var p := FirstAtOrAfter(s, t);
    if exists k :: 0 <= k < |s| && s[k].timestamp == t {
      var k :| 0 <= k < |s| && s[k].timestamp == t;
      if k > p { assert s[p].timestamp < s[k].timestamp; }
    }
  }

  /** When the kept samples are all later than `t`, the upsert puts the sample between the stored samples before and after `t`. */
  lemma UpsertSplit(s: seq<Sample>, t: Timestamp, v: Value)
    requires forall k :: KeptFrom(s, t) <= k < |s| ==> t < s[k].timestamp
    ensures Upserted(s, t, v) == Before(s, t) + [Sample(t, v)] + After(s, t)
  {
    var p := FirstAtOrAfter(s, t);
    var head := s[..p];
    assert forall k :: 0 <= k < |head| ==> head[k] == s[k];
    AllBefore(head, t);
    TailSplit(s, t);
    SplitAt(s, p, t);
    EmptyConcat(head);
    EmptyConcat(s[KeptFrom(s, t)..]);
  }

  /** `Before` and `After` of a sequence are those of its two halves at any cut, joined. */
  lemma SplitAt(s: seq<Sample>, p: nat, t: Timestamp)
    requires p <= |s|
    ensures Before(s, t) == Before(s[..p], t) + Before(s[p..], t)
    ensures After(s, t) == After(s[..p], t) + After(s[p..], t)
  {
    assert s[..p] + s[p..] == s;
    BeforeConcat(s[..p], s[p..], t);
    AfterConcat(s[..p], s[p..], t);
  }

  /**
   * On a sorted chunk the upsert puts the sample between the stored samples
   * before and after its timestamp, dropping a stored one at the same
   * timestamp, and the chunk stays sorted.
   */
  lemma UpsertSorted(s: seq<Sample>, t: Timestamp, v: Value)
    requires StrictlyIncreasing(s)
    ensures Upserted(s, t, v) == Before(s, t) + [Sample(t, v)] + After(s, t)
    ensures StrictlyIncreasing(Upserted(s, t, v))
    ensures Replaces(s, t) <==> exists k :: 0 <= k < |s| && s[k].timestamp == t
  {
    TailAbove(s, t);
    UpsertSplit(s, t, v);
    ReplacesIffPresent(s, t);
    UpsertStaysSorted(s, t, v);
  }

  /** The upsert of a sorted chunk is sorted. */
  lemma UpsertStaysSorted(s: seq<Sample>, t: Timestamp, v: Value)
    requires StrictlyIncreasing(s)
    ensures StrictlyIncreasing(Upserted(s, t, v))
  {
    TailAbove(s, t);
    var p := FirstAtOrAfter(s, t);
    var q := KeptFrom(s, t);
    SortedSlices(s, p, q);
    var tail := s[q..];
    assert forall k :: 0 <= k < |tail| ==> tail[k] == s[q + k];
    JoinSorted(s[..p], Sample(t, v), tail);
  }

  lemma SortedSlices(s: seq<Sample>, p: nat, q: nat)
    requires StrictlyIncreasing(s) && p <= |s| && q <= |s|
    ensures StrictlyIncreasing(s[..p]) && StrictlyIncreasing(s[q..])
  {
    assert forall k :: 0 <= k < |s| - q ==> s[q..][k] == s[q + k];
  }

  /**
   * `Compressed_UpsertSample`: samples are copied into a new chunk up to the
   * first one at or after the new timestamp, then the new sample, then the
   * rest; a stored sample at the same timestamp is replaced by the value the
   * duplicate policy keeps, and a rejection (`ok` false, CR_ERR) leaves the
   * chunk as it was. `sizeDelta` is the change in the number of samples. The
   * chunk holds at least one sample.
   */
  method UpsertSample(c: Compressed, x: Sample, dup: DuplicatePolicy, cost: Cost)
    returns (r: Compressed, sizeDelta: int, ok: bool)
    requires |c.samples| > 0 && CostBounded(cost)
    ensures !ok <==> DupRejected(c.samples, x, dup)
    ensures !ok ==> r == c && sizeDelta == 0
    ensures ok ==> r.samples == Upserted(c.samples, x.timestamp, UpsertedValue(c.samples, x, dup)) && Fits(r)
    ensures ok ==> sizeDelta == |r.samples| - |c.samples| == (if Replaces(c.samples, x.timestamp) then 0 else 1)
  {
    var s := c.samples;
    var numSamples := |s|;
    var newChunk := NewChunk(c.size);
    var ts := x.timestamp;
    var i := 0;
    var iterSample := s[0];
    while i < numSamples
      invariant 0 <= i <= numSamples
      invariant newChunk.samples == s[..i] && Fits(newChunk)
      invariant forall k :: 0 <= k < i ==> s[k].timestamp < ts
      invariant i > 0 ==> iterSample == s[i - 1]
    {
      iterSample := s[i];
      if iterSample.timestamp >= ts {
        break;
      }
      newChunk := EnsureAddSample(newChunk, iterSample, cost);
      i := i + 1;
    }
    FirstStop(s, i, ts);
    // The iterator's next unread sample, once the stored one at `ts` is skipped.
    var rest := i;
    sizeDelta := 0;
    var value := x.value;
    if ts == iterSample.timestamp {
      match dup(iterSample, x)
      case None =>
        return c, 0, false;
      case Some(v) =>
        value := v;
        rest := i + 1;
        sizeDelta := -1;
    }
    newChunk := EnsureAddSample(newChunk, Sample(ts, value), cost);
    sizeDelta := sizeDelta + 1;
    if i < numSamples {
      newChunk := AppendAll(newChunk, s[rest..], cost);
    } else {
      assert s[rest..] == [];
    }
    r, ok := newChunk, true;
  }

  /** The copy loop stops at the first sample at or after `t`. */
  lemma {:induction false} FirstStop(s: seq<Sample>, i: nat, t: Timestamp)
    requires i <= |s| && forall k :: 0 <= k < i ==> s[k].timestamp < t
    requires i < |s| ==> s[i].timestamp >= t
    ensures i == FirstAtOrAfter(s, t)
  {
    if s != [] && s[0].timestamp < t {
      FirstStop(s[1..], i - 1, t);
    }
  }

  /** The tail loop of the upsert: every remaining sample appended in order, growing the chunk as needed. */
  method AppendAll(c: Compressed, tail: seq<Sample>, cost: Cost) returns (r: Compressed)
    requires Fits(c) && CostBounded(cost)
    ensures r.samples == c.samples + tail && Fits(r)
  {
    r := c;
    var j := 0;
    while j < |tail|
      invariant 0 <= j <= |tail|
      invariant r.samples == c.samples + tail[..j] && Fits(r)
    {
      r := EnsureAddSample(r, tail[j], cost);
      assert tail[..j + 1] == tail[..j] + [tail[j]];
      j := j + 1;
    }
    assert tail[..j] == tail;
  }

  // ---------------------------------------------------------------------
  // Serialisation
  // ---------------------------------------------------------------------

  /** The stored fields of a compressed chunk, in declaration order, and its data bytes. */
  datatype ChunkRecord = ChunkRecord(
    size: U64,
    count: U64,
    idx: U64,
    baseValue: U64,
    baseTimestamp: U64,
    prevTimestamp: U64,
    prevTimestampDelta: int,
    prevValue: U64,
    prevLeading: U64,
    prevTrailing: U64,
    data: seq<Byte>)

  /** The record's data buffer holds `size` bytes and its delta is a signed 64-bit value. */
  predicate ValidRecord(r: ChunkRecord)
  {
    |r.data| == r.size && LLONG_MIN <= r.prevTimestampDelta <= LLONG_MAX
  }

  /** `Compressed_NewChunk` on the stored fields. */
  function NewChunkRecord(size: U64): (r: ChunkRecord)
    ensures ValidRecord(r) && r.size == size && r.count == 0 && r.idx == 0
    ensures r.prevLeading == INITIAL_LEADING_TRAILING && r.prevTrailing == INITIAL_LEADING_TRAILING
    ensures forall k :: 0 <= k < |r.data| ==> r.data[k] == 0
  {
    ChunkRecord(size, 0, 0, 0, 0, 0, 0, 0, INITIAL_LEADING_TRAILING, INITIAL_LEADING_TRAILING, seq(size, _ => 0))
  }

  /**
   * The sample view and the stored fields describe one chunk: the same
   * allocated bytes, the same number of samples and the same written bits.
   * The codec's running state (base, previous value and delta, leading and
   * trailing zeros) has no counterpart in the sample view.
   */
  predicate SameChunk(c: Compressed, r: ChunkRecord)
  {
    c.size == r.size && |c.samples| == r.count && c.idx == r.idx && |r.data| == c.size
  }

  /** `Compressed_NewChunk` allocates one chunk, whichever view describes it. */
  lemma NewChunkViews(size: U64)
    ensures SameChunk(NewChunk(size), NewChunkRecord(size))
  {
  }

  /** What a save writes: 64-bit unsigned numbers and byte buffers. */
  datatype Saved = Unsigned(n: U64) | Buffer(bytes: seq<Byte>)

  /** `Compressed_Serialize`: ten unsigned fields, the signed delta through its unsigned bits, then the data. */
  function Serialize(r: ChunkRecord): (out: seq<Saved>)
    requires ValidRecord(r)
    ensures |out| == 11 && out[10] == Buffer(r.data)
    ensures forall k :: 0 <= k < 10 ==> out[k].Unsigned?
  {
    [ Unsigned(r.size), Unsigned(r.count), Unsigned(r.idx), Unsigned(r.baseValue),
      Unsigned(r.baseTimestamp), Unsigned(r.prevTimestamp), Unsigned(ToU64(r.prevTimestampDelta)),
      Unsigned(r.prevValue), Unsigned(r.prevLeading), Unsigned(r.prevTrailing), Buffer(r.data) ]
  }

  /**
   * `Compressed_Deserialize`: the same fields read back in the same order.
   * The source reads the stream without checking its shape; `None` stands
   * for a stream not of the shape a save writes, which the RDB reader is
   * taken never to supply.
   */
  function Deserialize(saved: seq<Saved>): (r: Option<ChunkRecord>)
    ensures r.Some? <==> |saved| == 11 && saved[10].Buffer? && forall k :: 0 <= k < 10 ==> saved[k].Unsigned?
  {
    if |saved| == 11 && saved[10].Buffer? && forall k :: 0 <= k < 10 ==> saved[k].Unsigned? then
      Some(ChunkRecord(
        saved[0].n, saved[1].n, saved[2].n, saved[3].n, saved[4].n, saved[5].n,
        ToI64(saved[6].n),
        saved[7].n, saved[8].n, saved[9].n, saved[10].bytes))
    else None
  }

  /** Loading what was saved restores every field and the data. */
  lemma SerializeRoundTrip(r: ChunkRecord)
    requires ValidRecord(r)
    ensures Deserialize(Serialize(r)) == Some(r)
  {
    SignedRoundTrip(r.prevTimestampDelta);
  }

  /** Saving what was loaded writes the same stream, when the buffer is as long as the size field says. */
  lemma DeserializeRoundTrip(saved: seq<Saved>)
    requires Deserialize(saved).Some? && ValidRecord(Deserialize(saved).value)
    ensures Serialize(Deserialize(saved).value) == saved
  {
  }
}

=== FILE: gears_commands.dfy ===
/**
 * The cluster commands run through RedisGears (src/gears_commands.c):
 * TS.MGET, TS.MRANGE/TS.MREVRANGE and TS.QUERYINDEX dispatch an execution
 * to every shard and block the client; the done-callback merges the
 * records the shards sent back, replies, unblocks the client and releases
 * what the command held.
 *
 * The engine is a state machine seen through a ledger of events: what the
 * client is sent, when it is blocked and unblocked, which callback is
 * registered, and every reference taken on or released from the predicate
 * list, every series freed. The outcomes of `RedisGears_CreateCtx` and
 * `RGM_Run` are parameters, and so are the records an execution returns.
 *
 * RedisGears frees a plan's argument, which holds a predicate list
 * reference, when the plan is freed without having run, or when the
 * execution that ran it is dropped; the ledger records that release there.
 */
module GearsCommands {

  import opened Common
  import opened Tsdb
  import opened Indexer
  import opened QueryLanguage
  import opened ResultSet

  /** A record an execution returns: a series, or some other record type. */
  datatype Record = SeriesRecord(series: Series) | OtherRecord(tag: nat)

  /** The done-callback registered on an execution, with the data it is given. */
  datatype Callback = MGetDone | MRangeDone(args: MRangeArgs, reverse: bool)

  datatype Event =
    | Reply(t: Token)                 // an array header or a per-series entry
    | ReplyRecord(rec: Record)        // `RedisGears_RecordSendReply`
    | ReplyError(err: MRangeError)
    | Block
    | OnDone(cb: Callback)
    | Unblock
    | CreatePredicates                // a predicate list allocated with one reference
    | RetainPredicates                // `ref++`
    | ReleasePredicates               // `QueryPredicateList_Free`, directly or through its holder
    | FreePlan                        // `RedisGears_FreeFlatExecution`
    | FreeSeries(s: Series)
    | DropExecution
    | FreeContext

  predicate IsReply(e: Event)
  {
    e.Reply? || e.ReplyRecord? || e.ReplyError?
  }

  // ---------------------------------------------------------------------
  // What a ledger amounts to
  // ---------------------------------------------------------------------

  /** The bookkeeping events a ledger counts. */
  datatype Kind = Creates | Retains | Releases | Blocks | Unblocks

  /** 1 when `e` is of kind `k`, else 0. */
  function Mark(e: Event, k: Kind): nat
  {
    match k
    case Creates => if e.CreatePredicates? then 1 else 0
    case Retains => if e.RetainPredicates? then 1 else 0
    case Releases => if e.ReleasePredicates? then 1 else 0
    case Blocks => if e.Block? then 1 else 0
    case Unblocks => if e.Unblock? then 1 else 0
  }

  function ReplyOf(e: Event): seq<Event>
  {
    if IsReply(e) then [e] else []
  }

  function CallbackOf(e: Event): seq<Callback>
  {
    if e.OnDone? then [e.cb] else []
  }

  function FreedOf(e: Event): seq<Series>
  {
    if e.FreeSeries? then [e.s] else []
  }

  /** How many events of kind `k` the ledger holds. */
  function Count(ledger: seq<Event>, k: Kind): nat
  {
    if ledger == [] then 0 else Mark(ledger[0], k) + Count(ledger[1..], k)
  }

  /** What the client is sent, in order. */
  function Replies(ledger: seq<Event>): seq<Event>
  {
    if ledger == [] then [] else ReplyOf(ledger[0]) + Replies(ledger[1..])
  }

  /** The done-callbacks registered, in order. */
  function Registered(ledger: seq<Event>): seq<Callback>
  {
    if ledger == [] then [] else CallbackOf(ledger[0]) + Registered(ledger[1..])
  }

  /** The series freed, in order. */
  function Freed(ledger: seq<Event>): seq<Series>
  {
    if ledger == [] then [] else FreedOf(ledger[0]) + Freed(ledger[1..])
  }

  /** The first registered done-callback. */
  function DoneOf(ledger: seq<Event>): Option<Callback>
  {
    var registered := Registered(ledger);
    if registered == [] then None else Some(registered[0])
  }

  /**
   * An expected summary of a ledger: the replies in order, how often each
   * bookkeeping event occurs, the callbacks registered and the series freed.
   */
  datatype Tally = Tally(
    replies: seq<Event> := [],
    creates: nat := 0,
    retains: nat := 0,
    releases: nat := 0,
    blocks: nat := 0,
    unblocks: nat := 0,
    registered: seq<Callback> := [],
    freed: seq<Series> := [])

  /** The ledger amounts to `t`. */
  predicate Sums(ledger: seq<Event>, t: Tally)
  {
    && Replies(ledger) == t.replies
    && Count(ledger, Creates) == t.creates
    && Count(ledger, Retains) == t.retains
    && Count(ledger, Releases) == t.releases
    && Count(ledger, Blocks) == t.blocks
    && Count(ledger, Unblocks) == t.unblocks
    && Registered(ledger) == t.registered
    && Freed(ledger) == t.freed
  }

  /** Every summary of a concatenation is that of the first part followed by that of the second. */
  lemma {:induction false} SumConcat(a: seq<Event>, b: seq<Event>)
    ensures Replies(a + b) == Replies(a) + Replies(b)
    ensures Registered(a + b) == Registered(a) + Registered(b)
    ensures Freed(a + b) == Freed(a) + Freed(b)
    ensures Count(a + b, Creates) == Count(a, Creates) + Count(b, Creates)
    ensures Count(a + b, Retains) == Count(a, Retains) + Count(b, Retains)
    ensures Count(a + b, Releases) == Count(a, Releases) + Count(b, Releases)
    ensures Count(a + b, Blocks) == Count(a, Blocks) + Count(b, Blocks)
    ensures Count(a + b, Unblocks) == Count(a, Unblocks) + Count(b, Unblocks)
  {
    if a == [] {
      assert a + b == b;
    } else {
      assert (a + b)[0] == a[0];
      assert (a + b)[1..] == a[1..] + b;
      SumConcat(a[1..], b);
      assert ReplyOf(a[0]) + (Replies(a[1..]) + Replies(b)) == (ReplyOf(a[0]) + Replies(a[1..])) + Replies(b);
      assert CallbackOf(a[0]) + (Registered(a[1..]) + Registered(b)) == (CallbackOf(a[0]) + Registered(a[1..])) + Registered(b);
      assert FreedOf(a[0]) + (Freed(a[1..]) + Freed(b)) == (FreedOf(a[0]) + Freed(a[1..])) + Freed(b);
    }
  }

  /** The summary of a single event. */
  lemma SumOne(e: Event)
    ensures Replies([e]) == ReplyOf(e) && Registered([e]) == CallbackOf(e) && Freed([e]) == FreedOf(e)
    ensures Count([e], Creates) == Mark(e, Creates)
    ensures Count([e], Retains) == Mark(e, Retains)
    ensures Count([e], Releases) == Mark(e, Releases)
    ensures Count([e], Blocks) == Mark(e, Blocks)
    ensures Count([e], Unblocks) == Mark(e, Unblocks)
  {
    assert [e][1..] == [];
  }

  /** The summary of two events. */
  lemma SumTwo(a: Event, b: Event)
    ensures Replies([a, b]) == ReplyOf(a) + ReplyOf(b)
    ensures Registered([a, b]) == CallbackOf(a) + CallbackOf(b)
    ensures Freed([a, b]) == FreedOf(a) + FreedOf(b)
    ensures Count([a, b], Creates) == Mark(a, Creates) + Mark(b, Creates)
    ensures Count([a, b], Retains) == Mark(a, Retains) + Mark(b, Retains)
    ensures Count([a, b], Releases) == Mark(a, Releases) + Mark(b, Releases)
    ensures Count([a, b], Blocks) == Mark(a, Blocks) + Mark(b, Blocks)
    ensures Count([a, b], Unblocks) == Mark(a, Unblocks) + Mark(b, Unblocks)
  {
    assert [a, b] == [a] + [b];
    SumOne(a);
    SumOne(b);
    SumConcat([a], [b]);
  }

  /** The summary of three events. */
  lemma SumThree(a: Event, b: Event, c: Event)
    ensures Replies([a, b, c]) == ReplyOf(a) + ReplyOf(b) + ReplyOf(c)
    ensures Registered([a, b, c]) == CallbackOf(a) + CallbackOf(b) + CallbackOf(c)
    ensures Freed([a, b, c]) == FreedOf(a) + FreedOf(b) + FreedOf(c)
    ensures Count([a, b, c], Creates) == Mark(a, Creates) + Mark(b, Creates) + Mark(c, Creates)
    ensures Count([a, b, c], Retains) == Mark(a, Retains) + Mark(b, Retains) + Mark(c, Retains)
    ensures Count([a, b, c], Releases) == Mark(a, Releases) + Mark(b, Releases) + Mark(c, Releases)
    ensures Count([a, b, c], Blocks) == Mark(a, Blocks) + Mark(b, Blocks) + Mark(c, Blocks)
    ensures Count([a, b, c], Unblocks) == Mark(a, Unblocks) + Mark(b, Unblocks) + Mark(c, Unblocks)
  {
    assert [a, b, c] == [a, b] + [c];
    SumTwo(a, b);
    SumOne(c);
    SumConcat([a, b], [c]);
  }

  /** The summary of four events. */
  lemma SumFour(a: Event, b: Event, c: Event, d: Event)
    ensures Replies([a, b, c, d]) == ReplyOf(a) + ReplyOf(b) + ReplyOf(c) + ReplyOf(d)
    ensures Registered([a, b, c, d]) == CallbackOf(a) + CallbackOf(b) + CallbackOf(c) + CallbackOf(d)
    ensures Freed([a, b, c, d]) == FreedOf(a) + FreedOf(b) + FreedOf(c) + FreedOf(d)
    ensures Count([a, b, c, d], Creates) == Mark(a, Creates) + Mark(b, Creates) + Mark(c, Creates) + Mark(d, Creates)
    ensures Count([a, b, c, d], Retains) == Mark(a, Retains) + Mark(b, Retains) + Mark(c, Retains) + Mark(d, Retains)
    ensures Count([a, b, c, d], Releases) == Mark(a, Releases) + Mark(b, Releases) + Mark(c, Releases) + Mark(d, Releases)
    ensures Count([a, b, c, d], Blocks) == Mark(a, Blocks) + Mark(b, Blocks) + Mark(c, Blocks) + Mark(d, Blocks)
    ensures Count([a, b, c, d], Unblocks) == Mark(a, Unblocks) + Mark(b, Unblocks) + Mark(c, Unblocks) + Mark(d, Unblocks)
  {
    assert [a, b, c, d] == [a, b, c] + [d];
    SumThree(a, b, c);
    SumOne(d);
    SumConcat([a, b, c], [d]);
  }

  /** A sequence of replies sums to itself as the replies and nothing else. */
  lemma {:induction false} RepliesSum(ledger: seq<Event>)
    requires forall k :: 0 <= k < |ledger| ==> IsReply(ledger[k])
    ensures Sums(ledger, Tally(replies := ledger))
  {
    if ledger != [] {
      RepliesSum(ledger[1..]);
      assert ledger == [ledger[0]] + ledger[1..];
    }
  }

  /** A reply on its own. */
  lemma SumsReply(e: Event)
    requires IsReply(e)
    ensures Sums([e], Tally(replies := [e]))
  {
    SumOne(e);
  }

  /** A ledger that counts no unblock holds none. */
  lemma {:induction false} NoUnblock(ledger: seq<Event>)
    requires Count(ledger, Unblocks) == 0
    ensures forall i :: 0 <= i < |ledger| ==> ledger[i] != Unblock
  {
    if ledger != [] {
      NoUnblock(ledger[1..]);
      assert forall i :: 1 <= i < |ledger| ==> ledger[i] == ledger[1..][i - 1];
    }
  }

  /** A ledger that replies nothing holds no reply. */
  lemma {:induction false} NoReply(ledger: seq<Event>)
    requires Replies(ledger) == []
    ensures forall i :: 0 <= i < |ledger| ==> !IsReply(ledger[i])
  {
    if ledger != [] {
      assert |ReplyOf(ledger[0])| + |Replies(ledger[1..])| == 0;
      NoReply(ledger[1..]);
      assert forall i :: 1 <= i < |ledger| ==> ledger[i] == ledger[1..][i - 1];
    }
  }

  // ---------------------------------------------------------------------
  // Composing summaries
  // ---------------------------------------------------------------------

  /** `x + y`, with an empty side left out. */
  function Cat<T>(x: seq<T>, y: seq<T>): seq<T>
  {
    if |x| == 0 then y else if |y| == 0 then x else x + y
  }

  lemma CatConcat<T>(x: seq<T>, y: seq<T>)
    ensures Cat(x, y) == x + y
  {
    if |x| == 0 {
      assert x + y == y;
    } else if |y| == 0 {
      assert x + y == x;
    }
  }

  /** Two ledgers one after the other amount to their summaries added up. */
  lemma SumsThen(a: seq<Event>, ta: Tally, b: seq<Event>, tb: Tally)
    requires Sums(a, ta) && Sums(b, tb)
    ensures Sums(a + b, Tally(Cat(ta.replies, tb.replies), ta.creates + tb.creates, ta.retains + tb.retains,
                              ta.releases + tb.releases, ta.blocks + tb.blocks, ta.unblocks + tb.unblocks,
                              Cat(ta.registered, tb.registered), Cat(ta.freed, tb.freed)))
  {
    SumConcat(a, b);
    CatConcat(ta.replies, tb.replies);
    CatConcat(ta.registered, tb.registered);
    CatConcat(ta.freed, tb.freed);
  }

  /** An event that sends, registers and frees nothing. */
  predicate QuietEvent(e: Event)
  {
    !IsReply(e) && !e.OnDone? && !e.FreeSeries?
  }

  /** `t` with the bookkeeping of the quiet event `e` added. */
  function Bump(t: Tally, e: Event): Tally
  {
    Tally(t.replies, t.creates + Mark(e, Creates), t.retains + Mark(e, Retains), t.releases + Mark(e, Releases),
          t.blocks + Mark(e, Blocks), t.unblocks + Mark(e, Unblocks), t.registered, t.freed)
  }

  lemma SumsBefore(e: Event, l: seq<Event>, t: Tally)
    requires QuietEvent(e) && Sums(l, t)
    ensures Sums([e] + l, Bump(t, e))
  {
    SumOne(e);
    SumConcat([e], l);
    assert [] + t.replies == t.replies;
    assert [] + t.registered == t.registered;
    assert [] + t.freed == t.freed;
  }

  lemma SumsAfter(l: seq<Event>, t: Tally, e: Event)
    requires QuietEvent(e) && Sums(l, t)
    ensures Sums(l + [e], Bump(t, e))
  {
    SumOne(e);
    SumConcat(l, [e]);
    assert t.replies + [] == t.replies;
    assert t.registered + [] == t.registered;
    assert t.freed + [] == t.freed;
  }

  /** A reply sent first comes before the ledger's own. */
  lemma SumsReplyFirst(e: Event, l: seq<Event>, t: Tally)
    requires IsReply(e) && Sums(l, t)
    ensures Sums([e] + l, Tally([e] + t.replies, t.creates, t.retains, t.releases, t.blocks, t.unblocks, t.registered, t.freed))
  {
    SumOne(e);
    SumConcat([e], l);
    assert [] + t.registered == t.registered;
    assert [] + t.freed == t.freed;
  }

  /** A list allocated first adds one creation. */
  lemma SumsCreate(l: seq<Event>, t: Tally)
    requires Sums(l, t)
    ensures Sums([CreatePredicates] + l, Tally(t.replies, t.creates + 1, t.retains, t.releases, t.blocks, t.unblocks, t.registered, t.freed))
  {
    SumsBefore(CreatePredicates, l, t);
  }

  /** A reference taken first adds one retain. */
  lemma SumsRetain(l: seq<Event>, t: Tally)
    requires Sums(l, t)
    ensures Sums([RetainPredicates] + l, Tally(t.replies, t.creates, t.retains + 1, t.releases, t.blocks, t.unblocks, t.registered, t.freed))
  {
    SumsBefore(RetainPredicates, l, t);
  }

  /** A reference released first adds one release. */
  lemma SumsReleaseFirst(l: seq<Event>, t: Tally)
    requires Sums(l, t)
    ensures Sums([ReleasePredicates] + l, Tally(t.replies, t.creates, t.retains, t.releases + 1, t.blocks, t.unblocks, t.registered, t.freed))
  {
    SumsBefore(ReleasePredicates, l, t);
  }

  /** A reference released last adds one release. */
  lemma SumsReleaseLast(l: seq<Event>, t: Tally)
    requires Sums(l, t)
    ensures Sums(l + [ReleasePredicates], Tally(t.replies, t.creates, t.retains, t.releases + 1, t.blocks, t.unblocks, t.registered, t.freed))
  {
    SumsAfter(l, t, ReleasePredicates);
  }

  /** An unblock last adds one unblock. */
  lemma SumsUnblock(l: seq<Event>, t: Tally)
    requires Sums(l, t)
    ensures Sums(l + [Unblock], Tally(t.replies, t.creates, t.retains, t.releases, t.blocks, t.unblocks + 1, t.registered, t.freed))
  {
    SumsAfter(l, t, Unblock);
  }

  /** The summary a ledger has. */
  function TallyOf(ledger: seq<Event>): Tally
  {
    Tally(Replies(ledger), Count(ledger, Creates), Count(ledger, Retains), Count(ledger, Releases),
          Count(ledger, Blocks), Count(ledger, Unblocks), Registered(ledger), Freed(ledger))
  }

  /** The client is sent exactly one well-formed reply: an error, or an array with as many elements as it declares. */
  predicate OneReply(replies: seq<Event>)
  {
    || (|replies| == 1 && replies[0].ReplyError?)
    || (|replies| >= 1 && replies[0] == Reply(Header(|replies| - 1))
        && forall k :: 1 <= k < |replies| ==> replies[k].ReplyRecord? || (replies[k].Reply? && replies[k].t.Entry?))
  }

  /**
   * A dispatch ends one way: one error reply and no block, or no reply and
   * the client blocked with exactly one done-callback registered.
   */
  predicate Dispatched(ledger: seq<Event>)
  {
    || (|Replies(ledger)| == 1 && Replies(ledger)[0].ReplyError? && Count(ledger, Blocks) == 0 && Registered(ledger) == [])
    || (Replies(ledger) == [] && Count(ledger, Blocks) == 1 && |Registered(ledger)| == 1)
  }

  /** Every predicate list reference created or taken is released: none leaks, none is released twice. */
  predicate Balanced(ledger: seq<Event>)
  {
    Count(ledger, Releases) == Count(ledger, Creates) + Count(ledger, Retains)
  }

  // ---------------------------------------------------------------------
  // Dispatch
  // ---------------------------------------------------------------------

  /**
   * `RGM_Run` and what follows it: on failure the plan is freed (releasing
   * its argument's reference) and the error replied; on success the client
   * is blocked, one done-callback registered, and the plan handed over.
   */
  function Run(runErr: Option<string>, cb: Callback): seq<Event>
  {
    match runErr
    case Some(e) => [FreePlan, ReleasePredicates, ReplyError(Message(e))]
    case None => [Block, OnDone(cb), FreePlan]
  }

  /** A failed run releases the plan's reference and replies its error. */
  lemma RunFailSum(e: string, cb: Callback)
    ensures Sums(Run(Some(e), cb), Tally(releases := 1, replies := [ReplyError(Message(e))]))
  {
    SumThree(FreePlan, ReleasePredicates, ReplyError(Message(e)));
  }

  /** A successful run blocks the client and registers `cb`. */
  lemma RunOkSum(cb: Callback)
    ensures Sums(Run(None, cb), Tally(blocks := 1, registered := [cb]))
  {
    SumThree(Block, OnDone(cb), FreePlan);
  }

  /**
   * The shared tail of the three dispatchers as written: a `CreateCtx`
   * error is replied and the dispatch carries on; a command that shares the
   * list with the plan takes a reference (`retain`).
   */
  function LaunchAsWritten(createErr: Option<string>, retain: bool, runErr: Option<string>, cb: Callback): seq<Event>
  {
    (if createErr.Some? then [ReplyError(Message(createErr.value))] else [])
    + (if retain then [RetainPredicates] else [])
    + Run(runErr, cb)
  }

  /**
   * The shared tail with both defects corrected: a `CreateCtx` error
   * releases what the command owns (`owned`: a list it parsed itself) and
   * returns; a run failure of a command that keeps its own reference next to
   * the plan's (`owned` and `retain`, TS.MRANGE) releases that one too.
   */
  function Launch(createErr: Option<string>, owned: bool, retain: bool, runErr: Option<string>, cb: Callback): seq<Event>
  {
    match createErr
    case Some(e) => (if owned then [ReleasePredicates] else []) + [ReplyError(Message(e))]
    case None =>
      (if retain then [RetainPredicates] else [])
      + Run(runErr, cb)
      + (if owned && retain && runErr.Some? then [ReleasePredicates] else [])
  }

  /**
   * The corrected tail on a `CreateCtx` error: the error alone, and the
   * owned list released.
   */
  lemma LaunchCreateError(e: string, owned: bool, retain: bool, runErr: Option<string>, cb: Callback)
    ensures Sums(Launch(Some(e), owned, retain, runErr, cb),
                 Tally(replies := [ReplyError(Message(e))], releases := if owned then 1 else 0))
  {
    var m := ReplyError(Message(e));
    SumsReply(m);
    if owned {
      SumsReleaseFirst([m], Tally(replies := [m]));
    } else {
      assert Launch(Some(e), owned, retain, runErr, cb) == [m];
    }
  }

  /**
   * The corrected tail when the run fails: its error is replied, and the
   * plan's reference and, for TS.MRANGE, the command's are released.
   */
  lemma LaunchRunFail(owned: bool, retain: bool, e: string, cb: Callback)
    ensures Sums(Launch(None, owned, retain, Some(e), cb),
                 Tally(replies := [ReplyError(Message(e))], retains := if retain then 1 else 0,
                       releases := if owned && retain then 2 else 1))
  {
    var run := Run(Some(e), cb);
    var t := Tally(releases := 1, replies := [ReplyError(Message(e))]);
    RunFailSum(e, cb);
    if retain {
      SumsRetain(run, t);
      if owned {
        SumsReleaseLast([RetainPredicates] + run, Tally(t.replies, t.creates, t.retains + 1, t.releases, t.blocks, t.unblocks, t.registered, t.freed));
      } else {
        assert Launch(None, owned, retain, Some(e), cb) == [RetainPredicates] + run;
      }
    } else {
      assert Launch(None, owned, retain, Some(e), cb) == run;
    }
  }

  /** The corrected tail when the run succeeds: the client blocked, `cb` registered, nothing released. */
  lemma LaunchRunOk(owned: bool, retain: bool, cb: Callback)
    ensures Sums(Launch(None, owned, retain, None, cb),
                 Tally(retains := if retain then 1 else 0, blocks := 1, registered := [cb]))
  {
    var run := Run(None, cb);
    RunOkSum(cb);
    if retain {
      SumsRetain(run, Tally(blocks := 1, registered := [cb]));
      assert Launch(None, owned, retain, None, cb) == [RetainPredicates] + run;
    } else {
      assert Launch(None, owned, retain, None, cb) == run;
    }
  }

  /**
   * The corrected tail ends every dispatch one way, and registers `cb`
   * exactly when both the context and the run succeed. The plan's argument
   * holds a reference, the moved list or the retained one: a dispatch that
   * registers no callback has released the owned list and every reference
   * it took, one that registers `cb` has released nothing and leaves them to
   * the callback.
   */
  lemma LaunchDispatched(createErr: Option<string>, owned: bool, retain: bool, runErr: Option<string>, cb: Callback)
    requires owned || retain
    ensures var l := Launch(createErr, owned, retain, runErr, cb);
      && Dispatched(l)
      && (Registered(l) != [] <==> createErr.None? && runErr.None?)
      && (Registered(l) != [] ==> Registered(l) == [cb])
      && Count(l, Creates) == 0 && Count(l, Unblocks) == 0 && Freed(l) == []
      && (Registered(l) == [] ==> Count(l, Releases) == (if owned then 1 else 0) + Count(l, Retains))
      && (Registered(l) != [] ==> Count(l, Releases) == 0 && Count(l, Retains) == (if retain then 1 else 0))
  {
    match (createErr, runErr)
    case (Some(e), _) => LaunchCreateError(e, owned, retain, runErr, cb);
    case (None, Some(e)) => LaunchRunFail(owned, retain, e, cb);
    case (None, None) => LaunchRunOk(owned, retain, cb);
  }

  /**
   * A `CreateCtx` error as written: the client is sent the error and then
   * either a second error (the run fails) or is blocked for a reply that
   * will follow (the run succeeds); either way the dispatch does not end one
   * way.
   */
  lemma LaunchAsWrittenCreateError(e: string, retain: bool, runErr: Option<string>, cb: Callback)
    ensures !Dispatched(LaunchAsWritten(Some(e), retain, runErr, cb))
    ensures runErr.Some? ==> Replies(LaunchAsWritten(Some(e), retain, runErr, cb)) == [ReplyError(Message(e)), ReplyError(Message(runErr.value))]
    ensures runErr.None? ==>
      && Replies(LaunchAsWritten(Some(e), retain, runErr, cb)) == [ReplyError(Message(e))]
      && Count(LaunchAsWritten(Some(e), retain, runErr, cb), Blocks) == 1
      && DoneOf(LaunchAsWritten(Some(e), retain, runErr, cb)) == Some(cb)
  {
    match runErr
    case Some(f) => LaunchAsWrittenCreateFail(e, retain, f, cb);
    case None => LaunchAsWrittenCreateOk(e, retain, cb);
  }

  /** The `CreateCtx` error as written followed by a failed run: two errors are replied. */
  lemma LaunchAsWrittenCreateFail(e: string, retain: bool, f: string, cb: Callback)
    ensures Replies(LaunchAsWritten(Some(e), retain, Some(f), cb)) == [ReplyError(Message(e)), ReplyError(Message(f))]
  {
    var m := ReplyError(Message(e));
    var run := Run(Some(f), cb);
    var t := Tally(releases := 1, replies := [ReplyError(Message(f))]);
    RunFailSum(f, cb);
    if retain {
      SumsRetain(run, t);
      SumsReplyFirst(m, [RetainPredicates] + run,
                     Tally(t.replies, t.creates, t.retains + 1, t.releases, t.blocks, t.unblocks, t.registered, t.freed));
      assert LaunchAsWritten(Some(e), retain, Some(f), cb) == [m] + ([RetainPredicates] + run);
    } else {
      SumsReplyFirst(m, run, t);
      assert LaunchAsWritten(Some(e), retain, Some(f), cb) == [m] + run;
    }
  }

  /** The `CreateCtx` error as written followed by a successful run: the error is replied and the client blocked. */
  lemma LaunchAsWrittenCreateOk(e: string, retain: bool, cb: Callback)
    ensures Replies(LaunchAsWritten(Some(e), retain, None, cb)) == [ReplyError(Message(e))]
    ensures Count(LaunchAsWritten(Some(e), retain, None, cb), Blocks) == 1
    ensures Registered(LaunchAsWritten(Some(e), retain, None, cb)) == [cb]
  {
    var m := ReplyError(Message(e));
    var run := Run(None, cb);
    var t := Tally(blocks := 1, registered := [cb]);
    RunOkSum(cb);
    if retain {
      SumsRetain(run, t);
      SumsReplyFirst(m, [RetainPredicates] + run,
                     Tally(t.replies, t.creates, t.retains + 1, t.releases, t.blocks, t.unblocks, t.registered, t.freed));
      assert LaunchAsWritten(Some(e), retain, None, cb) == [m] + ([RetainPredicates] + run);
    } else {
      SumsReplyFirst(m, run, t);
      assert LaunchAsWritten(Some(e), retain, None, cb) == [m] + run;
    }
  }

  /** The ledger of a refused command: the list, when one was allocated, then its release, then the error. */
  function Refused(error: MRangeError, listAllocated: bool, listFreed: bool): seq<Event>
  {
    (if listAllocated then [CreatePredicates] else []) + (if listFreed then [ReleasePredicates] else []) + [ReplyError(error)]
  }

  /** What a refusal adds up to: its error, and the list's allocation and release when they happened. */
  lemma RefusedSum(error: MRangeError, listAllocated: bool, listFreed: bool)
    ensures Sums(Refused(error, listAllocated, listFreed),
                 Tally(replies := [ReplyError(error)], creates := if listAllocated then 1 else 0,
                       releases := if listFreed then 1 else 0))
  {
    if listFreed {
      RefusedFreedSum(error, listAllocated);
    } else {
      RefusedKeptSum(error, listAllocated);
    }
  }

  /** A refusal that released the list. */
  lemma RefusedFreedSum(error: MRangeError, listAllocated: bool)
    ensures Sums(Refused(error, listAllocated, true),
                 Tally(replies := [ReplyError(error)], creates := if listAllocated then 1 else 0, releases := 1))
  {
    var m := ReplyError(error);
    SumsReply(m);
    SumsReleaseFirst([m], Tally(replies := [m]));
    if listAllocated {
      SumsCreate([ReleasePredicates] + [m], Tally(replies := [m], releases := 1));
      assert Refused(error, listAllocated, true) == [CreatePredicates] + ([ReleasePredicates] + [m]);
    } else {
      assert Refused(error, listAllocated, true) == [ReleasePredicates] + [m];
    }
  }

  /** A refusal that released no list. */
  lemma RefusedKeptSum(error: MRangeError, listAllocated: bool)
    ensures Sums(Refused(error, listAllocated, false),
                 Tally(replies := [ReplyError(error)], creates := if listAllocated then 1 else 0))
  {
    var m := ReplyError(error);
    SumsReply(m);
    if listAllocated {
      SumsCreate([m], Tally(replies := [m]));
      assert Refused(error, listAllocated, false) == [CreatePredicates] + [m];
    } else {
      assert Refused(error, listAllocated, false) == [m];
    }
  }

  /** A refusal replies its error alone and registers nothing; it leaks nothing exactly when what was allocated was freed. */
  lemma RefusedDispatched(error: MRangeError, listAllocated: bool, listFreed: bool)
    ensures Dispatched(Refused(error, listAllocated, listFreed)) && DoneOf(Refused(error, listAllocated, listFreed)) == None
    ensures Balanced(Refused(error, listAllocated, listFreed)) <==> listAllocated == listFreed
  {
    RefusedSum(error, listAllocated, listFreed);
  }

  // ---------------------------------------------------------------------
  // The three commands
  // ---------------------------------------------------------------------

  /** The parse step of TS.MGET: the predicate list, or the error and whether a list had been allocated. */
  datatype ListParse = ListOk(queries: PredicateList) | ListErr(error: MRangeError, listAllocated: bool)

  /** The filter tokens of TS.MGET: every argument after FILTER, none without FILTER. */
  function MGetTokens(args: seq<string>): (t: seq<string>)
    ensures ArgIndex(args, "FILTER") == -1 ==> t == []
    ensures ArgIndex(args, "FILTER") != -1 ==> |t| == |args| - 1 - ArgIndex(args, "FILTER")
    ensures forall i :: 0 <= i < |t| ==> t[i] == args[ArgIndex(args, "FILTER") + 1 + i]
  {
    var filter := ArgIndex(args, "FILTER");
    if filter == -1 then [] else args[filter + 1..]
  }

  /**
   * The arguments `parsePredicate` copies into its 255-byte buffer for
   * TS.MGET: every token after FILTER. No other argument is bounded.
   */
  predicate MGetTokensFit(args: seq<string>)
  {
    forall i :: 0 <= i < |MGetTokens(args)| ==> |MGetTokens(args)[i]| < 255
  }

  /**
   * The argument checks of `TSDB_mget_RG`: at least three arguments and a
   * FILTER, then every token after FILTER parsed into a list holding one
   * reference, which must contain an equality or list match.
   */
  function MGetParse(args: seq<string>): (r: ListParse)
    requires MGetTokensFit(args)
    ensures r == ListErr(WrongArity, false) <==> |args| < 3 || ArgIndex(args, "FILTER") == -1
    ensures r.ListErr? && r.error != WrongArity ==> r.listAllocated
    ensures r.ListOk? ==> r.queries.ref == 1 && HasMatcher(r.queries.list)
    ensures r.ListOk? ==>
      && |r.queries.list| == |MGetTokens(args)|
      && forall i :: 0 <= i < |r.queries.list| ==> ParsePredicateToken(MGetTokens(args)[i]) == Ok(r.queries.list[i])
    ensures r == ListErr(Message("TSDB: failed parsing labels"), true) <==>
      |args| >= 3 && exists i :: 0 <= i < |MGetTokens(args)| && ParsePredicateToken(MGetTokens(args)[i]).Err?
    ensures r == ListErr(Message("TSDB: please provide at least one matcher"), true) <==>
      && |args| >= 3 && ArgIndex(args, "FILTER") != -1
      && (forall i :: 0 <= i < |MGetTokens(args)| ==> ParsePredicateToken(MGetTokens(args)[i]).Ok?)
      && !HasMatcher(ParseLabelList(MGetTokens(args)).queries.list)
    ensures r.ListOk? <==>
      && |args| >= 3 && ArgIndex(args, "FILTER") != -1
      && (forall i :: 0 <= i < |MGetTokens(args)| ==> ParsePredicateToken(MGetTokens(args)[i]).Ok?)
      && HasMatcher(ParseLabelList(MGetTokens(args)).queries.list)
  {
    if |args| < 3 || ArgIndex(args, "FILTER") == -1 then ListErr(WrongArity, false)
    else
      var parsed := ParseLabelList(MGetTokens(args));
      if !parsed.ok then ListErr(Message("TSDB: failed parsing labels"), true)
      else if !HasMatcher(parsed.queries.list) then ListErr(Message("TSDB: please provide at least one matcher"), true)
      else ListOk(parsed.queries)
  }

  /**
   * The partner of `MGetParse`: written filters with a matcher after FILTER
   * are accepted as exactly those predicates, in a list held once.
   */
  lemma MGetOfFilters(filters: seq<Predicate>)
    requires forall i :: 0 <= i < |filters| ==> WritablePredicate(filters[i]) && |Render(filters[i])| < 255
    requires HasMatcher(filters)
    ensures var args := ["TS.MGET", "FILTER"] + FilterArgs(filters);
      MGetTokensFit(args) && MGetParse(args) == ListOk(PredicateList(filters, |filters|, 1))
  {
    var args := ["TS.MGET", "FILTER"] + FilterArgs(filters);
    assert args == ["TS.MGET"] + ["FILTER"] + FilterArgs(filters);
    ArgIndexAfter(["TS.MGET"], "FILTER", FilterArgs(filters));
    assert MGetTokens(args) == FilterArgs(filters);
    FilterArgsFit(filters);
    LabelListOfFilters(filters);
    assert ParseLabelList(MGetTokens(args)).ok && HasMatcher(ParseLabelList(MGetTokens(args)).queries.list);
  }

  /**
   * `TSDB_mget_RG` with the `CreateCtx` defect corrected (`Launch`): the
   * list moves into the plan's argument with no reference taken.
   */
  function MGet(args: seq<string>, createErr: Option<string>, runErr: Option<string>): seq<Event>
    requires MGetTokensFit(args)
  {
    MGetDispatch(MGetParse(args), createErr, runErr)
  }

  /** What TS.MGET does once its filters are parsed (`p`). */
  function MGetDispatch(p: ListParse, createErr: Option<string>, runErr: Option<string>): seq<Event>
  {
    match p
    case ListErr(error, hadList) => Refused(error, hadList, hadList)
    case ListOk(_) => [CreatePredicates] + Launch(createErr, true, false, runErr, MGetDone)
  }

  /** `TSDB_mget_RG` as written. */
  function MGetAsWritten(args: seq<string>, createErr: Option<string>, runErr: Option<string>): seq<Event>
    requires MGetTokensFit(args)
  {
    match MGetParse(args)
    case ListErr(error, hadList) => Refused(error, hadList, hadList)
    case ListOk(_) => [CreatePredicates] + LaunchAsWritten(createErr, false, runErr, MGetDone)
  }

  /**
   * `TSDB_mrange_RG` with its parse and dispatch corrected (`ParseMRange`,
   * `Launch`): the plan's argument shares the list, so a reference is taken
   * for it.
   */
  function MRange(args: seq<string>, aggTypeOf: string -> int, typesMax: int, reverse: bool, createErr: Option<string>, runErr: Option<string>): seq<Event>
    requires FilterTokensFit(args, ArgIndex(args, "FILTER"))
  {
    MRangeDispatch(ParseMRange(args, aggTypeOf, typesMax), reverse, createErr, runErr)
  }

  /** What TS.MRANGE does once its arguments are parsed (`p`). */
  function MRangeDispatch(p: MRangeParse, reverse: bool, createErr: Option<string>, runErr: Option<string>): seq<Event>
  {
    match p
    case MRangeErr(error, hadList, freedList) => Refused(error, hadList, freedList)
    case MRangeOk(a) => [CreatePredicates] + Launch(createErr, true, true, runErr, MRangeDone(a, reverse))
  }

  /** The dispatch of an accepted TS.MRANGE as written. */
  function MRangeLaunchAsWritten(a: MRangeArgs, reverse: bool, createErr: Option<string>, runErr: Option<string>): seq<Event>
  {
    [CreatePredicates] + LaunchAsWritten(createErr, true, runErr, MRangeDone(a, reverse))
  }

  /**
   * `TSDB_queryindex_RG` with the `CreateCtx` defect corrected: the caller
   * keeps its own reference; the plan's argument takes one more.
   */
  function QueryIndex(createErr: Option<string>, runErr: Option<string>): seq<Event>
  {
    Launch(createErr, false, true, runErr, MGetDone)
  }

  /**
   * `TSDB_mrange_RG` as written: the parse as written, undefined (`None`)
   * where it reads past the argument vector, then the dispatch as written.
   */
  function MRangeAsWritten(args: seq<string>, aggTypeOf: string -> int, typesMax: int, reverse: bool,
                           createErr: Option<string>, runErr: Option<string>): Option<seq<Event>>
    requires |args| <= INT_MAX
    requires FilterTokensFit(args, ArgIndex(args, "FILTER"))
  {
    MRangeDispatchAsWritten(ParseMRangeAsWritten(args, aggTypeOf, typesMax), reverse, createErr, runErr)
  }

  /** What TS.MRANGE as written does once its arguments are parsed (`p`, `None` where the parse is undefined). */
  function MRangeDispatchAsWritten(p: Option<MRangeParse>, reverse: bool, createErr: Option<string>, runErr: Option<string>): Option<seq<Event>>
  {
    match p
    case None => None
    case Some(MRangeErr(error, hadList, freedList)) => Some(Refused(error, hadList, freedList))
    case Some(MRangeOk(a)) => Some(MRangeLaunchAsWritten(a, reverse, createErr, runErr))
  }

  /** `TSDB_queryindex_RG` as written. */
  function QueryIndexAsWritten(createErr: Option<string>, runErr: Option<string>): seq<Event>
  {
    LaunchAsWritten(createErr, true, runErr, MGetDone)
  }

  // ---------------------------------------------------------------------
  // Done-callbacks
  // ---------------------------------------------------------------------

  /** Every reply comes before the one unblock. */
  predicate RepliesBeforeUnblock(ledger: seq<Event>)
  {
    && Count(ledger, Unblocks) == 1
    && forall i, j :: 0 <= i < j < |ledger| && ledger[i] == Unblock ==> !IsReply(ledger[j])
  }

  /**
   * A ledger with one unblock, between a head and a tail that reply
   * nothing else and do not unblock: every reply comes before the unblock.
   */
  lemma UnblockOrder(head: seq<Event>, tail: seq<Event>)
    requires Count(head, Unblocks) == 0 && Count(tail, Unblocks) == 0 && Replies(tail) == []
    ensures var l := head + [Unblock] + tail;
      forall i, j :: 0 <= i < j < |l| && l[i] == Unblock ==> !IsReply(l[j])
  {
    NoUnblock(head);
    NoUnblock(tail);
    NoReply(tail);
    var l := head + [Unblock] + tail;
    forall i, j | 0 <= i < j < |l| && l[i] == Unblock
      ensures !IsReply(l[j])
    {
      assert i == |head|;
      assert l[j] == tail[j - |head| - 1];
    }
  }

  /**
   * A done-callback's shape: a head, the unblock, and a tail that replies
   * nothing. Every reply comes before the unblock, and the summaries add up.
   */
  lemma UnblockBetween(head: seq<Event>, th: Tally, tail: seq<Event>, tt: Tally)
    requires Sums(head, th) && Sums(tail, tt) && th.unblocks == 0 && tt.unblocks == 0 && tt.replies == []
    ensures RepliesBeforeUnblock(head + [Unblock] + tail)
    ensures Sums(head + [Unblock] + tail,
                 Tally(th.replies, th.creates + tt.creates, th.retains + tt.retains, th.releases + tt.releases,
                       th.blocks + tt.blocks, 1, Cat(th.registered, tt.registered), Cat(th.freed, tt.freed)))
  {
    SumsUnblock(head, th);
    SumsThen(head + [Unblock], Tally(th.replies, th.creates, th.retains, th.releases, th.blocks, 1, th.registered, th.freed), tail, tt);
    UnblockOrder(head, tail);
  }

  /** Freeing a sequence of series frees exactly them, and does nothing else. */
  lemma {:induction false} FreeAllSum(series: seq<Series>)
    ensures Sums(FreeAll(series), Tally(freed := series))
  {
    if series != [] {
      FreeAllSum(series[1..]);
      assert FreeAll(series)[1..] == FreeAll(series[1..]);
      assert series == [series[0]] + series[1..];
    }
  }

  /** The reply of `mget_done`: an array of all records, each sent as it is. */
  function MGetReply(records: seq<Record>): seq<Event>
  {
    [Reply(Header(|records|))] + seq(|records|, i requires 0 <= i < |records| => ReplyRecord(records[i]))
  }

  /**
   * `mget_done` (also the callback of TS.QUERYINDEX): the reply, then the
   * client unblocked, the execution dropped (releasing the plan's argument)
   * and the context freed.
   */
  function MGetDoneLedger(records: seq<Record>): seq<Event>
  {
    MGetReply(records) + [Unblock] + [DropExecution, ReleasePredicates, FreeContext]
  }

  /** The reply of `mget_done` is one well-formed array of the records in order. */
  lemma MGetReplyShape(records: seq<Record>)
    ensures var reply := MGetReply(records);
      && OneReply(reply) && |reply| == |records| + 1
      && (forall i :: 0 <= i < |records| ==> reply[i + 1] == ReplyRecord(records[i]))
      && (forall k :: 0 <= k < |reply| ==> IsReply(reply[k]))
  {
  }

  /** The closing events of `mget_done` release the plan's reference and nothing else. */
  lemma DropSum(closing: seq<Event>)
    requires closing == [DropExecution, ReleasePredicates, FreeContext]
    ensures Sums(closing, Tally(releases := 1))
  {
    SumThree(DropExecution, ReleasePredicates, FreeContext);
  }

  /**
   * The client of TS.MGET gets one well-formed array whose elements are the
   * records in order, before it is unblocked; the plan's reference is
   * released once, and nothing else is taken, registered or freed.
   */
  lemma MGetDoneReply(records: seq<Record>)
    ensures OneReply(Replies(MGetDoneLedger(records)))
    ensures |Replies(MGetDoneLedger(records))| == |records| + 1
    ensures forall i :: 0 <= i < |records| ==> Replies(MGetDoneLedger(records))[i + 1] == ReplyRecord(records[i])
    ensures RepliesBeforeUnblock(MGetDoneLedger(records))
    ensures Sums(MGetDoneLedger(records), Tally(replies := MGetReply(records), unblocks := 1, releases := 1))
  {
    var reply := MGetReply(records);
    MGetReplyShape(records);
    RepliesSum(reply);
    DropSum([DropExecution, ReleasePredicates, FreeContext]);
    UnblockBetween(reply, Tally(replies := reply), [DropExecution, ReleasePredicates, FreeContext], Tally(releases := 1));
  }

  /** The series-typed records, in order. */
  function SeriesOf(records: seq<Record>): (r: seq<Series>)
    ensures |r| <= |records|
    ensures |r| == |records| <==> forall i :: 0 <= i < |records| ==> records[i].SeriesRecord?
  {
    if records == [] then []
    else
      var rest := SeriesOf(records[1..]);
      assert forall i :: 1 <= i < |records| ==> records[1..][i - 1] == records[i];
      (if records[0].SeriesRecord? then [records[0].series] else []) + rest
  }

  /** The `tempSeries` slots: zeroed by `calloc`, filled for series records only. */
  function Slots(records: seq<Record>): (r: seq<Option<Series>>)
    ensures |r| == |records|
    ensures forall i :: 0 <= i < |records| ==> (r[i].Some? <==> records[i].SeriesRecord?)
  {
    seq(|records|, i requires 0 <= i < |records| => if records[i].SeriesRecord? then Some(records[i].series) else None)
  }

  /** Releasing every slot: an empty slot releases nothing. */
  function FreeSlots(slots: seq<Option<Series>>): seq<Event>
  {
    if slots == [] then []
    else (if slots[0].Some? then [FreeSeries(slots[0].value)] else []) + FreeSlots(slots[1..])
  }

  function FreeAll(series: seq<Series>): (r: seq<Event>)
    ensures |r| == |series| && forall k :: 0 <= k < |series| ==> r[k] == FreeSeries(series[k])
  {
    seq(|series|, k requires 0 <= k < |series| => FreeSeries(series[k]))
  }

  /** Every series record's series is freed exactly once, in record order, and nothing else. */
  lemma {:induction false} SlotsFreeSeries(records: seq<Record>)
    ensures FreeSlots(Slots(records)) == FreeAll(SeriesOf(records))
  {
    if records != [] {
      SlotsFreeSeries(records[1..]);
      assert Slots(records)[1..] == Slots(records[1..]);
      var head := if records[0].SeriesRecord? then [records[0].series] else [];
      assert SeriesOf(records) == head + SeriesOf(records[1..]);
      assert FreeAll(head + SeriesOf(records[1..])) == FreeAll(head) + FreeAll(SeriesOf(records[1..]));
    }
  }

  /** The reply entry of one series with the command's arguments. */
  function EntryOf(s: Series, a: MRangeArgs, agg: Option<Aggregation>, reverse: bool): Event
  {
    Reply(Entry(SeriesReply(s, a.withLabels, a.startTimestamp, a.endTimestamp, agg, a.count, reverse)))
  }

  /** The ungrouped reply as written: the array declares every record, but only series records are written. */
  function UngroupedReplyAsWritten(records: seq<Record>, a: MRangeArgs, reverse: bool): seq<Event>
  {
    var series := SeriesOf(records);
    [Reply(Header(|records|))] + seq(|series|, k requires 0 <= k < |series| => EntryOf(series[k], a, a.aggregation, reverse))
  }

  /** The ungrouped reply, declaring the series records it writes. */
  function UngroupedReply(records: seq<Record>, a: MRangeArgs, reverse: bool): seq<Event>
  {
    var series := SeriesOf(records);
    [Reply(Header(|series|))] + seq(|series|, k requires 0 <= k < |series| => EntryOf(series[k], a, a.aggregation, reverse))
  }

  /**
   * The ungrouped reply as written is well formed exactly when every record
   * is a series record: any other record leaves the array short of what it
   * declares. The corrected reply is always well formed.
   */
  lemma UngroupedAsWrittenShort(records: seq<Record>, a: MRangeArgs, reverse: bool)
    ensures OneReply(UngroupedReplyAsWritten(records, a, reverse)) <==> forall i :: 0 <= i < |records| ==> records[i].SeriesRecord?
    ensures OneReply(UngroupedReply(records, a, reverse))
  {
  }

  /** One record of another type is enough: the array declares one element and holds none. */
  lemma UngroupedAsWrittenOther(a: MRangeArgs, reverse: bool)
    ensures UngroupedReplyAsWritten([OtherRecord(0)], a, reverse) == [Reply(Header(1))]
    ensures !OneReply(UngroupedReplyAsWritten([OtherRecord(0)], a, reverse))
  {
    assert SeriesOf([OtherRecord(0)]) == [] by {
      assert [OtherRecord(0)][1..] == [];
    }
  }

  /** The series records grouped by the GROUPBY label. */
  function Grouped(records: seq<Record>, g: GroupBy): ResultSet
  {
    AddAll(NewResultSet(g.labelName), SeriesOf(records))
  }

  /** The reduction stage: every group reduced, in forward order, over the command's range and aggregation. */
  function ReducedSet(records: seq<Record>, a: MRangeArgs, g: GroupBy, merge: Merge): ResultSet
  {
    ReduceAll(Grouped(records, g), ReduceCall(g.reducer, a.startTimestamp, a.endTimestamp, a.aggregation, false), merge)
  }

  /**
   * The groups of TS.MRANGE ... GROUPBY: one per value of the label among
   * the series records, in key order, listing exactly the series with that
   * value; after the reduction each holds the one series named after the
   * group, so the members are one per group.
   */
  lemma GroupedSeries(records: seq<Record>, a: MRangeArgs, g: GroupBy, merge: Merge)
    ensures Valid(Grouped(records, g)) && Grouped(records, g).labelKey == g.labelName
    ensures forall v :: ListOf(Grouped(records, g).groups, v) == WithLabel(SeriesOf(records), g.labelName, v)
    ensures var reduced := ReducedSet(records, a, g, merge);
      && Valid(reduced) && Reduced(reduced)
      && |reduced.groups| == |Grouped(records, g).groups| == |Members(reduced.groups)|
      && forall k :: 0 <= k < |reduced.groups| ==>
        && reduced.groups[k].labelValue == Grouped(records, g).groups[k].labelValue
        && Members(reduced.groups)[k] == reduced.groups[k].list[0]
        && Members(reduced.groups)[k].keyName == g.labelName + "=" + reduced.groups[k].labelValue
  {
    GroupsOfSeries(g.labelName, SeriesOf(records));
    var call := ReduceCall(g.reducer, a.startTimestamp, a.endTimestamp, a.aggregation, false);
    ReduceAllSpec(Grouped(records, g), call, merge);
    ReducedMembers(ReducedSet(records, a, g, merge));
  }

  /** The grouped reply: the reduced result set without aggregation but with the user's COUNT and direction. */
  function GroupedReply(records: seq<Record>, a: MRangeArgs, g: GroupBy, reverse: bool, merge: Merge): seq<Event>
  {
    var tokens := ResultSetReply(ReducedSet(records, a, g, merge), a.withLabels, a.startTimestamp, a.endTimestamp, None, a.count, reverse);
    seq(|tokens|, k requires 0 <= k < |tokens| => Reply(tokens[k]))
  }

  /** The grouped reply is one well-formed array with one entry per group: the group's reduced series. */
  lemma GroupedReplyShape(records: seq<Record>, a: MRangeArgs, g: GroupBy, reverse: bool, merge: Merge)
    ensures var reduced := ReducedSet(records, a, g, merge);
      var reply := GroupedReply(records, a, g, reverse, merge);
      && OneReply(reply)
      && |reply| == |reduced.groups| + 1
      && forall k :: 0 <= k < |reduced.groups| ==> reply[k + 1] == EntryOf(reduced.groups[k].list[0], a, None, reverse)
  {
    GroupedSeries(records, a, g, merge);
  }

  /**
   * What `mrange_done` does before the unblock, with the ungrouped array
   * corrected to declare the series it writes: the reply, and for GROUPBY
   * the result set freed (`ResultSet_Free`).
   */
  function DoneHead(records: seq<Record>, a: MRangeArgs, reverse: bool, merge: Merge): seq<Event>
  {
    match a.groupBy
    case None => UngroupedReply(records, a, reverse)
    case Some(g) => GroupedReply(records, a, g, reverse, merge) + FreeAll(Members(ReducedSet(records, a, g, merge).groups))
  }

  /**
   * What `mrange_done` does after the unblock: every `tempSeries` slot
   * released, the arguments freed (`MRangeArgs_Free` releases the command's
   * reference), the execution dropped (releasing the plan's) and the context
   * freed.
   */
  function DoneTail(records: seq<Record>): seq<Event>
  {
    FreeSlots(Slots(records)) + [ReleasePredicates, DropExecution, ReleasePredicates, FreeContext]
  }

  /** The corrected `mrange_done`. */
  function MRangeDoneLedger(records: seq<Record>, a: MRangeArgs, reverse: bool, merge: Merge): seq<Event>
  {
    DoneHead(records, a, reverse, merge) + [Unblock] + DoneTail(records)
  }

  /** What `mrange_done` as written does before the unblock: the ungrouped array declares every record. */
  function DoneHeadAsWritten(records: seq<Record>, a: MRangeArgs, reverse: bool, merge: Merge): seq<Event>
  {
    match a.groupBy
    case None => UngroupedReplyAsWritten(records, a, reverse)
    case Some(_) => DoneHead(records, a, reverse, merge)
  }

  /** `mrange_done` as written. */
  function MRangeDoneLedgerAsWritten(records: seq<Record>, a: MRangeArgs, reverse: bool, merge: Merge): seq<Event>
  {
    DoneHeadAsWritten(records, a, reverse, merge) + [Unblock] + DoneTail(records)
  }

  /** After the unblock every series record's series is freed once, and both references are released. */
  lemma DoneTailSum(records: seq<Record>)
    ensures Sums(DoneTail(records), Tally(releases := 2, freed := SeriesOf(records)))
  {
    var closing := [ReleasePredicates, DropExecution, ReleasePredicates, FreeContext];
    SlotsFreeSeries(records);
    FreeAllSum(SeriesOf(records));
    ClosingSum(closing);
    SumsThen(FreeAll(SeriesOf(records)), Tally(freed := SeriesOf(records)), closing, Tally(releases := 2));
  }

  /** The closing events of `mrange_done` release the two references and nothing else. */
  lemma ClosingSum(closing: seq<Event>)
    requires closing == [ReleasePredicates, DropExecution, ReleasePredicates, FreeContext]
    ensures Sums(closing, Tally(releases := 2))
  {
    SumFour(ReleasePredicates, DropExecution, ReleasePredicates, FreeContext);
  }

  /** Before the unblock: the reply, and in the grouped case the reduced series freed, one per group. */
  lemma DoneHeadSum(records: seq<Record>, a: MRangeArgs, reverse: bool, merge: Merge)
    ensures a.groupBy.None? ==> Sums(DoneHead(records, a, reverse, merge), Tally(replies := UngroupedReply(records, a, reverse)))
    ensures a.groupBy.Some? ==>
      Sums(DoneHead(records, a, reverse, merge),
           Tally(replies := GroupedReply(records, a, a.groupBy.value, reverse, merge),
                 freed := Members(ReducedSet(records, a, a.groupBy.value, merge).groups)))
  {
    match a.groupBy
    case None =>
      RepliesSum(UngroupedReply(records, a, reverse));
    case Some(g) =>
      var reply := GroupedReply(records, a, g, reverse, merge);
      var members := Members(ReducedSet(records, a, g, merge).groups);
      RepliesSum(reply);
      FreeAllSum(members);
      SumsThen(reply, Tally(replies := reply), FreeAll(members), Tally(freed := members));
  }

  /** `mrange_done` without GROUPBY: one entry per series record, with the command's aggregation. */
  lemma MRangeDoneUngrouped(records: seq<Record>, a: MRangeArgs, reverse: bool, merge: Merge)
    requires a.groupBy.None?
    ensures var l := MRangeDoneLedger(records, a, reverse, merge);
      && OneReply(Replies(l)) && RepliesBeforeUnblock(l)
      && |Replies(l)| == |SeriesOf(records)| + 1
      && (forall k :: 0 <= k < |SeriesOf(records)| ==> Replies(l)[k + 1] == EntryOf(SeriesOf(records)[k], a, a.aggregation, reverse))
      && Sums(l, Tally(replies := UngroupedReply(records, a, reverse), releases := 2, unblocks := 1, freed := SeriesOf(records)))
  {
    DoneHeadSum(records, a, reverse, merge);
    DoneTailSum(records);
    UngroupedAsWrittenShort(records, a, reverse);
    UnblockBetween(DoneHead(records, a, reverse, merge), Tally(replies := UngroupedReply(records, a, reverse)),
                   DoneTail(records), Tally(releases := 2, freed := SeriesOf(records)));
  }

  /** `mrange_done` with GROUPBY: one entry per group, the group's reduced series without aggregation. */
  lemma MRangeDoneGrouped(records: seq<Record>, a: MRangeArgs, g: GroupBy, reverse: bool, merge: Merge)
    requires a.groupBy == Some(g)
    ensures var l := MRangeDoneLedger(records, a, reverse, merge);
      var reduced := ReducedSet(records, a, g, merge);
      && OneReply(Replies(l)) && RepliesBeforeUnblock(l)
      && |Replies(l)| == |reduced.groups| + 1
      && (forall k :: 0 <= k < |reduced.groups| ==> Replies(l)[k + 1] == EntryOf(reduced.groups[k].list[0], a, None, reverse))
      && Sums(l, Tally(replies := GroupedReply(records, a, g, reverse, merge), releases := 2, unblocks := 1,
                       freed := Members(reduced.groups) + SeriesOf(records)))
  {
    var members := Members(ReducedSet(records, a, g, merge).groups);
    DoneHeadSum(records, a, reverse, merge);
    DoneTailSum(records);
    GroupedReplyShape(records, a, g, reverse, merge);
    UnblockBetween(DoneHead(records, a, reverse, merge), Tally(replies := GroupedReply(records, a, g, reverse, merge), freed := members),
                   DoneTail(records), Tally(releases := 2, freed := SeriesOf(records)));
    CatConcat(members, SeriesOf(records));
  }

  /**
   * `mrange_done`: the client gets one well-formed array before it is
   * unblocked. Without GROUPBY it holds one entry per series record, with
   * the command's aggregation; with GROUPBY one entry per group, the
   * group's reduced series without aggregation. Every series record's
   * series and every reduced series is freed once, and both list
   * references are released.
   */
  lemma MRangeDoneReply(records: seq<Record>, a: MRangeArgs, reverse: bool, merge: Merge)
    ensures var l := MRangeDoneLedger(records, a, reverse, merge);
      && OneReply(Replies(l)) && RepliesBeforeUnblock(l)
      && Count(l, Releases) == 2 && Count(l, Creates) == 0 && Count(l, Retains) == 0
      && Count(l, Blocks) == 0 && Registered(l) == []
    ensures a.groupBy.None? ==>
      var l := MRangeDoneLedger(records, a, reverse, merge);
      && |Replies(l)| == |SeriesOf(records)| + 1
      && (forall k :: 0 <= k < |SeriesOf(records)| ==> Replies(l)[k + 1] == EntryOf(SeriesOf(records)[k], a, a.aggregation, reverse))
      && Freed(l) == SeriesOf(records)
    ensures a.groupBy.Some? ==>
      var l := MRangeDoneLedger(records, a, reverse, merge);
      var reduced := ReducedSet(records, a, a.groupBy.value, merge);
      && |Replies(l)| == |reduced.groups| + 1
      && (forall k :: 0 <= k < |reduced.groups| ==> Replies(l)[k + 1] == EntryOf(reduced.groups[k].list[0], a, None, reverse))
      && Freed(l) == Members(reduced.groups) + SeriesOf(records)
  {
    match a.groupBy
    case None => MRangeDoneUngrouped(records, a, reverse, merge);
    case Some(g) => MRangeDoneGrouped(records, a, g, reverse, merge);
  }

  /** The done-callback's ledger. */
  function DoneLedger(cb: Callback, records: seq<Record>, merge: Merge): seq<Event>
  {
    match cb
    case MGetDone => MGetDoneLedger(records)
    case MRangeDone(a, reverse) => MRangeDoneLedger(records, a, reverse, merge)
  }

  /** A dispatch followed, when it registered a callback, by that callback on the records the execution returns. */
  function Complete(dispatch: seq<Event>, records: seq<Record>, merge: Merge): seq<Event>
  {
    match DoneOf(dispatch)
    case None => dispatch
    case Some(cb) => dispatch + DoneLedger(cb, records, merge)
  }

  // ---------------------------------------------------------------------
  // Whole commands
  // ---------------------------------------------------------------------

  /** What a command promises over its whole life: one way out of the dispatch, one well-formed reply, no leak. */
  predicate WellRun(dispatch: seq<Event>, records: seq<Record>, merge: Merge)
  {
    && Dispatched(dispatch)
    && OneReply(Replies(Complete(dispatch, records, merge)))
    && Balanced(Complete(dispatch, records, merge))
  }

  /** A list created before the corrected tail only adds its creation. */
  lemma CreatedLaunch(createErr: Option<string>, retain: bool, runErr: Option<string>, cb: Callback)
    ensures var tail := Launch(createErr, true, retain, runErr, cb);
      var l := [CreatePredicates] + tail;
      && Replies(l) == Replies(tail) && Registered(l) == Registered(tail) && Freed(l) == Freed(tail)
      && Count(l, Creates) == 1 + Count(tail, Creates)
      && Count(l, Retains) == Count(tail, Retains)
      && Count(l, Releases) == Count(tail, Releases)
      && Count(l, Blocks) == Count(tail, Blocks)
      && Count(l, Unblocks) == Count(tail, Unblocks)
      && Dispatched(l)
  {
    var tail := Launch(createErr, true, retain, runErr, cb);
    LaunchDispatched(createErr, true, retain, runErr, cb);
    SumsCreate(tail, TallyOf(tail));
  }

  /** The callback of a dispatch that registered one closes it: its replies are the callback's, its counts add up. */
  lemma CompleteSum(dispatch: seq<Event>, done: seq<Event>)
    requires Replies(dispatch) == []
    ensures Replies(dispatch + done) == Replies(done)
    ensures Count(dispatch + done, Creates) == Count(dispatch, Creates) + Count(done, Creates)
    ensures Count(dispatch + done, Retains) == Count(dispatch, Retains) + Count(done, Retains)
    ensures Count(dispatch + done, Releases) == Count(dispatch, Releases) + Count(done, Releases)
  {
    SumsThen(dispatch, TallyOf(dispatch), done, TallyOf(done));
  }

  /**
   * An accepted command's dispatch, a list created and then the corrected
   * tail with the command's own reference kept (`owned`): when no callback
   * is registered the client got one error and every reference is
   * released.
   */
  lemma AcceptedRefusedRun(createErr: Option<string>, retain: bool, runErr: Option<string>, cb: Callback, records: seq<Record>, merge: Merge)
    requires createErr.Some? || runErr.Some?
    ensures WellRun([CreatePredicates] + Launch(createErr, true, retain, runErr, cb), records, merge)
    ensures DoneOf([CreatePredicates] + Launch(createErr, true, retain, runErr, cb)) == None
  {
    LaunchDispatched(createErr, true, retain, runErr, cb);
    CreatedLaunch(createErr, retain, runErr, cb);
  }

  /** The dispatch of an accepted command whose context and run succeed: the list created, the client blocked, `cb` registered. */
  lemma AcceptedDispatch(retain: bool, cb: Callback)
    ensures Sums([CreatePredicates] + Launch(None, true, retain, None, cb),
                 Tally(creates := 1, retains := if retain then 1 else 0, blocks := 1, registered := [cb]))
  {
    LaunchRunOk(true, retain, cb);
    SumsCreate(Launch(None, true, retain, None, cb), Tally(retains := if retain then 1 else 0, blocks := 1, registered := [cb]));
  }

  /**
   * An accepted command whose run was dispatched: the callback's reply is
   * the only one, and the callback releases the references the dispatch
   * left it.
   */
  lemma AcceptedBlocked(l: seq<Event>, done: seq<Event>, records: seq<Record>, merge: Merge)
    requires Dispatched(l) && Replies(l) == [] && DoneOf(l).Some?
    requires DoneLedger(DoneOf(l).value, records, merge) == done
    requires OneReply(Replies(done))
    requires Count(l, Releases) + Count(done, Releases) == Count(l, Creates) + Count(done, Creates) + Count(l, Retains) + Count(done, Retains)
    ensures WellRun(l, records, merge)
  {
    CompleteSum(l, done);
  }

  /**
   * TS.MGET: whatever the arguments and however `CreateCtx` and `RGM_Run`
   * turn out, the dispatch ends one way, the client gets one well-formed
   * reply, and the predicate list is released exactly once.
   */
  lemma MGetWellRun(args: seq<string>, createErr: Option<string>, runErr: Option<string>, records: seq<Record>, merge: Merge)
    requires MGetTokensFit(args)
    ensures WellRun(MGet(args, createErr, runErr), records, merge)
    ensures DoneOf(MGet(args, createErr, runErr)).Some? <==> MGetParse(args).ListOk? && createErr.None? && runErr.None?
  {
    MGetDispatchWellRun(MGetParse(args), createErr, runErr, records, merge);
  }

  /** `MGetWellRun` for any outcome `p` of the filter parse. */
  lemma MGetDispatchWellRun(p: ListParse, createErr: Option<string>, runErr: Option<string>, records: seq<Record>, merge: Merge)
    ensures WellRun(MGetDispatch(p, createErr, runErr), records, merge)
    ensures DoneOf(MGetDispatch(p, createErr, runErr)).Some? <==> p.ListOk? && createErr.None? && runErr.None?
  {
    match p
    case ListErr(error, hadList) =>
      RefusedDispatched(error, hadList, hadList);
    case ListOk(_) =>
      if createErr.Some? || runErr.Some? {
        AcceptedRefusedRun(createErr, false, runErr, MGetDone, records, merge);
      } else {
        AcceptedDispatch(false, MGetDone);
        MGetDoneReply(records);
        AcceptedBlocked([CreatePredicates] + Launch(None, true, false, None, MGetDone), MGetDoneLedger(records), records, merge);
      }
  }

  /** TS.MRANGE refused by its parser: one error, and the list released when one was allocated. */
  lemma MRangeRefusedWellRun(args: seq<string>, aggTypeOf: string -> int, typesMax: int, reverse: bool,
                             createErr: Option<string>, runErr: Option<string>, records: seq<Record>, merge: Merge)
    requires FilterTokensFit(args, ArgIndex(args, "FILTER"))
    requires ParseMRange(args, aggTypeOf, typesMax).MRangeErr?
    ensures WellRun(MRange(args, aggTypeOf, typesMax, reverse, createErr, runErr), records, merge)
    ensures DoneOf(MRange(args, aggTypeOf, typesMax, reverse, createErr, runErr)) == None
  {
    var p := ParseMRange(args, aggTypeOf, typesMax);
    RefusedDispatched(p.error, p.listAllocated, p.listFreed);
  }

  /** TS.MRANGE accepted by its parser: the callback is given the parsed arguments and the direction. */
  lemma MRangeAcceptedWellRun(a: MRangeArgs, reverse: bool, createErr: Option<string>, runErr: Option<string>, records: seq<Record>, merge: Merge)
    ensures WellRun([CreatePredicates] + Launch(createErr, true, true, runErr, MRangeDone(a, reverse)), records, merge)
    ensures DoneOf([CreatePredicates] + Launch(createErr, true, true, runErr, MRangeDone(a, reverse))).Some? <==> createErr.None? && runErr.None?
    ensures DoneOf([CreatePredicates] + Launch(createErr, true, true, runErr, MRangeDone(a, reverse))).Some? ==>
      DoneOf([CreatePredicates] + Launch(createErr, true, true, runErr, MRangeDone(a, reverse))) == Some(MRangeDone(a, reverse))
  {
    if createErr.Some? || runErr.Some? {
      AcceptedRefusedRun(createErr, true, runErr, MRangeDone(a, reverse), records, merge);
    } else {
      AcceptedDispatch(true, MRangeDone(a, reverse));
      MRangeDoneReply(records, a, reverse, merge);
      AcceptedBlocked([CreatePredicates] + Launch(None, true, true, None, MRangeDone(a, reverse)),
                      MRangeDoneLedger(records, a, reverse, merge), records, merge);
    }
  }

  /**
   * TS.MRANGE and TS.MREVRANGE: the same for every argument list, the
   * parser's refusals included; an accepted command's callback is given its
   * arguments and direction.
   */
  lemma MRangeWellRun(args: seq<string>, aggTypeOf: string -> int, typesMax: int, reverse: bool,
                      createErr: Option<string>, runErr: Option<string>, records: seq<Record>, merge: Merge)
    requires FilterTokensFit(args, ArgIndex(args, "FILTER"))
    ensures WellRun(MRange(args, aggTypeOf, typesMax, reverse, createErr, runErr), records, merge)
    ensures DoneOf(MRange(args, aggTypeOf, typesMax, reverse, createErr, runErr)).Some? <==>
      ParseMRange(args, aggTypeOf, typesMax).MRangeOk? && createErr.None? && runErr.None?
    ensures DoneOf(MRange(args, aggTypeOf, typesMax, reverse, createErr, runErr)).Some? ==>
      DoneOf(MRange(args, aggTypeOf, typesMax, reverse, createErr, runErr)) == Some(MRangeDone(ParseMRange(args, aggTypeOf, typesMax).args, reverse))
  {
    MRangeDispatchWellRun(ParseMRange(args, aggTypeOf, typesMax), reverse, createErr, runErr, records, merge);
  }

  /** `MRangeWellRun` for any outcome `p` of the parse. */
  lemma MRangeDispatchWellRun(p: MRangeParse, reverse: bool, createErr: Option<string>, runErr: Option<string>, records: seq<Record>, merge: Merge)
    requires p.MRangeErr? ==> p.listAllocated == p.listFreed
    ensures WellRun(MRangeDispatch(p, reverse, createErr, runErr), records, merge)
    ensures DoneOf(MRangeDispatch(p, reverse, createErr, runErr)).Some? <==> p.MRangeOk? && createErr.None? && runErr.None?
    ensures DoneOf(MRangeDispatch(p, reverse, createErr, runErr)).Some? ==>
      DoneOf(MRangeDispatch(p, reverse, createErr, runErr)) == Some(MRangeDone(p.args, reverse))
  {
    match p
    case MRangeErr(error, hadList, freedList) =>
      RefusedDispatched(error, hadList, freedList);
    case MRangeOk(a) =>
      MRangeAcceptedWellRun(a, reverse, createErr, runErr, records, merge);
  }

  /**
   * TS.QUERYINDEX: the reference taken for the plan is released exactly
   * once, on every path; the caller's own reference is the caller's to
   * release.
   */
  lemma QueryIndexWellRun(createErr: Option<string>, runErr: Option<string>, records: seq<Record>, merge: Merge)
    ensures WellRun(QueryIndex(createErr, runErr), records, merge)
    ensures Count(Complete(QueryIndex(createErr, runErr), records, merge), Creates) == 0
  {
    var l := QueryIndex(createErr, runErr);
    LaunchDispatched(createErr, false, true, runErr, MGetDone);
    if createErr.None? && runErr.None? {
      MGetDoneReply(records);
      AcceptedBlocked(l, MGetDoneLedger(records), records, merge);
      CompleteSum(l, MGetDoneLedger(records));
    }
  }

  /**
   * TS.MGET as written, with a `CreateCtx` error on an accepted command:
   * the dispatch does not end one way, so the client is sent two errors, or
   * an error and then is blocked for a reply that follows it.
   */
  lemma MGetAsWrittenCreateError(args: seq<string>, e: string, runErr: Option<string>)
    requires MGetTokensFit(args)
    requires MGetParse(args).ListOk?
    ensures !Dispatched(MGetAsWritten(args, Some(e), runErr))
  {
    var l := LaunchAsWritten(Some(e), false, runErr, MGetDone);
    LaunchAsWrittenCreateError(e, false, runErr, MGetDone);
    SumsCreate(l, TallyOf(l));
  }

  /**
   * TS.MRANGE as written, when `RGM_Run` fails: the plan's reference is
   * released with the plan, but the command's own is never released.
   */
  lemma MRangeAsWrittenRunError(a: MRangeArgs, reverse: bool, e: string, records: seq<Record>, merge: Merge)
    ensures var l := Complete(MRangeLaunchAsWritten(a, reverse, None, Some(e)), records, merge);
      && !Balanced(l)
      && Count(l, Releases) == 1 && Count(l, Creates) + Count(l, Retains) == 2
  {
    var l := MRangeLaunchAsWritten(a, reverse, None, Some(e));
    MRangeAsWrittenRunErrorSums(a, reverse, e);
    assert DoneOf(l).None?;
  }

  /** The ledger of TS.MRANGE as written when `RGM_Run` fails: one creation, one retain, one release. */
  lemma MRangeAsWrittenRunErrorSums(a: MRangeArgs, reverse: bool, e: string)
    ensures Sums(MRangeLaunchAsWritten(a, reverse, None, Some(e)),
                 Tally(replies := [ReplyError(Message(e))], creates := 1, retains := 1, releases := 1))
  {
    var run := Run(Some(e), MRangeDone(a, reverse));
    var t := Tally(releases := 1, replies := [ReplyError(Message(e))]);
    RunFailSum(e, MRangeDone(a, reverse));
    SumsRetain(run, t);
    SumsCreate([RetainPredicates] + run, Tally(t.replies, t.creates, t.retains + 1, t.releases, t.blocks, t.unblocks, t.registered, t.freed));
    assert MRangeLaunchAsWritten(a, reverse, None, Some(e)) == [CreatePredicates] + ([RetainPredicates] + run);
  }

  /**
   * Without a `CreateCtx` error the dispatch as written is the corrected
   * one, except that a failed run of a command keeping its own reference
   * next to the plan's (TS.MRANGE) does not release it.
   */
  lemma LaunchAsWrittenNoCreateError(owned: bool, retain: bool, runErr: Option<string>, cb: Callback)
    ensures !(owned && retain && runErr.Some?) ==>
      LaunchAsWritten(None, retain, runErr, cb) == Launch(None, owned, retain, runErr, cb)
    ensures owned && retain && runErr.Some? ==>
      LaunchAsWritten(None, retain, runErr, cb) + [ReleasePredicates] == Launch(None, owned, retain, runErr, cb)
  {
  }

  /**
   * TS.MGET as written is the corrected command unless `CreateCtx` fails on
   * an accepted command, and it ends well exactly when that does not happen.
   */
  lemma MGetAsWrittenRun(args: seq<string>, createErr: Option<string>, runErr: Option<string>, records: seq<Record>, merge: Merge)
    requires MGetTokensFit(args)
    ensures createErr.None? || MGetParse(args).ListErr? ==> MGetAsWritten(args, createErr, runErr) == MGet(args, createErr, runErr)
    ensures WellRun(MGetAsWritten(args, createErr, runErr), records, merge) <==> createErr.None? || MGetParse(args).ListErr?
  {
    MGetWellRun(args, createErr, runErr, records, merge);
    if MGetParse(args).ListOk? {
      if createErr.Some? {
        MGetAsWrittenCreateError(args, createErr.value, runErr);
      } else {
        LaunchAsWrittenNoCreateError(true, false, runErr, MGetDone);
      }
    }
  }

  /**
   * TS.QUERYINDEX as written is the corrected command unless `CreateCtx`
   * fails, and it ends well exactly when that does not happen.
   */
  lemma QueryIndexAsWrittenRun(createErr: Option<string>, runErr: Option<string>, records: seq<Record>, merge: Merge)
    ensures createErr.None? ==> QueryIndexAsWritten(createErr, runErr) == QueryIndex(createErr, runErr)
    ensures WellRun(QueryIndexAsWritten(createErr, runErr), records, merge) <==> createErr.None?
  {
    QueryIndexWellRun(createErr, runErr, records, merge);
    match createErr
    case Some(e) => LaunchAsWrittenCreateError(e, true, runErr, MGetDone);
    case None => LaunchAsWrittenNoCreateError(false, true, runErr, MGetDone);
  }

  /**
   * The dispatch of an accepted TS.MRANGE as written is the corrected one
   * when the context and the run succeed, and otherwise does not end well:
   * a `CreateCtx` error is not the only reply, a failed run leaks the
   * command's reference.
   */
  lemma MRangeLaunchAsWrittenRun(a: MRangeArgs, reverse: bool, createErr: Option<string>, runErr: Option<string>,
                                 records: seq<Record>, merge: Merge)
    ensures createErr.None? && runErr.None? ==>
      MRangeLaunchAsWritten(a, reverse, createErr, runErr) == [CreatePredicates] + Launch(createErr, true, true, runErr, MRangeDone(a, reverse))
    ensures !(createErr.None? && runErr.None?) ==> !WellRun(MRangeLaunchAsWritten(a, reverse, createErr, runErr), records, merge)
  {
    match (createErr, runErr)
    case (Some(e), _) =>
      var l := LaunchAsWritten(Some(e), true, runErr, MRangeDone(a, reverse));
      LaunchAsWrittenCreateError(e, true, runErr, MRangeDone(a, reverse));
      SumsCreate(l, TallyOf(l));
    case (None, Some(e)) =>
      MRangeAsWrittenRunError(a, reverse, e, records, merge);
    case (None, None) =>
      LaunchAsWrittenNoCreateError(true, true, None, MRangeDone(a, reverse));
  }

  /**
   * TS.MRANGE as written, wherever it is defined, is the corrected command
   * exactly when the parse refuses it or the context and the run succeed;
   * otherwise it does not end well. Where it is undefined the corrected
   * parse refuses the command.
   */
  lemma MRangeAsWrittenRun(args: seq<string>, aggTypeOf: string -> int, typesMax: int, reverse: bool,
                           createErr: Option<string>, runErr: Option<string>, records: seq<Record>, merge: Merge)
    requires |args| <= INT_MAX
    requires FilterTokensFit(args, ArgIndex(args, "FILTER"))
    ensures MRangeAsWritten(args, aggTypeOf, typesMax, reverse, createErr, runErr).None? ==>
      ParseMRange(args, aggTypeOf, typesMax).MRangeErr?
    ensures MRangeAsWritten(args, aggTypeOf, typesMax, reverse, createErr, runErr).Some? ==>
      var l := MRangeAsWritten(args, aggTypeOf, typesMax, reverse, createErr, runErr).value;
      var fine := ParseMRange(args, aggTypeOf, typesMax).MRangeErr? || (createErr.None? && runErr.None?);
      && (fine ==> l == MRange(args, aggTypeOf, typesMax, reverse, createErr, runErr))
      && (WellRun(l, records, merge) <==> fine)
  {
    var pw := ParseMRangeAsWritten(args, aggTypeOf, typesMax);
    var p := ParseMRange(args, aggTypeOf, typesMax);
    MRangeParsesRelated(args, aggTypeOf, typesMax);
    MRangeDispatchAsWrittenRun(pw, p, reverse, createErr, runErr, records, merge);
  }

  /** The two parses of TS.MRANGE meet what `MRangeDispatchAsWrittenRun` asks of them. */
  lemma MRangeParsesRelated(args: seq<string>, aggTypeOf: string -> int, typesMax: int)
    requires |args| <= INT_MAX
    requires FilterTokensFit(args, ArgIndex(args, "FILTER"))
    ensures var pw := ParseMRangeAsWritten(args, aggTypeOf, typesMax);
      var p := ParseMRange(args, aggTypeOf, typesMax);
      && (pw.Some? ==> pw.value == p)
      && (pw.None? ==> p.MRangeErr?)
      && (p.MRangeErr? ==> p.listAllocated == p.listFreed)
  {
    ParseMRangeAgrees(args, aggTypeOf, typesMax);
  }

  /**
   * `MRangeAsWrittenRun` for a parse as written `pw` that agrees with the
   * corrected parse `p` where it is defined and leaves `p` a refusal where
   * it is not.
   */
  lemma MRangeDispatchAsWrittenRun(pw: Option<MRangeParse>, p: MRangeParse, reverse: bool,
                                   createErr: Option<string>, runErr: Option<string>, records: seq<Record>, merge: Merge)
    requires pw.Some? ==> pw.value == p
    requires pw.None? ==> p.MRangeErr?
    requires p.MRangeErr? ==> p.listAllocated == p.listFreed
    ensures MRangeDispatchAsWritten(pw, reverse, createErr, runErr).None? ==> p.MRangeErr?
    ensures MRangeDispatchAsWritten(pw, reverse, createErr, runErr).Some? ==>
      var l := MRangeDispatchAsWritten(pw, reverse, createErr, runErr).value;
      var fine := p.MRangeErr? || (createErr.None? && runErr.None?);
      && (fine ==> l == MRangeDispatch(p, reverse, createErr, runErr))
      && (WellRun(l, records, merge) <==> fine)
  {
    MRangeDispatchWellRun(p, reverse, createErr, runErr, records, merge);
    match pw
    case None =>
    case Some(MRangeErr(_, _, _)) =>
    case Some(MRangeOk(a)) =>
      MRangeLaunchAsWrittenRun(a, reverse, createErr, runErr, records, merge);
  }

  /**
   * `mrange_done` as written: with GROUPBY it is the corrected callback;
   * without, the client is sent the array header declaring every record,
   * then the entries of the series records only, all before the unblock,
   * and the tail frees every series record's series and releases both
   * references.
   */
  lemma MRangeDoneAsWritten(records: seq<Record>, a: MRangeArgs, reverse: bool, merge: Merge)
    ensures a.groupBy.Some? ==> MRangeDoneLedgerAsWritten(records, a, reverse, merge) == MRangeDoneLedger(records, a, reverse, merge)
    ensures a.groupBy.None? ==>
      var l := MRangeDoneLedgerAsWritten(records, a, reverse, merge);
      && Replies(l) == UngroupedReplyAsWritten(records, a, reverse)
      && RepliesBeforeUnblock(l)
      && Count(l, Releases) == 2 && Freed(l) == SeriesOf(records)
  {
    if a.groupBy.None? {
      var head := UngroupedReplyAsWritten(records, a, reverse);
      assert MRangeDoneLedgerAsWritten(records, a, reverse, merge) == head + [Unblock] + DoneTail(records);
      UngroupedAsWrittenLedger(head, records);
    }
  }

  /**
   * Without GROUPBY, the client of `mrange_done` as written gets a
   * well-formed reply exactly when every record is a series record.
   */
  lemma MRangeDoneAsWrittenReply(records: seq<Record>, a: MRangeArgs, reverse: bool, merge: Merge)
    requires a.groupBy.None?
    ensures OneReply(Replies(MRangeDoneLedgerAsWritten(records, a, reverse, merge))) <==>
      forall i :: 0 <= i < |records| ==> records[i].SeriesRecord?
  {
    MRangeDoneAsWritten(records, a, reverse, merge);
    UngroupedAsWrittenShort(records, a, reverse);
  }

  /** When every record is a series record, `mrange_done` as written is the corrected callback. */
  lemma MRangeDoneAsWrittenAllSeries(records: seq<Record>, a: MRangeArgs, reverse: bool, merge: Merge)
    requires forall i :: 0 <= i < |records| ==> records[i].SeriesRecord?
    ensures MRangeDoneLedgerAsWritten(records, a, reverse, merge) == MRangeDoneLedger(records, a, reverse, merge)
  {
    UngroupedAllSeries(records, a, reverse);
  }

  /** An ungrouped head made of replies, the unblock and the tail: every reply comes first, and the tail frees the series. */
  lemma UngroupedAsWrittenLedger(head: seq<Event>, records: seq<Record>)
    requires forall k :: 0 <= k < |head| ==> IsReply(head[k])
    ensures var l := head + [Unblock] + DoneTail(records);
      && Replies(l) == head && RepliesBeforeUnblock(l)
      && Count(l, Releases) == 2 && Freed(l) == SeriesOf(records)
  {
    RepliesSum(head);
    DoneTailSum(records);
    UnblockBetween(head, Tally(replies := head), DoneTail(records), Tally(releases := 2, freed := SeriesOf(records)));
  }

  /** When every record is a series record the ungrouped reply as written is the corrected one. */
  lemma UngroupedAllSeries(records: seq<Record>, a: MRangeArgs, reverse: bool)
    ensures (forall i :: 0 <= i < |records| ==> records[i].SeriesRecord?) ==>
      UngroupedReplyAsWritten(records, a, reverse) == UngroupedReply(records, a, reverse)
  {
  }
}

=== FILE: indexer.dfy ===
/**
 * The inverted label index and the predicate language evaluated over it
 * (src/indexer.c). A series carrying label `k=v` is listed under two index
 * entries, one for the pair and one for the key alone; a query is
 * answered by set algebra over those entries: the positive predicates
 * (equality, key presence, list membership) are intersected, then the
 * negative ones (inequality, key absence, list non-membership) are
 * subtracted.
 */
module Indexer {

  import opened Common
  import opened Tsdb

  // ---------------------------------------------------------------------
  // Predicates
  // ---------------------------------------------------------------------

  /**
   * `k=v` Eq, `k!=v` Neq, `k!=` Contains (the key is present),
   * `k=` NContains (the key is absent), `k=(a,b)` ListMatch and
   * `k!=(a,b)` ListNotMatch.
   */
  datatype PredicateType = Eq | Neq | Contains | NContains | ListMatch | ListNotMatch

  datatype Predicate = Predicate(ptype: PredicateType, key: string, values: seq<string>)

  /** A parsed filter: the predicates, their number, and a manual reference count. */
  datatype PredicateList = PredicateList(list: seq<Predicate>, count: nat, ref: nat)

  /** The predicates that select series; the others only remove series. */
  predicate IsPositive(t: PredicateType)
  {
    t == Eq || t == Contains || t == ListMatch
  }

  // ---------------------------------------------------------------------
  // Tokenising (C strtok_r)
  // ---------------------------------------------------------------------

  /** `s` without its leading characters drawn from `delims`. */
  function SkipDelims(s: string, delims: set<char>): (r: string)
    ensures |r| <= |s|
    ensures r == s[|s| - |r|..]
    ensures r != [] ==> r[0] !in delims
    ensures forall i :: 0 <= i < |s| - |r| ==> s[i] in delims
  {
    s[DelimsEnd(s, delims, 0)..]
  }

  /** The first position at or after `from` whose character is not in `delims`, or `|s|`. */
  function DelimsEnd(s: string, delims: set<char>, from: nat): (k: nat)
    requires from <= |s|
    ensures from <= k <= |s|
    ensures forall i :: from <= i < k ==> s[i] in delims
    ensures k < |s| ==> s[k] !in delims
    decreases |s| - from
  {
    if from < |s| && s[from] in delims then DelimsEnd(s, delims, from + 1) else from
  }

  /** Length of the longest prefix of `s` free of `delims`. */
  function TokenLength(s: string, delims: set<char>): (n: nat)
    ensures n <= |s|
    ensures forall i :: 0 <= i < n ==> s[i] !in delims
    ensures n < |s| ==> s[n] in delims
  {
    TokenEnd(s, delims, 0)
  }

  /** The first position at or after `from` whose character is in `delims`, or `|s|`. */
  function TokenEnd(s: string, delims: set<char>, from: nat): (k: nat)
    requires from <= |s|
    ensures from <= k <= |s|
    ensures forall i :: from <= i < k ==> s[i] !in delims
    ensures k < |s| ==> s[k] in delims
    decreases |s| - from
  {
    if from < |s| && s[from] !in delims then TokenEnd(s, delims, from + 1) else from
  }

  /**
   * One `strtok_r` step: skip delimiters, take the next non-empty token and
   * return it with the text after the delimiter that ended it, or None when
   * only delimiters remain.
   */
  function Strtok(s: string, delims: set<char>): (r: Option<(string, string)>)
    ensures r.Some? ==> r.value.0 != [] && |r.value.1| < |s|
    ensures r.Some? ==> forall i :: 0 <= i < |r.value.0| ==> r.value.0[i] !in delims
    ensures r.None? <==> forall i :: 0 <= i < |s| ==> s[i] in delims
  {
    NextToken(SkipDelims(s, delims), delims)
  }

  /** The token at the start of `t`, which begins past any leading delimiters. */
  function NextToken(t: string, delims: set<char>): (r: Option<(string, string)>)
    requires t == [] || t[0] !in delims
    ensures r.Some? ==> r.value.0 != [] && |r.value.1| < |t|
    ensures r.None? <==> t == []
  {
    if t == [] then None
    else
      var n := TokenLength(t, delims);
      Some((t[..n], if n < |t| then t[n + 1..] else []))
  }

  lemma SkipDelimsPrefix(p: string, w: string, d: set<char>)
    requires forall k :: 0 <= k < |p| ==> p[k] in d
    requires w == [] || w[0] !in d
    ensures SkipDelims(p + w, d) == w
  {
    var s := p + w;
    assert forall k :: 0 <= k < |p| ==> s[k] in d;
    if w != [] {
      assert s[|p|] !in d;
    }
    assert |s| - |SkipDelims(s, d)| == |p|;
    assert s[|p|..] == w;
  }

  /**
   * `strtok_r` over delimiters `p`, a word `w` and then either nothing or a
   * delimiter: the token is `w` and scanning resumes after that delimiter.
   */
  lemma StrtokOf(p: string, w: string, q: string, d: set<char>)
    requires forall k :: 0 <= k < |p| ==> p[k] in d
    requires w != [] && forall k :: 0 <= k < |w| ==> w[k] !in d
    requires q == [] || q[0] in d
    ensures Strtok(p + w + q, d) == Some((w, if q == [] then [] else q[1..]))
  {
    assert p + w + q == p + (w + q);
    SkipDelimsPrefix(p, w + q, d);
    if q == [] {
      assert w + q == w;
      TokenLengthWhole(w, d);
      assert w[..|w|] == w;
    } else {
      TokenLengthOfPrefix(w, q, d);
      assert (w + q)[..|w|] == w;
      assert (w + q)[|w| + 1..] == q[1..];
    }
  }

  /** Every token successive `strtok_r` calls return. */
  function Tokens(s: string, delims: set<char>): seq<string>
    decreases |s|
  {
    var t := Strtok(s, delims);
    if t.None? then [] else [t.value.0] + Tokens(t.value.1, delims)
  }

  /** The characters of a separator string, used as a delimiter set. */
  function Delims(sep: string): set<char>
  {
    set i | 0 <= i < |sep| :: sep[i]
  }

  // ---------------------------------------------------------------------
  // parseValueList / parsePredicate
  // ---------------------------------------------------------------------

  /** Elements of `vs` that are not empty, in order. */
  function NonEmpty(vs: seq<string>): seq<string>
  {
    if vs == [] then [] else (if vs[0] != [] then [vs[0]] else []) + NonEmpty(vs[1..])
  }

  /**
   * `parseValueList`: the token after `=(`/`!=(` must end with `)`; `)` alone
   * is the empty list; otherwise the list has one more element than it has
   * commas, and every element must be a non-empty token.
   */
  function ParseValueList(token: Option<string>): (r: Result<seq<string>, ()>)
  {
    match token
    case None => Err(())
    case Some(t) =>
      if t == [] || t[|t| - 1] != ')' then Err(())
      else if |t| <= 1 then Ok([])
      else ParseListBody(t[..|t| - 1])
  }

  /** The comma delimiter set of value lists. */
  const COMMA: set<char> := {','}

  /** The part of `parseValueList` after the closing `)` has been cut off. */
  function ParseListBody(body: string): (r: Result<seq<string>, ()>)
    ensures r.Ok? ==> |r.value| == CountChar(body, ',') + 1
  {
    var count := CountChar(body, ',') + 1;
    var toks := Tokens(body, COMMA);
    if |toks| < count then Err(()) else Ok(toks[..count])
  }

  /** Each of `ws` is non-empty and free of `d`. */
  predicate Words(ws: seq<string>, d: set<char>)
  {
    forall i :: 0 <= i < |ws| ==> ws[i] != [] && forall k :: 0 <= k < |ws[i]| ==> ws[i][k] !in d
  }

  /** Every token is non-empty and free of delimiters. */
  lemma {:induction false} TokensAreWords(s: string, d: set<char>)
    ensures Words(Tokens(s, d), d)
    decreases |s|
  {
    var t := Strtok(s, d);
    if t.Some? {
      var rest := t.value.1;
      var tok := t.value.0;
      TokensAreWords(rest, d);
      var tl := Tokens(rest, d);
      var ts := Tokens(s, d);
      assert ts == [tok] + tl;
      forall i | 0 <= i < |ts|
        ensures ts[i] != [] && forall k :: 0 <= k < |ts[i]| ==> ts[i][k] !in d
      {
        if i > 0 {
          assert ts[i] == tl[i - 1];
        }
      }
    }
  }

  /**
   * What `parseValueList` accepts: a token ending in `)`; `)` alone is the
   * empty list, otherwise one element per comma plus one, each a non-empty
   * word without commas.
   */
  lemma ParseValueListShape(token: Option<string>)
    ensures var r := ParseValueList(token);
      && (r.Ok? ==> token.Some? && token.value != [] && token.value[|token.value| - 1] == ')')
      && (r.Ok? && |token.value| == 1 ==> r.value == [])
      && (r.Ok? && |token.value| >= 2 ==> |r.value| == CountChar(token.value[..|token.value| - 1], ',') + 1)
      && (r.Ok? ==> forall i :: 0 <= i < |r.value| ==> r.value[i] != [])
      && (r.Ok? ==> forall i, k :: 0 <= i < |r.value| && 0 <= k < |r.value[i]| ==> r.value[i][k] != ',')
  {
    if token.Some? && token.value != [] && |token.value| >= 2 {
      TokensAreWords(token.value[..|token.value| - 1], COMMA);
    }
  }

  /** Joining comma-free parts with commas puts exactly |parts|-1 commas in. */
  lemma {:induction false} JoinCommaCount(vs: seq<string>)
    requires |vs| >= 1
    requires forall i :: 0 <= i < |vs| ==> CountChar(vs[i], ',') == 0
    ensures CountChar(Join(vs, ","), ',') == |vs| - 1
  {
    if |vs| > 1 {
      var rest := Join(vs[1..], ",");
      JoinCommaCount(vs[1..]);
      assert Join(vs, ",") == vs[0] + ("," + rest);
      CountCharConcat(vs[0], "," + rest, ',');
      assert ("," + rest)[1..] == rest;
      assert CountChar("," + rest, ',') == 1 + CountChar(rest, ',');
    }
  }

  lemma {:induction false} CountCharConcat(a: string, b: string, c: char)
    ensures CountChar(a + b, c) == CountChar(a, c) + CountChar(b, c)
  {
    if a != [] {
      assert (a + b)[1..] == a[1..] + b;
      CountCharConcat(a[1..], b, c);
    } else {
      assert a + b == b;
    }
  }

  /** No comma in `s` means no occurrence counted. */
  lemma {:induction false} NoCommaCount(s: string)
    requires forall i :: 0 <= i < |s| ==> s[i] != ','
    ensures CountChar(s, ',') == 0
  {
    if s != [] {
      NoCommaCount(s[1..]);
    }
  }

  /** A leading delimiter is skipped by tokenising. */
  lemma TokensSkipDelim(c: char, s: string, d: set<char>)
    requires c in d
    ensures Tokens([c] + s, d) == Tokens(s, d)
  {
    StrtokSkipDelim(c, s, d);
  }

  lemma StrtokSkipDelim(c: char, s: string, d: set<char>)
    requires c in d
    ensures Strtok([c] + s, d) == Strtok(s, d)
  {
    var cs := [c] + s;
    assert cs[1..] == s;
    assert SkipDelims(cs, d) == SkipDelims(s, d);
    StrtokOfSkipped(cs, s, d);
  }

  /** `strtok_r` only looks at what remains after the leading delimiters. */
  lemma StrtokOfSkipped(x: string, y: string, d: set<char>)
    requires SkipDelims(x, d) == SkipDelims(y, d)
    ensures Strtok(x, d) == Strtok(y, d)
  {
  }

  /** A delimiter-free non-empty prefix ended by a delimiter is the next token. */
  lemma TokensOfPrefix(a: string, c: char, b: string, d: set<char>)
    requires a != [] && c in d
    requires forall k :: 0 <= k < |a| ==> a[k] !in d
    ensures Tokens(a + [c] + b, d) == [a] + Tokens(b, d)
  {
    StrtokOf([], a, [c] + b, d);
    assert [] + a + ([c] + b) == a + [c] + b;
    assert ([c] + b)[1..] == b;
  }

  /** A delimiter-free non-empty string is a single token. */
  lemma TokensOfWhole(a: string, d: set<char>)
    requires forall k :: 0 <= k < |a| ==> a[k] !in d
    ensures Tokens(a, d) == NonEmpty([a])
  {
    if a != [] {
      assert SkipDelims(a, d) == a;
      TokenLengthWhole(a, d);
      assert a[..|a|] == a;
      assert Strtok(a, d) == Some((a, []));
      assert Strtok([], d) == None;
    } else {
      assert Strtok(a, d) == None;
    }
  }

  lemma TokenLengthWhole(a: string, d: set<char>)
    requires forall k :: 0 <= k < |a| ==> a[k] !in d
    ensures TokenLength(a, d) == |a|
  {
  }

  /** Tokenising on commas drops exactly the empty elements of a comma-joined list. */
  lemma {:induction false} TokensOfJoin(vs: seq<string>)
    requires |vs| >= 1
    requires forall i, k :: 0 <= i < |vs| && 0 <= k < |vs[i]| ==> vs[i][k] != ','
    ensures Tokens(Join(vs, ","), COMMA) == NonEmpty(vs)
  {
    var d := COMMA;
    if |vs| == 1 {
      assert Join(vs, ",") == vs[0];
      TokensOfWhole(vs[0], d);
      assert NonEmpty(vs) == NonEmpty([vs[0]]);
    } else {
      var rest := Join(vs[1..], ",");
      TokensOfJoin(vs[1..]);
      assert Join(vs, ",") == vs[0] + [','] + rest;
      if vs[0] == [] {
        assert vs[0] + [','] + rest == [','] + rest;
        TokensSkipDelim(',', rest, d);
      } else {
        TokensOfPrefix(vs[0], ',', rest, d);
      }
    }
  }

  lemma TokenLengthOfPrefix(a: string, b: string, d: set<char>)
    requires forall k :: 0 <= k < |a| ==> a[k] !in d
    requires b != [] && b[0] in d
    ensures TokenLength(a + b, d) == |a|
  {
    assert forall k :: 0 <= k < |a| ==> (a + b)[k] !in d;
    assert (a + b)[|a|] in d;
  }

  /** How a non-empty list body followed by `)` parses. */
  lemma ParseValueListOfBody(body: string)
    requires body != []
    ensures ParseValueList(Some(body + ")")) == ParseListBody(body)
  {
    var t := body + ")";
    assert t[..|t| - 1] == body;
  }

  /** Facts about a comma-joined list of comma-free parts. */
  lemma JoinedList(vs: seq<string>)
    requires |vs| >= 1
    requires forall i, k :: 0 <= i < |vs| && 0 <= k < |vs[i]| ==> vs[i][k] != ','
    ensures CountChar(Join(vs, ","), ',') + 1 == |vs|
    ensures Tokens(Join(vs, ","), COMMA) == NonEmpty(vs)
  {
    forall i | 0 <= i < |vs| ensures CountChar(vs[i], ',') == 0 {
      NoCommaCount(vs[i]);
    }
    JoinCommaCount(vs);
    TokensOfJoin(vs);
  }

  /** A list of non-empty, comma-free values written `v1,...,vn)` parses back to itself. */
  lemma ValueListRoundTrip(vs: seq<string>)
    requires |vs| >= 1
    requires forall i :: 0 <= i < |vs| ==> vs[i] != []
    requires forall i, k :: 0 <= i < |vs| && 0 <= k < |vs[i]| ==> vs[i][k] != ','
    ensures ParseValueList(Some(Join(vs, ",") + ")")) == Ok(vs)
  {
    var j := Join(vs, ",");
    JoinNotEmpty(vs);
    ParseValueListOfBody(j);
    JoinedList(vs);
    NonEmptyOfNonEmpty(vs);
    ListBodyOf(j, vs);
  }

  /** A comma-joined list whose first element is non-empty is non-empty. */
  lemma JoinNotEmpty(vs: seq<string>)
    requires |vs| >= 1 && vs[0] != []
    ensures Join(vs, ",") != []
  {
    if |vs| > 1 {
      assert Join(vs, ",") == vs[0] + "," + Join(vs[1..], ",");
    }
  }

  /** A body with one comma fewer than it has tokens parses to those tokens. */
  lemma ListBodyOf(body: string, vs: seq<string>)
    requires CountChar(body, ',') + 1 == |vs|
    requires Tokens(body, COMMA) == vs
    ensures ParseListBody(body) == Ok(vs)
  {
    assert vs[..|vs|] == vs;
  }

  /** A list with an empty element, such as `a,,b)`, is rejected. */
  lemma EmptyElementRejected(vs: seq<string>)
    requires |vs| >= 2
    requires exists i :: 0 <= i < |vs| && vs[i] == []
    requires forall i, k :: 0 <= i < |vs| && 0 <= k < |vs[i]| ==> vs[i][k] != ','
    ensures ParseValueList(Some(Join(vs, ",") + ")")).Err?
  {
    JoinedList(vs);
    NonEmptyShorter(vs);
    assert Join(vs, ",") == vs[0] + "," + Join(vs[1..], ",");
    ParseValueListOfBody(Join(vs, ","));
  }

  lemma {:induction false} NonEmptyOfNonEmpty(vs: seq<string>)
    requires forall i :: 0 <= i < |vs| ==> vs[i] != []
    ensures NonEmpty(vs) == vs
  {
    if vs != [] {
      NonEmptyOfNonEmpty(vs[1..]);
    }
  }

  lemma {:induction false} NonEmptyShorter(vs: seq<string>)
    requires exists i :: 0 <= i < |vs| && vs[i] == []
    ensures |NonEmpty(vs)| < |vs|
  {
    NonEmptyAtMost(vs[1..]);
    if vs[0] != [] {
      var i :| 0 <= i < |vs| && vs[i] == [];
      assert vs[1..][i - 1] == [];
      NonEmptyShorter(vs[1..]);
    }
  }

  lemma {:induction false} NonEmptyAtMost(vs: seq<string>)
    ensures |NonEmpty(vs)| <= |vs|
  {
    if vs != [] {
      NonEmptyAtMost(vs[1..]);
    }
  }

  /** The parsed pieces of one filter token: its key and its value list. */
  datatype ParsedPredicate = ParsedPredicate(key: string, values: seq<string>)

  /**
   * `parsePredicate`: the key is the first token split on the characters
   * of `sep`; a list separator (`=(`, `!=(`) parses the next token as a value
   * list, any other separator takes the next token as the single value, or
   * no value when there is none. The source copies the argument into a
   * 255-byte buffer, so longer arguments are excluded.
   */
  function ParsePredicate(arg: string, sep: string): (r: Result<ParsedPredicate, ()>)
    requires |arg| < 255
    ensures r.Ok? ==> r.value.key != []
    ensures r.Ok? ==> forall i :: 0 <= i < |r.value.key| ==> r.value.key[i] !in Delims(sep)
    ensures r.Err? && !HasSubstring(sep, "=(") ==> forall i :: 0 <= i < |arg| ==> arg[i] in Delims(sep)
    ensures r.Ok? && !HasSubstring(sep, "=(") ==> |r.value.values| <= 1
  {
    var d := Delims(sep);
    match Strtok(arg, d)
    case None => Err(())
    case Some((key, rest)) =>
      var value := Strtok(rest, d);
      if HasSubstring(sep, "=(") then
        match ParseValueList(if value.Some? then Some(value.value.0) else None)
        case Err(_) => Err(())
        case Ok(vs) => Ok(ParsedPredicate(key, vs))
      else if value.Some? then Ok(ParsedPredicate(key, [value.value.0]))
      else Ok(ParsedPredicate(key, []))
  }

  // ---------------------------------------------------------------------
  // CountPredicateType
  // ---------------------------------------------------------------------

  function TypesOf(list: seq<Predicate>): (r: seq<PredicateType>)
    ensures |r| == |list|
    ensures forall i :: 0 <= i < |list| ==> r[i] == list[i].ptype
  {
    seq(|list|, i requires 0 <= i < |list| => list[i].ptype)
  }

  /** `CountPredicateType`: how many predicates of the list have type `t`. */
  function CountPredicateType(list: seq<Predicate>, t: PredicateType): (n: nat)
    ensures n == multiset(TypesOf(list))[t]
    ensures n == 0 <==> forall i :: 0 <= i < |list| ==> list[i].ptype != t
  {
    if |list| == 0 then 0
    else
      var init := list[..|list| - 1];
      var n := CountPredicateType(init, t) + (if list[|list| - 1].ptype == t then 1 else 0);
      assert TypesOf(list) == TypesOf(init) + [list[|list| - 1].ptype];
      assert forall i :: 0 <= i < |init| ==> init[i] == list[i];
      n
  }

  // ---------------------------------------------------------------------
  // The index
  // ---------------------------------------------------------------------

  /** An index entry: a `key=value` pair or a key on its own. */
  datatype IndexKey = KeyValue(key: string, value: string) | KeyOnly(key: string)

  /** Index entries map to the names of the series listed under them. */
  type Index = map<IndexKey, set<string>>

  datatype IndexOp = Add | Remove

  /** `k` is one of the two entries some label of `labels` is listed under. */
  predicate Touches(labels: seq<Label>, k: IndexKey)
  {
    exists i :: 0 <= i < |labels| && (k == KeyValue(labels[i].key, labels[i].value) || k == KeyOnly(labels[i].key))
  }

  /** The names listed under `k`, none for a missing entry. */
  function Leaf(index: Index, k: IndexKey): set<string>
  {
    if k in index then index[k] else {}
  }

  /** What an operation does to the names of one entry. */
  function Apply(op: IndexOp, names: set<string>, name: string): set<string>
  {
    if op == Add then names + {name} else names - {name}
  }

  /** `indexUnderKey`: the entry is created when missing, then the name is added or removed. */
  function IndexUnderKey(index: Index, op: IndexOp, k: IndexKey, name: string): (r: Index)
    ensures r.Keys == index.Keys + {k}
    ensures forall k' :: k' in index && k' != k ==> r[k'] == index[k']
    ensures name in r[k] <==> op == Add
    ensures r[k] - {name} == Leaf(index, k) - {name}
  {
    index[k := Apply(op, Leaf(index, k), name)]
  }

  /** `IndexOperation`: both entries of every label, in label order, go through `indexUnderKey`. */
  function IndexOperation(index: Index, op: IndexOp, name: string, labels: seq<Label>): Index
    decreases |labels|
  {
    if |labels| == 0 then index
    else
      var l := labels[0];
      var step := IndexUnderKey(IndexUnderKey(index, op, KeyValue(l.key, l.value), name), op, KeyOnly(l.key), name);
      IndexOperation(step, op, name, labels[1..])
  }

  lemma TouchesCons(labels: seq<Label>, k: IndexKey)
    requires |labels| > 0
    ensures Touches(labels, k) <==>
      k == KeyValue(labels[0].key, labels[0].value) || k == KeyOnly(labels[0].key) || Touches(labels[1..], k)
  {
    if Touches(labels[1..], k) {
      var i :| 0 <= i < |labels[1..]| && (k == KeyValue(labels[1..][i].key, labels[1..][i].value) || k == KeyOnly(labels[1..][i].key));
      assert labels[1..][i] == labels[i + 1];
    }
    if Touches(labels, k) {
      var i :| 0 <= i < |labels| && (k == KeyValue(labels[i].key, labels[i].value) || k == KeyOnly(labels[i].key));
      if i > 0 {
        assert labels[1..][i - 1] == labels[i];
      }
    }
  }

  /**
   * Every entry of every label ends up holding exactly its old names with
   * the series added (or removed); the entries are created when missing,
   * and every other entry is left exactly as it was.
   */
  lemma {:induction false} IndexOperationSpec(index: Index, op: IndexOp, name: string, labels: seq<Label>)
    ensures var r := IndexOperation(index, op, name, labels);
      && (forall k :: k in r <==> k in index || Touches(labels, k))
      && (forall k :: Touches(labels, k) ==> r[k] == Apply(op, Leaf(index, k), name))
      && (forall k :: k in index && !Touches(labels, k) ==> r[k] == index[k])
    decreases |labels|
  {
    if |labels| > 0 {
      var l := labels[0];
      var kv := KeyValue(l.key, l.value);
      var ko := KeyOnly(l.key);
      var step := IndexUnderKey(IndexUnderKey(index, op, kv, name), op, ko, name);
      IndexOperationSpec(step, op, name, labels[1..]);
      var r := IndexOperation(index, op, name, labels);
      assert r == IndexOperation(step, op, name, labels[1..]);
      forall k
        ensures k in r <==> k in index || Touches(labels, k)
        ensures Touches(labels, k) ==> r[k] == Apply(op, Leaf(index, k), name)
        ensures k in index && !Touches(labels, k) ==> r[k] == index[k]
      {
        TouchesCons(labels, k);
        if k == kv || k == ko {
          assert Leaf(step, k) == Apply(op, Leaf(index, k), name);
        }
      }
    }
  }

  /** Adding a series and removing it again leaves its name under none of its entries. */
  lemma AddThenRemove(index: Index, name: string, labels: seq<Label>)
    ensures var r := IndexOperation(IndexOperation(index, Add, name, labels), Remove, name, labels);
      && (forall k :: k in r <==> k in index || Touches(labels, k))
      && (forall k :: Touches(labels, k) ==> Leaf(r, k) == Leaf(index, k) - {name})
      && (forall k :: !Touches(labels, k) ==> Leaf(r, k) == Leaf(index, k))
  {
    var added := IndexOperation(index, Add, name, labels);
    IndexOperationSpec(index, Add, name, labels);
    IndexOperationSpec(added, Remove, name, labels);
  }

  // ---------------------------------------------------------------------
  // _union / _intersect / _difference
  // ---------------------------------------------------------------------

  /** `_union`: every element of `src` is copied into `dest`. */
  method Union(dest: set<string>, src: set<string>) returns (r: set<string>)
    ensures r == dest + src
  {
    r := dest;
    var todo := src;
    while todo != {}
      invariant todo <= src
      invariant r == dest + (src - todo)
      decreases todo
    {
      var x :| x in todo;
      r := r + {x};
      todo := todo - {x};
    }
  }

  /** `_intersect`: elements of `left` missing from `right` are deleted from `left`. */
  method Intersect(left: set<string>, right: set<string>) returns (r: set<string>)
    ensures r == left * right
  {
    r := left;
    var todo := left;
    while todo != {}
      invariant todo <= left
      invariant r == (left - todo) * right + todo
      decreases todo
    {
      var x :| x in todo;
      if x !in right {
        r := r - {x};
      }
      todo := todo - {x};
    }
  }

  /**
   * `_difference`: elements of `left` present in `right` are deleted from
   * `left`; an empty `right` returns at once.
   */
  method Difference(left: set<string>, right: set<string>) returns (r: set<string>)
    ensures r == left - right
    ensures right == {} ==> r == left
  {
    if right == {} {
      return left;
    }
    r := left;
    var todo := left;
    while todo != {}
      invariant todo <= left
      invariant r == (left - todo) - right + todo
      decreases todo
    {
      var x :| x in todo;
      if x in right {
        r := r - {x};
      }
      todo := todo - {x};
    }
  }

  // ---------------------------------------------------------------------
  // GetPredicateKeysDict / QueryIndexPredicate / QueryIndex
  // ---------------------------------------------------------------------

  /** Union of the `key=v` entries over `values`; None when none of them exists. */
  function ValuesUnion(index: Index, key: string, values: seq<string>): (r: Option<set<string>>)
    ensures r.None? <==> forall i :: 0 <= i < |values| ==> KeyValue(key, values[i]) !in index
    ensures r.Some? ==> forall n :: n in r.value <==>
      exists i :: 0 <= i < |values| && KeyValue(key, values[i]) in index && n in index[KeyValue(key, values[i])]
  {
    if |values| == 0 then None
    else
      var here := KeyValue(key, values[0]);
      var rest := ValuesUnion(index, key, values[1..]);
      assert forall i :: 1 <= i < |values| ==> values[1..][i - 1] == values[i];
      if here !in index then rest
      else if rest.None? then Some(index[here])
      else Some(index[here] + rest.value)
  }

  /**
   * `GetPredicateKeysDict`: key presence and absence look up the key entry;
   * every other type unites the `key=v` entries of its values. None stands
   * for the missing dictionary.
   */
  function PredicateKeys(index: Index, p: Predicate): Option<set<string>>
  {
    if p.ptype == Contains || p.ptype == NContains then
      (if KeyOnly(p.key) in index then Some(index[KeyOnly(p.key)]) else None)
    else ValuesUnion(index, p.key, p.values)
  }

  /** The series a predicate refers to; a missing dictionary refers to none. */
  function KeySet(index: Index, p: Predicate): (r: set<string>)
    ensures p.ptype == Contains || p.ptype == NContains ==>
      r == (if KeyOnly(p.key) in index then index[KeyOnly(p.key)] else {})
    ensures !(p.ptype == Contains || p.ptype == NContains) ==> forall n :: n in r <==>
      exists i :: 0 <= i < |p.values| && KeyValue(p.key, p.values[i]) in index && n in index[KeyValue(p.key, p.values[i])]
  {
    match PredicateKeys(index, p)
    case None => {}
    case Some(s) => s
  }

  /**
   * `QueryIndexPredicate`: the first positive predicate starts the result
   * from its key set; later positive predicates intersect with it and
   * negative ones subtract from it. A negative predicate with no result
   * yet leaves no result.
   */
  method QueryIndexPredicate(index: Index, p: Predicate, prev: Option<set<string>>)
    returns (r: Option<set<string>>)
    ensures prev.None? && IsPositive(p.ptype) ==> r == Some(KeySet(index, p))
    ensures prev.None? && !IsPositive(p.ptype) ==> r.None?
    ensures prev.Some? && IsPositive(p.ptype) ==> r == Some(prev.value * KeySet(index, p))
    ensures prev.Some? && !IsPositive(p.ptype) ==> r == Some(prev.value - KeySet(index, p))
  {
    var local := KeySet(index, p);
    if prev.Some? {
      var acc := prev.value;
      if IsPositive(p.ptype) {
        acc := Intersect(acc, local);
      } else {
        acc := Difference(acc, local);
      }
      r := Some(acc);
    } else if IsPositive(p.ptype) {
      r := Some(local);
    } else {
      r := None;
    }
  }

  /** Size of a predicate's key set, zero for a missing dictionary. */
  function KeyCount(index: Index, p: Predicate): nat
  {
    match PredicateKeys(index, p)
    case None => 0
    case Some(s) => |s|
  }

  /** First position, at or after `from`, of a predicate with the fewest keys. */
  function MinKeysIndex(index: Index, ps: seq<Predicate>, from: nat): (m: nat)
    requires from < |ps|
    ensures from <= m < |ps|
    ensures forall j :: from <= j < |ps| ==> KeyCount(index, ps[m]) <= KeyCount(index, ps[j])
    ensures forall j :: from <= j < m ==> KeyCount(index, ps[j]) > KeyCount(index, ps[m])
    decreases |ps| - from
  {
    if from == |ps| - 1 then from
    else
      var m := MinKeysIndex(index, ps, from + 1);
      if KeyCount(index, ps[from]) <= KeyCount(index, ps[m]) then from else m
  }

  /**
   * `PromoteSmallestPredicateToFront`: with more than one predicate, the
   * first one with the fewest keys changes places with position 0;
   * nothing else moves.
   */
  function PromoteSmallestToFront(index: Index, ps: seq<Predicate>): (r: seq<Predicate>)
    ensures |r| == |ps| && multiset(r) == multiset(ps)
    ensures |ps| <= 1 ==> r == ps
    ensures |ps| > 1 ==> forall j :: 0 <= j < |ps| ==> KeyCount(index, r[0]) <= KeyCount(index, ps[j])
    ensures |ps| > 1 ==> exists m :: 0 <= m < |ps| && r == ps[0 := ps[m]][m := ps[0]]
  {
    if |ps| <= 1 then ps
    else
      var m := MinKeysIndex(index, ps, 0);
      SwapFrontPermutes(ps, m);
      ps[0 := ps[m]][m := ps[0]]
  }

  lemma SwapFrontPermutes<T>(ps: seq<T>, m: nat)
    requires 0 <= m < |ps|
    ensures multiset(ps[0 := ps[m]][m := ps[0]]) == multiset(ps)
  {
    var r := ps[0 := ps[m]][m := ps[0]];
    if m == 0 {
      assert r == ps;
    } else {
      assert r == [ps[m]] + ps[1..m] + [ps[0]] + ps[m + 1..];
      assert ps == [ps[0]] + ps[1..m] + [ps[m]] + ps[m + 1..];
    }
  }

  /** A predicate lets `name` through: it is in a positive predicate's key set, or outside a negative one's. */
  predicate Admits(index: Index, p: Predicate, name: string)
  {
    if IsPositive(p.ptype) then name in KeySet(index, p) else name !in KeySet(index, p)
  }

  predicate HasPositive(ps: seq<Predicate>)
  {
    exists p :: p in ps && IsPositive(p.ptype)
  }

  /**
   * The meaning of a filter: it has a positive predicate and every
   * predicate admits the series.
   */
  predicate Matches(index: Index, ps: seq<Predicate>, name: string)
  {
    HasPositive(ps) && forall p :: p in ps ==> Admits(index, p, name)
  }

  /** Only the predicates present matter, not their order. */
  lemma PermutationPreservesMatches(index: Index, ps: seq<Predicate>, qs: seq<Predicate>, name: string)
    requires multiset(ps) == multiset(qs)
    ensures Matches(index, ps, name) <==> Matches(index, qs, name)
  {
    assert forall p :: p in ps <==> p in qs by {
      forall p ensures p in ps <==> p in qs {
        assert p in ps <==> p in multiset(ps);
        assert p in qs <==> p in multiset(qs);
      }
    }
  }

  /** Every positive predicate of `qs` holds `name` in its key set. */
  predicate PositivesAdmit(index: Index, qs: seq<Predicate>, name: string)
  {
    forall p :: p in qs && IsPositive(p.ptype) ==> name in KeySet(index, p)
  }

  /** No negative predicate of `qs` holds `name` in its key set. */
  predicate NegativesAdmit(index: Index, qs: seq<Predicate>, name: string)
  {
    forall p :: p in qs && !IsPositive(p.ptype) ==> name !in KeySet(index, p)
  }

  lemma MatchesSplit(index: Index, ps: seq<Predicate>, name: string)
    ensures Matches(index, ps, name) <==>
      HasPositive(ps) && PositivesAdmit(index, ps, name) && NegativesAdmit(index, ps, name)
  {
  }

  lemma PrefixExtend(ps: seq<Predicate>, i: nat)
    requires i < |ps|
    ensures ps[..i + 1] == ps[..i] + [ps[i]]
    ensures forall p :: p in ps[..i + 1] <==> p in ps[..i] || p == ps[i]
  {
    assert ps[..i + 1] == ps[..i] + [ps[i]];
  }

  /**
   * `QueryIndex`: after promoting the smallest predicate, all positive
   * predicates are applied in order, then all negative ones; with no
   * positive predicate the answer is empty. The answer is exactly the set
   * of series the filter matches, whatever the order of the predicates.
   */
  method QueryIndex(index: Index, preds: seq<Predicate>) returns (result: set<string>)
    ensures forall n :: n in result <==> Matches(index, preds, n)
  {
    var ps := PromoteSmallestToFront(index, preds);
    var acc: Option<set<string>> := None;
    var i := 0;
    assert ps[..0] == [];
    while i < |ps|
      invariant 0 <= i <= |ps|
      invariant PositivesSoFar(index, ps[..i], acc)
    {
      var next := acc;
      if IsPositive(ps[i].ptype) {
        next := QueryIndexPredicate(index, ps[i], acc);
      }
      PositiveStep(index, ps, i, acc, next);
      acc := next;
      i := i + 1;
    }
    assert ps[..|ps|] == ps;
    i := 0;
    while i < |ps|
      invariant 0 <= i <= |ps|
      invariant NegativesSoFar(index, ps, ps[..i], acc)
    {
      if !IsPositive(ps[i].ptype) {
        var next := QueryIndexPredicate(index, ps[i], acc);
        if next.None? {
          NegativeNone(index, ps, ps[..i], acc);
          result := {};
          PromotePreservesMatches(index, preds, ps);
          return;
        }
        NegativeStep(index, ps, i, acc, next);
        acc := next;
      } else {
        NegativeStep(index, ps, i, acc, acc);
      }
      i := i + 1;
    }
    result := if acc.None? then {} else acc.value;
    NegativesDone(index, ps, acc, result);
    PromotePreservesMatches(index, preds, ps);
  }

  /** What the first loop of `QueryIndex` has built after the predicates `qs`. */
  ghost predicate PositivesSoFar(index: Index, qs: seq<Predicate>, acc: Option<set<string>>)
  {
    (acc.None? <==> !HasPositive(qs))
    && (acc.Some? ==> forall n :: n in acc.value <==> PositivesAdmit(index, qs, n))
  }

  /** What the second loop of `QueryIndex` has built after the negative predicates among `qs`. */
  ghost predicate NegativesSoFar(index: Index, ps: seq<Predicate>, qs: seq<Predicate>, acc: Option<set<string>>)
  {
    (acc.None? <==> !HasPositive(ps))
    && (acc.Some? ==> forall n :: n in acc.value <==> PositivesAdmit(index, ps, n) && NegativesAdmit(index, qs, n))
  }

  /** One step of the positive loop: a positive predicate starts or narrows the result, a negative one is skipped. */
  lemma PositiveStep(index: Index, ps: seq<Predicate>, i: nat, acc: Option<set<string>>, next: Option<set<string>>)
    requires i < |ps|
    requires PositivesSoFar(index, ps[..i], acc)
    requires !IsPositive(ps[i].ptype) ==> next == acc
    requires IsPositive(ps[i].ptype) && acc.None? ==> next == Some(KeySet(index, ps[i]))
    requires IsPositive(ps[i].ptype) && acc.Some? ==> next == Some(acc.value * KeySet(index, ps[i]))
    ensures PositivesSoFar(index, ps[..i + 1], next)
  {
    PrefixExtend(ps, i);
  }

  /** One step of the negative loop: a negative predicate removes its key set, a positive one is skipped. */
  lemma NegativeStep(index: Index, ps: seq<Predicate>, i: nat, acc: Option<set<string>>, next: Option<set<string>>)
    requires i < |ps|
    requires NegativesSoFar(index, ps, ps[..i], acc)
    requires IsPositive(ps[i].ptype) ==> next == acc
    requires !IsPositive(ps[i].ptype) ==> acc.Some? && next == Some(acc.value - KeySet(index, ps[i]))
    ensures NegativesSoFar(index, ps, ps[..i + 1], next)
  {
    PrefixExtend(ps, i);
  }

  /** A negative predicate met with no result yet: no positive predicate exists, so nothing matches. */
  lemma NegativeNone(index: Index, ps: seq<Predicate>, qs: seq<Predicate>, acc: Option<set<string>>)
    requires NegativesSoFar(index, ps, qs, acc) && acc.None?
    ensures forall n :: !Matches(index, ps, n)
  {
  }

  /** After both loops the result is what the filter matches. */
  lemma NegativesDone(index: Index, ps: seq<Predicate>, acc: Option<set<string>>, result: set<string>)
    requires NegativesSoFar(index, ps, ps, acc)
    requires result == if acc.None? then {} else acc.value
    ensures forall n :: n in result <==> Matches(index, ps, n)
  {
    forall n ensures n in result <==> Matches(index, ps, n) {
      MatchesSplit(index, ps, n);
    }
  }

  lemma PromotePreservesMatches(index: Index, preds: seq<Predicate>, ps: seq<Predicate>)
    requires ps == PromoteSmallestToFront(index, preds)
    ensures forall n :: Matches(index, ps, n) <==> Matches(index, preds, n)
    ensures forall n :: Matches(index, ps, n) <==>
      HasPositive(ps) && PositivesAdmit(index, ps, n) && NegativesAdmit(index, ps, n)
  {
    forall n ensures Matches(index, ps, n) <==> Matches(index, preds, n) {
      PermutationPreservesMatches(index, ps, preds, n);
    }
  }

  // ---------------------------------------------------------------------
  // QueryPredicateList_Free
  // ---------------------------------------------------------------------

  /**
   * `QueryPredicateList_Free`: a shared list only loses one reference; the
   * last reference frees it (the boolean says whether storage was freed).
   */
  function ReleasePredicates(l: PredicateList): (r: (PredicateList, bool))
    requires l.ref >= 1
    ensures r.1 <==> l.ref == 1
    ensures !r.1 ==> r.0 == l.(ref := l.ref - 1)
  {
    if l.ref > 1 then (l.(ref := l.ref - 1), false) else (l, true)
  }

  /** `k` further releases of a list: how many of them freed it. */
  function ReleaseTimes(l: PredicateList, k: nat): (freed: nat)
    requires l.ref >= 1
    decreases k
  {
    if k == 0 then 0
    else
      var (l', f) := ReleasePredicates(l);
      if f then 1 + (if k == 1 then 0 else ReleaseTimes(l, k - 1))
      else ReleaseTimes(l', k - 1)
  }

  /**
   * Reference-count law: a list shared by `n` holders survives the first
   * `n - 1` releases and is freed by the `n`-th, exactly once.
   */
  lemma {:induction false} SharedListFreedByLastRelease(l: PredicateList)
    requires l.ref >= 1
    decreases l.ref
    ensures ReleaseTimes(l, l.ref - 1) == 0
    ensures ReleaseTimes(l, l.ref) == 1
  {
    if l.ref > 1 {
      SharedListFreedByLastRelease(l.(ref := l.ref - 1));
    }
  }
}

=== FILE: query_language.dfy ===
/**
 * Command-argument parsing of the time-series commands
 * (src/query_language.c): the filter language of TS.MRANGE / TS.MGET /
 * TS.QUERYINDEX, range bounds, COUNT, AGGREGATION, GROUPBY/REDUCE, the
 * LABELS list and the TS.CREATE options.
 *
 * The argument vector is `args`, with the command name at position 0, as
 * `argv` is in the module. Integers are read the way Redis reads them
 * (an optional `-`, no `+`, no leading zeros, within the signed 64-bit
 * range); a value read into a timestamp slot is reinterpreted as unsigned.
 */
module QueryLanguage {

  import opened Common
  import opened Tsdb
  import opened Indexer

  // ---------------------------------------------------------------------
  // Reading integers (RedisModule_StringToLongLong)
  // ---------------------------------------------------------------------

  predicate IsDigit(c: char)
  {
    '0' <= c <= '9'
  }

  predicate AllDigits(s: string)
  {
    forall i :: 0 <= i < |s| ==> IsDigit(s[i])
  }

  function DigitValue(c: char): nat
    requires IsDigit(c)
  {
    c as int - '0' as int
  }

  function DigitChar(d: nat): (c: char)
    requires d < 10
    ensures IsDigit(c) && DigitValue(c) == d
  {
    ('0' as int + d) as char
  }

  /** The number a string of decimal digits denotes. */
  function DecimalValue(s: string): nat
    requires AllDigits(s)
  {
    if s == [] then 0 else DecimalValue(s[..|s| - 1]) * 10 + DigitValue(s[|s| - 1])
  }

  /**
   * A signed 64-bit integer in canonical decimal form: `0`, or an optional
   * `-` followed by digits without a leading zero; anything else, and any
   * value outside the signed 64-bit range, is refused.
   */
  function ParseLongLong(s: string): (r: Option<int>)
    ensures r.Some? ==> LLONG_MIN <= r.value <= LLONG_MAX
  {
    if s == "0" then Some(0)
    else
      var neg := |s| > 0 && s[0] == '-';
      var digits := if neg then s[1..] else s;
      if digits == [] || !AllDigits(digits) || digits[0] == '0' then None
      else
        var m: int := DecimalValue(digits);
        var v := if neg then -m else m;
        if LLONG_MIN <= v <= LLONG_MAX then Some(v) else None
  }

  /** Canonical decimal form of a natural number. */
  function ShowNat(n: nat): (s: string)
    ensures s != [] && AllDigits(s)
    ensures n > 0 ==> s[0] != '0'
    ensures n == 0 ==> s == "0"
  {
    if n < 10 then [DigitChar(n)] else ShowNat(n / 10) + [DigitChar(n % 10)]
  }

  /** Canonical decimal form of an integer. */
  function ShowInt(n: int): string
  {
    if n < 0 then "-" + ShowNat(-n) else ShowNat(n)
  }

  lemma {:induction false} DecimalOfShow(n: nat)
    ensures DecimalValue(ShowNat(n)) == n
  {
    var s := ShowNat(n);
    if n >= 10 {
      DecimalOfShow(n / 10);
      assert s[..|s| - 1] == ShowNat(n / 10);
    }
  }

  lemma {:induction false} LeadingDigitPositive(s: string)
    requires s != [] && AllDigits(s) && s[0] != '0'
    ensures DecimalValue(s) > 0
  {
    if |s| > 1 {
      LeadingDigitPositive(s[..|s| - 1]);
    }
  }

  lemma {:induction false} ShowOfDecimal(s: string)
    requires s != [] && AllDigits(s) && s[0] != '0'
    ensures ShowNat(DecimalValue(s)) == s
  {
    if |s| > 1 {
      var p := s[..|s| - 1];
      ShowOfDecimal(p);
      LeadingDigitPositive(p);
      var v := DecimalValue(s);
      assert v / 10 == DecimalValue(p) && v % 10 == DigitValue(s[|s| - 1]);
      assert s == p + [s[|s| - 1]];
    } else {
      assert s[..0] == [];
      assert DecimalValue(s) == DigitValue(s[0]);
      assert s == [DigitChar(DecimalValue(s))];
    }
  }

  /** Every signed 64-bit integer written in decimal reads back as itself. */
  lemma ParseShowInt(n: int)
    requires LLONG_MIN <= n <= LLONG_MAX
    ensures ParseLongLong(ShowInt(n)) == Some(n)
  {
    if n < 0 {
      ParseShowNegative(-n);
    } else if n > 0 {
      ParseShowPositive(n);
    }
  }

  /** The decimal form of a negative number in range reads back as that number. */
  lemma ParseShowNegative(m: nat)
    requires 0 < m <= -LLONG_MIN
    ensures ParseLongLong("-" + ShowNat(m)) == Some(-(m as int))
  {
    DecimalOfShow(m);
    ParseNegative(ShowNat(m));
  }

  /** The decimal form of a positive number in range reads back as that number. */
  lemma ParseShowPositive(m: nat)
    requires 0 < m <= LLONG_MAX
    ensures ParseLongLong(ShowNat(m)) == Some(m)
  {
    DecimalOfShow(m);
    ParsePositive(ShowNat(m));
  }

  /** A minus sign and digits without a leading zero read as the negated number, when in range. */
  lemma ParseNegative(digits: string)
    requires digits != [] && AllDigits(digits) && digits[0] != '0'
    ensures LLONG_MIN <= -(DecimalValue(digits) as int) ==> ParseLongLong("-" + digits) == Some(-(DecimalValue(digits) as int))
  {
    var s := "-" + digits;
    assert s[0] == '-' && s != "0";
    TailOfConcat("-", digits);
  }

  /** Digits without a leading zero read as their number, when in range. */
  lemma ParsePositive(digits: string)
    requires digits != [] && AllDigits(digits) && digits[0] != '0'
    ensures DecimalValue(digits) <= LLONG_MAX ==> ParseLongLong(digits) == Some(DecimalValue(digits))
  {
    assert digits != "0";
    assert digits[0] != '-';
  }

  /** Only the canonical decimal form of a value is accepted. */
  /** A written number is never an option word, which starts with a letter. */
  lemma NumberIsNoWord(n: int, w: string)
    requires |w| >= 1 && 'A' <= w[0] <= 'Z'
    ensures !EqualsIgnoreCase(ShowInt(n), w)
  {
    var s := ShowInt(n);
    assert s[0] == '-' || IsDigit(s[0]) by {
      if n >= 0 { assert IsDigit(ShowNat(n)[0]); }
    }
    assert ToLower(s[0]) != ToLower(w[0]);
  }

  lemma ParsedIsCanonical(s: string)
    requires ParseLongLong(s).Some?
    ensures s == ShowInt(ParseLongLong(s).value)
  {
    if s != "0" {
      var neg := |s| > 0 && s[0] == '-';
      var digits := if neg then s[1..] else s;
      ShowOfDecimal(digits);
      LeadingDigitPositive(digits);
      if neg {
        assert s == "-" + digits;
      }
    }
  }

  // ---------------------------------------------------------------------
  // Filter tokens (parseLabelListFromArgs)
  // ---------------------------------------------------------------------

  /** The four separators of the filter language. */
  datatype Separator = NotInList | NotEqual | InList | Equal

  function SeparatorText(sep: Separator): string
  {
    match sep
    case NotInList => "!=("
    case NotEqual => "!="
    case InList => "=("
    case Equal => "="
  }

  /**
   * Which separator a filter token is split on: `!=(` is looked for before
   * `!=`, and `=(` before `=`; a token without `=` has none.
   */
  function Classify(arg: string): (r: Option<Separator>)
    ensures r.Some? ==> HasSubstring(arg, SeparatorText(r.value))
    ensures r.None? <==> !HasSubstring(arg, "=")
    ensures r == Some(NotEqual) ==> !HasSubstring(arg, "!=(")
    ensures r == Some(InList) ==> !HasSubstring(arg, "!=")
    ensures r == Some(Equal) ==> !HasSubstring(arg, "!=") && !HasSubstring(arg, "=(")
  {
    if HasSubstring(arg, "!=(") then
      EqualsInside(arg, "!=(");
      Some(NotInList)
    else if HasSubstring(arg, "!=") then
      EqualsInside(arg, "!=");
      Some(NotEqual)
    else if HasSubstring(arg, "=(") then
      EqualsInside(arg, "=(");
      Some(InList)
    else if HasSubstring(arg, "=") then Some(Equal)
    else None
  }

  /**
   * The predicate type a separator gives: a plain `!=` or `=` without a
   * value turns into key presence or key absence.
   */
  function TypeFor(sep: Separator, values: seq<string>): PredicateType
  {
    match sep
    case NotInList => ListNotMatch
    case NotEqual => if values == [] then Contains else Neq
    case InList => ListMatch
    case Equal => if values == [] then NContains else Eq
  }

  /**
   * One filter token: classified by its separator, then split into key
   * and values on that separator's characters.
   */
  function ParsePredicateToken(arg: string): (r: Result<Predicate, ()>)
    requires |arg| < 255
    ensures r.Ok? ==> Classify(arg).Some? && WellTyped(arg, Classify(arg).value, r.value)
  {
    var c := Classify(arg);
    if c.None? then Err(())
    else
      var parsed := ParsePredicate(arg, SeparatorText(c.value));
      if parsed.Err? then Err(())
      else
        TokenWellTyped(arg, c.value, parsed.value);
        Ok(Predicate(TypeFor(c.value, parsed.value.values), parsed.value.key, parsed.value.values))
  }

  /**
   * A predicate read from a token split on `sep`: its type is the one the
   * separator gives, `=`/`!=` with a value carry exactly one, key presence
   * and absence carry none, and the key is not empty.
   */
  predicate WellTyped(arg: string, sep: Separator, p: Predicate)
  {
    && p.ptype == TypeFor(sep, p.values)
    && ((p.ptype == Eq || p.ptype == Neq) ==> |p.values| == 1)
    && ((p.ptype == Contains || p.ptype == NContains) ==> p.values == [])
    && p.key != []
  }

  lemma TokenWellTyped(arg: string, sep: Separator, pp: ParsedPredicate)
    requires |arg| < 255
    requires ParsePredicate(arg, SeparatorText(sep)) == Ok(pp)
    ensures WellTyped(arg, sep, Predicate(TypeFor(sep, pp.values), pp.key, pp.values))
  {
    SingleValued(arg, sep);
  }

  /** `!=` and `=` split off at most one value. */
  lemma SingleValued(arg: string, sep: Separator)
    requires |arg| < 255
    ensures var r := ParsePredicate(arg, SeparatorText(sep));
      (sep == NotEqual || sep == Equal) && r.Ok? ==> |r.value.values| <= 1
  {
    SinglesAreNotLists();
  }

  /** The delimiter sets the four separators give to `strtok_r`. */
  lemma SeparatorDelims()
    ensures Delims("=") == {'='}
    ensures Delims("!=") == {'!', '='}
    ensures Delims("=(") == {'=', '('}
    ensures Delims("!=(") == {'!', '=', '('}
  {
    assert "="[0] == '=';
    assert "!="[0] == '!' && "!="[1] == '=';
    assert "=("[0] == '=' && "=("[1] == '(';
    assert "!=("[0] == '!' && "!=("[1] == '=' && "!=("[2] == '(';
  }

  /** A string holding a separator that contains `=` holds `=`. */
  lemma EqualsInside(arg: string, sep: string)
    requires sep == "!=(" || sep == "!=" || sep == "=("
    requires HasSubstring(arg, sep)
    ensures HasSubstring(arg, "=")
  {
    var i: nat :| OccursAt(arg, sep, i);
    var j := if sep[0] == '=' then i else i + 1;
    assert arg[j] == '=';
    assert OccursAt(arg, "=", j);
  }

  /** `!=` and `=` take a single value; the other two take a list. */
  lemma SinglesAreNotLists()
    ensures !HasSubstring("!=", "=(") && !HasSubstring("=", "=(")
    ensures HasSubstring("!=(", "=(") && HasSubstring("=(", "=(")
  {
    assert OccursAt("!=(", "=(", 1);
    assert OccursAt("=(", "=(", 0);
    assert forall i: nat :: !OccursAt("!=", "=(", i) by {
      forall i: nat ensures !OccursAt("!=", "=(", i) {
        if i == 0 {
          assert "!="[0] != "=("[0];
        }
      }
    }
    assert forall i: nat :: !OccursAt("=", "=(", i);
  }

  /** Characters that have a meaning inside a filter token. */
  const FilterSpecial: set<char> := {'!', '=', '(', ')', ','}

  /** A non-empty key or value free of the filter language's special characters. */
  predicate IsWord(w: string)
  {
    w != [] && forall k :: 0 <= k < |w| ==> w[k] !in FilterSpecial
  }

  /** A predicate whose key and values are words, with as many values as its type takes. */
  predicate WritablePredicate(p: Predicate)
  {
    && IsWord(p.key)
    && (forall i :: 0 <= i < |p.values| ==> IsWord(p.values[i]))
    && ((p.ptype == Eq || p.ptype == Neq) ==> |p.values| == 1)
    && ((p.ptype == Contains || p.ptype == NContains) ==> p.values == [])
  }

  /** The filter token a user writes for a predicate. */
  function Render(p: Predicate): string
    requires WritablePredicate(p)
  {
    match p.ptype
    case Eq => p.key + "=" + p.values[0]
    case Neq => p.key + "!=" + p.values[0]
    case Contains => p.key + "!="
    case NContains => p.key + "="
    case ListMatch => p.key + "=(" + Join(p.values, ",") + ")"
    case ListNotMatch => p.key + "!=(" + Join(p.values, ",") + ")"
  }

  /** A separator character `c` absent from `s` rules the separator out. */
  lemma AbsentCharNoSubstring(s: string, pat: string, j: nat)
    requires j < |pat|
    requires forall k :: 0 <= k < |s| ==> s[k] != pat[j]
    ensures !HasSubstring(s, pat)
  {
    forall i: nat ensures !OccursAt(s, pat, i) {
      if i + |pat| <= |s| {
        assert s[i..i + |pat|][j] == s[i + j];
      }
    }
  }

  /** Joining words avoids every character the words and the separator avoid. */
  lemma {:induction false} JoinAvoids(vs: seq<string>, sep: string, bad: set<char>)
    requires forall i, k :: 0 <= i < |vs| && 0 <= k < |vs[i]| ==> vs[i][k] !in bad
    requires forall k :: 0 <= k < |sep| ==> sep[k] !in bad
    ensures forall k :: 0 <= k < |Join(vs, sep)| ==> Join(vs, sep)[k] !in bad
  {
    if |vs| > 1 {
      JoinAvoids(vs[1..], sep, bad);
      var rest := Join(vs[1..], sep);
      assert Join(vs, sep) == vs[0] + sep + rest;
      forall k | 0 <= k < |Join(vs, sep)| ensures Join(vs, sep)[k] !in bad {
        if k < |vs[0]| {
        } else if k < |vs[0]| + |sep| {
          assert Join(vs, sep)[k] == sep[k - |vs[0]|];
        } else {
          assert Join(vs, sep)[k] == rest[k - |vs[0]| - |sep|];
        }
      }
    }
  }

  /** A word has no character of `d` when `d` holds only special characters. */
  lemma WordAvoids(w: string, d: set<char>)
    requires IsWord(w) && d <= FilterSpecial
    ensures forall k :: 0 <= k < |w| ==> w[k] !in d
  {
  }

  lemma ClassifyEqual(key: string, rest: string)
    requires IsWord(key) && forall k :: 0 <= k < |rest| ==> rest[k] !in FilterSpecial
    ensures Classify(key + "=" + rest) == Some(Equal)
  {
    var arg := key + "=" + rest;
    AbsentCharNoSubstring(arg, "!=(", 0);
    AbsentCharNoSubstring(arg, "!=", 0);
    AbsentCharNoSubstring(arg, "=(", 1);
    assert OccursAt(arg, "=", |key|);
  }

  lemma ClassifyNotEqual(key: string, rest: string)
    requires IsWord(key) && forall k :: 0 <= k < |rest| ==> rest[k] !in FilterSpecial
    ensures Classify(key + "!=" + rest) == Some(NotEqual)
  {
    var arg := key + "!=" + rest;
    AbsentCharNoSubstring(arg, "!=(", 2);
    assert OccursAt(arg, "!=", |key|);
  }

  lemma ClassifyInList(key: string, rest: string)
    requires IsWord(key) && forall k :: 0 <= k < |rest| ==> rest[k] != '!'
    ensures Classify(key + "=(" + rest) == Some(InList)
  {
    var arg := key + "=(" + rest;
    AbsentCharNoSubstring(arg, "!=(", 0);
    AbsentCharNoSubstring(arg, "!=", 0);
    assert OccursAt(arg, "=(", |key|);
  }

  lemma ClassifyNotInList(key: string, rest: string)
    ensures Classify(key + "!=(" + rest) == Some(NotInList)
  {
    assert OccursAt(key + "!=(" + rest, "!=(", |key|);
  }

  /** A key, a separator of delimiters and then a single value word. */
  lemma SplitSingle(key: string, sep: string, v: string)
    requires sep == "=" || sep == "!="
    requires IsWord(key) && IsWord(v) && |key + sep + v| < 255
    ensures ParsePredicate(key + sep + v, sep) == Ok(ParsedPredicate(key, [v]))
  {
    var d := Delims(sep);
    SeparatorDelims();
    WordAvoids(key, d);
    WordAvoids(v, d);
    KeyThenRest(key, sep, v, d);
    StrtokOf(sep[1..], v, [], d);
    EmptyConcat(sep[1..] + v);
    SinglesAreNotLists();
  }

  /** A key followed by a separator of delimiters and no value. */
  lemma SplitBare(key: string, sep: string)
    requires sep == "=" || sep == "!="
    requires IsWord(key) && |key + sep| < 255
    ensures ParsePredicate(key + sep, sep) == Ok(ParsedPredicate(key, []))
  {
    var d := Delims(sep);
    SeparatorDelims();
    WordAvoids(key, d);
    assert key + sep == [] + key + sep;
    StrtokOf([], key, sep, d);
    assert forall i :: 0 <= i < |sep[1..]| ==> sep[1..][i] in d;
    SinglesAreNotLists();
  }

  /** Tokenising a key, a list separator and a list body on the separator's characters. */
  lemma TokensOfListToken(key: string, sep: string, body: string)
    requires sep == "=(" || sep == "!=("
    requires IsWord(key) && body != [] && forall k :: 0 <= k < |body| ==> body[k] !in {'!', '=', '('}
    ensures Strtok(key + sep + body, Delims(sep)) == Some((key, sep[1..] + body))
    ensures Strtok(sep[1..] + body, Delims(sep)) == Some((body, []))
  {
    SeparatorDelims();
    var d := Delims(sep);
    WordAvoids(key, d);
    KeyThenRest(key, sep, body, d);
    if sep == "=(" {
      assert sep[1..] + body == "(" + body + [];
      StrtokOf("(", body, [], {'=', '('});
    } else {
      assert sep[1..] + body == "=(" + body + [];
      StrtokOf("=(", body, [], {'!', '=', '('});
    }
  }

  /** The key is the first token when the separator starts with a delimiter. */
  lemma KeyThenRest(key: string, sep: string, rest: string, d: set<char>)
    requires key != [] && forall k :: 0 <= k < |key| ==> key[k] !in d
    requires sep != [] && sep[0] in d
    ensures Strtok(key + sep + rest, d) == Some((key, sep[1..] + rest))
  {
    EmptyConcat(key);
    ConcatAssoc(key, sep, rest);
    StrtokOf([], key, sep + rest, d);
    TailOfConcat(sep, rest);
  }

  /** A key, a list separator of delimiters, then `v1,...,vn)`. */
  lemma SplitList(key: string, sep: string, vs: seq<string>)
    requires sep == "=(" || sep == "!=("
    requires IsWord(key) && forall i :: 0 <= i < |vs| ==> IsWord(vs[i])
    requires |key + sep + Join(vs, ",") + ")"| < 255
    ensures ParsePredicate(key + sep + Join(vs, ",") + ")", sep) == Ok(ParsedPredicate(key, vs))
  {
    var j := Join(vs, ",");
    JoinAvoids(vs, ",", {'!', '=', '('});
    assert key + sep + j + ")" == key + sep + (j + ")");
    TokensOfListToken(key, sep, j + ")");
    SinglesAreNotLists();
    ListTokenParses(vs);
  }

  /** The list token `v1,...,vn)` that follows `=(` or `!=(` parses back to the values. */
  lemma ListTokenParses(vs: seq<string>)
    requires forall i :: 0 <= i < |vs| ==> IsWord(vs[i])
    ensures ParseValueList(Some(Join(vs, ",") + ")")) == Ok(vs)
  {
    if vs == [] {
      assert Join(vs, ",") + ")" == ")";
    } else {
      ValueListRoundTrip(vs);
    }
  }

  /** Classification and splitting together decide the parsed predicate. */
  lemma TokenOf(arg: string, sep: Separator, pp: ParsedPredicate)
    requires |arg| < 255
    requires Classify(arg) == Some(sep) && ParsePredicate(arg, SeparatorText(sep)) == Ok(pp)
    ensures ParsePredicateToken(arg) == Ok(Predicate(TypeFor(sep, pp.values), pp.key, pp.values))
  {
  }

  lemma ParseSingleToken(key: string, sep: Separator, v: string)
    requires sep == Equal || sep == NotEqual
    requires IsWord(key) && IsWord(v) && |key + SeparatorText(sep) + v| < 255
    ensures ParsePredicateToken(key + SeparatorText(sep) + v) ==
      Ok(Predicate(if sep == Equal then Eq else Neq, key, [v]))
  {
    var arg := key + SeparatorText(sep) + v;
    if sep == Equal {
      ClassifyEqual(key, v);
    } else {
      ClassifyNotEqual(key, v);
    }
    SplitSingle(key, SeparatorText(sep), v);
    TokenOf(arg, sep, ParsedPredicate(key, [v]));
  }

  lemma ParseBareToken(key: string, sep: Separator)
    requires sep == Equal || sep == NotEqual
    requires IsWord(key) && |key + SeparatorText(sep)| < 255
    ensures ParsePredicateToken(key + SeparatorText(sep)) ==
      Ok(Predicate(if sep == Equal then NContains else Contains, key, []))
  {
    var arg := key + SeparatorText(sep);
    assert arg == key + SeparatorText(sep) + [];
    if sep == Equal {
      ClassifyEqual(key, []);
    } else {
      ClassifyNotEqual(key, []);
    }
    SplitBare(key, SeparatorText(sep));
    TokenOf(arg, sep, ParsedPredicate(key, []));
  }

  lemma ParseListToken(key: string, sep: Separator, vs: seq<string>)
    requires sep == InList || sep == NotInList
    requires IsWord(key) && forall i :: 0 <= i < |vs| ==> IsWord(vs[i])
    requires |key + SeparatorText(sep) + Join(vs, ",") + ")"| < 255
    ensures ParsePredicateToken(key + SeparatorText(sep) + Join(vs, ",") + ")") ==
      Ok(Predicate(if sep == InList then ListMatch else ListNotMatch, key, vs))
  {
    var j := Join(vs, ",");
    var arg := key + SeparatorText(sep) + j + ")";
    assert arg == key + SeparatorText(sep) + (j + ")");
    if sep == InList {
      JoinAvoids(vs, ",", {'!'});
      ClassifyInList(key, j + ")");
    } else {
      ClassifyNotInList(key, j + ")");
    }
    SplitList(key, SeparatorText(sep), vs);
    TokenOf(arg, sep, ParsedPredicate(key, vs));
  }

  /**
   * Every predicate written as a filter token parses back to itself: the
   * classification order never mistakes one separator for another.
   */
  lemma RenderRoundTrip(p: Predicate)
    requires WritablePredicate(p) && |Render(p)| < 255
    ensures ParsePredicateToken(Render(p)) == Ok(p)
  {
    match p.ptype
    case Eq =>
      ParseSingleToken(p.key, Equal, p.values[0]);
      assert p.values == [p.values[0]];
    case Neq =>
      ParseSingleToken(p.key, NotEqual, p.values[0]);
      assert p.values == [p.values[0]];
    case Contains => ParseBareToken(p.key, NotEqual);
    case NContains => ParseBareToken(p.key, Equal);
    case ListMatch => ParseListToken(p.key, InList, p.values);
    case ListNotMatch => ParseListToken(p.key, NotInList, p.values);
  }

  // ---------------------------------------------------------------------
  // parseLabelListFromArgs
  // ---------------------------------------------------------------------

  /**
   * Parse results taken in order until the first failure: the values
   * taken, and whether every result was a success.
   */
  function TakeParsed(results: seq<Result<Predicate, ()>>): (r: (seq<Predicate>, bool))
    ensures |r.0| <= |results|
    ensures r.1 <==> forall i :: 0 <= i < |results| ==> results[i].Ok?
    ensures r.1 ==> |r.0| == |results|
    ensures !r.1 ==> |r.0| < |results| && results[|r.0|].Err?
    ensures forall i :: 0 <= i < |r.0| ==> results[i] == Ok(r.0[i])
  {
    if results == [] then ([], true)
    else
      var init := results[..|results| - 1];
      var (ps, ok) := TakeParsed(init);
      assert forall i :: 0 <= i < |init| ==> init[i] == results[i];
      if !ok then (ps, false)
      else
        match results[|results| - 1]
        case Err(_) => (ps, false)
        case Ok(p) =>
          assert forall i :: 0 <= i < |ps| ==> (ps + [p])[i] == ps[i];
          (ps + [p], true)
  }

  /** Each filter token parsed on its own. */
  function ParseEach(tokens: seq<string>): (r: seq<Result<Predicate, ()>>)
    requires forall i :: 0 <= i < |tokens| ==> |tokens[i]| < 255
    ensures |r| == |tokens| && forall i {:trigger r[i]} :: 0 <= i < |tokens| ==> r[i] == ParsePredicateToken(tokens[i])
  {
    seq(|tokens|, i requires 0 <= i < |tokens| => ParsePredicateToken(tokens[i]))
  }

  /** A parsed filter: the list, and whether parsing succeeded. */
  datatype LabelListParse = LabelListParse(queries: PredicateList, ok: bool)

  /**
   * `parseLabelListFromArgs`: a list sized for every token and holding one
   * reference; on failure it keeps the predicates parsed before the bad
   * token, for the caller to release.
   */
  function ParseLabelList(tokens: seq<string>): (r: LabelListParse)
    requires forall i :: 0 <= i < |tokens| ==> |tokens[i]| < 255
    ensures r.queries.ref == 1 && r.queries.count == |tokens|
    ensures r.ok <==> forall i :: 0 <= i < |tokens| ==> ParsePredicateToken(tokens[i]).Ok?
    ensures |r.queries.list| <= |tokens|
    ensures r.ok ==> |r.queries.list| == |tokens|
    ensures forall i {:trigger r.queries.list[i]} :: 0 <= i < |r.queries.list| ==> ParsePredicateToken(tokens[i]) == Ok(r.queries.list[i])
  {
    var results := ParseEach(tokens);
    var (ps, ok) := TakeParsed(results);
    assert forall i :: 0 <= i < |tokens| ==> results[i] == ParsePredicateToken(tokens[i]);
    LabelListParse(PredicateList(ps, |tokens|, 1), ok)
  }

  // ---------------------------------------------------------------------
  // parseMultiSeriesReduceOp
  // ---------------------------------------------------------------------

  /** The reducers GROUPBY can apply. */
  datatype ReduceOp = Sum | Max | Min

  /**
   * `parseMultiSeriesReduceOp`: only the first three characters count,
   * compared without case, so `summary` means Sum.
   */
  function ParseReduceOp(s: string): (r: Option<ReduceOp>)
    ensures r.Some? ==> |s| >= 3
    ensures r.Some? <==> HasPrefixIgnoreCase(s, "sum") || HasPrefixIgnoreCase(s, "max") || HasPrefixIgnoreCase(s, "min")
    ensures r == Some(Sum) <==> HasPrefixIgnoreCase(s, "sum")
    ensures r == Some(Max) <==> HasPrefixIgnoreCase(s, "max")
    ensures r == Some(Min) <==> HasPrefixIgnoreCase(s, "min")
  {
    ReducerPrefixesDiffer(s);
    if HasPrefixIgnoreCase(s, "sum") then Some(Sum)
    else if HasPrefixIgnoreCase(s, "max") then Some(Max)
    else if HasPrefixIgnoreCase(s, "min") then Some(Min)
    else None
  }

  /** No name starts with two of the reducer names: they differ in their first two letters. */
  lemma ReducerPrefixesDiffer(s: string)
    ensures !(HasPrefixIgnoreCase(s, "sum") && HasPrefixIgnoreCase(s, "max"))
    ensures !(HasPrefixIgnoreCase(s, "sum") && HasPrefixIgnoreCase(s, "min"))
    ensures !(HasPrefixIgnoreCase(s, "max") && HasPrefixIgnoreCase(s, "min"))
  {
    if |s| >= 3 {
      assert s[..3][0] == s[0] && s[..3][1] == s[1];
    }
  }

  /** Only the first three characters decide the reducer. */
  lemma ReduceOpPrefix(s: string, tail: string)
    requires |s| == 3
    ensures ParseReduceOp(s + tail) == ParseReduceOp(s)
  {
    assert (s + tail)[..3] == s;
    assert s[..3] == s;
  }

  // ---------------------------------------------------------------------
  // parseRangeArguments
  // ---------------------------------------------------------------------

  /**
   * One range bound: `marker` (`-` or `+`) stands for `whenMarker`,
   * anything else must be an integer, stored into the unsigned timestamp.
   */
  function ParseBound(arg: string, marker: string, whenMarker: nat): (r: Option<nat>)
    ensures r.Some? && arg == marker ==> r.value == whenMarker
    ensures r.Some? && arg != marker ==> r.value < U64_MODULUS && arg == ShowInt(ToI64(r.value))
    ensures r.None? ==> arg != marker
  {
    if arg == marker then Some(whenMarker)
    else
      match ParseLongLong(arg)
      case None => None
      case Some(v) =>
        ParsedIsCanonical(arg);
        SignedRoundTrip(v);
        Some(ToU64(v))
  }

  /**
   * `parseRangeArguments`: `-` is the earliest timestamp, `+` the series'
   * last one; an unreadable bound is refused with its own message.
   */
  function ParseRangeArguments(args: seq<string>, startIndex: nat, lastTimestamp: nat): (r: Result<(nat, nat), string>)
    requires startIndex + 1 < |args|
    ensures r.Ok? && args[startIndex] == "-" ==> r.value.0 == 0
    ensures r.Ok? && args[startIndex + 1] == "+" ==> r.value.1 == lastTimestamp
    ensures r.Ok? && args[startIndex] != "-" ==>
      r.value.0 < U64_MODULUS && args[startIndex] == ShowInt(ToI64(r.value.0))
    ensures r.Ok? && args[startIndex + 1] != "+" ==>
      r.value.1 < U64_MODULUS && args[startIndex + 1] == ShowInt(ToI64(r.value.1))
    ensures r == Err("TSDB: wrong fromTimestamp") <==> ParseBound(args[startIndex], "-", 0).None?
    ensures r == Err("TSDB: wrong toTimestamp") <==>
      ParseBound(args[startIndex], "-", 0).Some? && ParseBound(args[startIndex + 1], "+", lastTimestamp).None?
  {
    match ParseBound(args[startIndex], "-", 0)
    case None => Err("TSDB: wrong fromTimestamp")
    case Some(start) =>
      match ParseBound(args[startIndex + 1], "+", lastTimestamp)
      case None => Err("TSDB: wrong toTimestamp")
      case Some(end) => Ok((start, end))
  }

  /** Bounds written in decimal come back as timestamps; negative ones wrap around. */
  lemma RangeOfWrittenBounds(args: seq<string>, i: nat, last: nat, from: int, to: int)
    requires i + 1 < |args|
    requires LLONG_MIN <= from <= LLONG_MAX && LLONG_MIN <= to <= LLONG_MAX
    requires args[i] == ShowInt(from) && args[i + 1] == ShowInt(to)
    ensures ParseRangeArguments(args, i, last) == Ok((ToU64(from), ToU64(to)))
  {
    ParseShowInt(from);
    ParseShowInt(to);
    assert ShowInt(from) != "-" by {
      if from < 0 { assert |ShowNat(-from)| >= 1; }
    }
    assert ShowInt(to) != "+" by {
      if to >= 0 { assert IsDigit(ShowNat(to)[0]); }
    }
  }

  // ---------------------------------------------------------------------
  // The rmutil argument readers
  // ---------------------------------------------------------------------

  /** The argument right after the first `name`, when there is one (`RMUtil_ParseArgsAfter` with `s`). */
  function ArgAfter(args: seq<string>, name: string): (r: Option<string>)
    ensures r.Some? <==> 0 <= ArgIndex(args, name) && ArgIndex(args, name) + 1 < |args|
    ensures r.Some? ==> r.value == args[ArgIndex(args, name) + 1]
  {
    var pos := ArgIndex(args, name);
    if pos < 0 || pos + 1 >= |args| then None else Some(args[pos + 1])
  }

  /** The integer right after the first `name` (`RMUtil_ParseArgsAfter` with `l`). */
  function LongAfter(args: seq<string>, name: string): (r: Option<int>)
    ensures r.Some? ==> ArgAfter(args, name).Some? && ArgAfter(args, name).value == ShowInt(r.value)
    ensures r.None? <==> ArgAfter(args, name).None? || ParseLongLong(ArgAfter(args, name).value).None?
  {
    match ArgAfter(args, name)
    case None => None
    case Some(a) =>
      match ParseLongLong(a)
      case None => None
      case Some(v) =>
        ParsedIsCanonical(a);
        Some(v)
  }

  // ---------------------------------------------------------------------
  // _parseAggregationArgs
  // ---------------------------------------------------------------------

  /** The outcome of reading an AGGREGATION clause. */
  datatype AggregationParse =
    | AggregationOk(aggType: int, timeDelta: nat)
    | AggregationNotExists
    | AggregationError(message: string)

  /**
   * `_parseAggregationArgs`: AGGREGATION (not as the command name) must be
   * followed by a type name and an integer bucket; the type, named through
   * `aggTypeOf`, must lie in `[0, typesMax)` and the bucket must be
   * positive. With no AGGREGATION clause the answer is "absent", not an
   * error.
   */
  function ParseAggregationArgs(args: seq<string>, aggTypeOf: string -> int, typesMax: int): (r: AggregationParse)
    ensures r.AggregationNotExists? <==> ArgIndex(args, "AGGREGATION") <= 0
    ensures r.AggregationOk? ==> 0 <= r.aggType < typesMax && r.timeDelta > 0
    ensures r.AggregationOk? ==>
      var at := ArgIndex(args, "AGGREGATION");
      at + 2 < |args| && r.aggType == aggTypeOf(args[at + 1]) && args[at + 2] == ShowInt(r.timeDelta)
    ensures r == AggregationError("TSDB: Couldn't parse AGGREGATION") <==>
      var at := ArgIndex(args, "AGGREGATION");
      at > 0 && (at + 2 >= |args| || ParseLongLong(args[at + 2]).None?)
    ensures r == AggregationError("TSDB: Unknown aggregation type") <==>
      var at := ArgIndex(args, "AGGREGATION");
      && at > 0 && at + 2 < |args| && ParseLongLong(args[at + 2]).Some?
      && !(0 <= aggTypeOf(args[at + 1]) < typesMax)
    ensures r == AggregationError("TSDB: timeBucket must be greater than zero") <==>
      var at := ArgIndex(args, "AGGREGATION");
      && at > 0 && at + 2 < |args| && ParseLongLong(args[at + 2]).Some?
      && 0 <= aggTypeOf(args[at + 1]) < typesMax && ParseLongLong(args[at + 2]).value <= 0
    ensures r.AggregationOk? <==>
      var at := ArgIndex(args, "AGGREGATION");
      && at > 0 && at + 2 < |args| && ParseLongLong(args[at + 2]).Some?
      && 0 <= aggTypeOf(args[at + 1]) < typesMax && ParseLongLong(args[at + 2]).value > 0
  {
    var offset := ArgIndex(args, "AGGREGATION");
    if offset <= 0 then AggregationNotExists
    else if offset + 2 >= |args| then AggregationError("TSDB: Couldn't parse AGGREGATION")
    else
      match ParseLongLong(args[offset + 2])
      case None => AggregationError("TSDB: Couldn't parse AGGREGATION")
      case Some(delta) =>
        ParsedIsCanonical(args[offset + 2]);
        var aggType := aggTypeOf(args[offset + 1]);
        if aggType < 0 || aggType >= typesMax then AggregationError("TSDB: Unknown aggregation type")
        else if delta <= 0 then AggregationError("TSDB: timeBucket must be greater than zero")
        else AggregationOk(aggType, delta)
  }

  /**
   * The partner of `ParseAggregationArgs`: an AGGREGATION clause written
   * with a known type name and a positive bucket is read back as that type
   * and bucket.
   */
  lemma AggregationRoundTrip(head: seq<string>, name: string, d: int, tail: seq<string>, aggTypeOf: string -> int, typesMax: int)
    requires |head| >= 1
    requires forall j :: 0 <= j < |head| ==> !EqualsIgnoreCase(head[j], "AGGREGATION")
    requires 0 <= aggTypeOf(name) < typesMax && 0 < d <= LLONG_MAX
    ensures ParseAggregationArgs(head + ["AGGREGATION", name, ShowInt(d)] + tail, aggTypeOf, typesMax)
      == AggregationOk(aggTypeOf(name), d)
  {
    var args := head + ["AGGREGATION", name, ShowInt(d)] + tail;
    assert args == head + ["AGGREGATION"] + ([name, ShowInt(d)] + tail);
    ArgIndexAfter(head, "AGGREGATION", [name, ShowInt(d)] + tail);
    assert args[|head| + 1] == name && args[|head| + 2] == ShowInt(d);
    ParseShowInt(d);
  }

  // ---------------------------------------------------------------------
  // parseCountArgument
  // ---------------------------------------------------------------------

  /**
   * `parseCountArgument`: the first COUNT (not as the command name) must
   * be followed by an integer. A COUNT right after AGGREGATION is the
   * aggregation type `count`, so the limit is the next COUNT instead, and
   * without one the limit keeps its default.
   */
  function ParseCount(args: seq<string>, default: int): (r: Result<int, string>)
    ensures ArgIndex(args, "COUNT") <= 0 ==> r == Ok(default)
    ensures r.Ok? && r.value != default ==>
      exists j :: 0 < j && j + 1 < |args| && EqualsIgnoreCase(args[j], "COUNT") && args[j + 1] == ShowInt(r.value)
    ensures r == Err("TSDB: COUNT argument is missing") <==>
      ArgIndex(args, "COUNT") > 0 && ArgIndex(args, "COUNT") + 1 == |args|
    ensures (0 < ArgIndex(args, "COUNT") && ArgIndex(args, "COUNT") + 1 < |args|
             && !EqualsIgnoreCase(args[ArgIndex(args, "COUNT") - 1], "AGGREGATION")) ==>
      r == (if ParseLongLong(args[ArgIndex(args, "COUNT") + 1]).Some?
            then Ok(ParseLongLong(args[ArgIndex(args, "COUNT") + 1]).value)
            else Err("TSDB: Couldn't parse COUNT"))
  {
    var offset := ArgIndex(args, "COUNT");
    if offset <= 0 then Ok(default)
    else if offset + 1 == |args| then Err("TSDB: COUNT argument is missing")
    else
      var afterAggregation := EqualsIgnoreCase(args[offset - 1], "AGGREGATION");
      var second := offset + 1 + ArgIndex(args[offset + 1..], "COUNT");
      if afterAggregation && (second == offset || second + 1 >= |args|) then Ok(default)
      else
        var at := if afterAggregation then second else offset;
        assert afterAggregation ==> EqualsIgnoreCase(args[offset + 1..][second - offset - 1], "COUNT");
        match ParseLongLong(args[at + 1])
        case None => Err("TSDB: Couldn't parse COUNT")
        case Some(v) =>
          ParsedIsCanonical(args[at + 1]);
          Ok(v)
  }

  /**
   * COUNT right after AGGREGATION with no later COUNT is the aggregation
   * type, and the limit keeps its default.
   */
  lemma CountAfterAggregationIsType(args: seq<string>, default: int)
    requires 0 < ArgIndex(args, "COUNT") && ArgIndex(args, "COUNT") + 1 < |args|
    requires EqualsIgnoreCase(args[ArgIndex(args, "COUNT") - 1], "AGGREGATION")
    requires forall j :: ArgIndex(args, "COUNT") < j < |args| ==> !EqualsIgnoreCase(args[j], "COUNT")
    ensures ParseCount(args, default) == Ok(default)
  {
    var offset := ArgIndex(args, "COUNT");
    var rest := args[offset + 1..];
    assert forall j :: 0 <= j < |rest| ==> rest[j] == args[offset + 1 + j];
    assert ArgIndex(rest, "COUNT") == -1;
  }

  /**
   * COUNT right after AGGREGATION names the aggregation type; the limit is
   * then read after the next COUNT, as any other limit is.
   */
  lemma CountAfterAggregationReadsNext(args: seq<string>, default: int, s: nat)
    requires 0 < ArgIndex(args, "COUNT") < s && s + 1 < |args|
    requires EqualsIgnoreCase(args[ArgIndex(args, "COUNT") - 1], "AGGREGATION")
    requires EqualsIgnoreCase(args[s], "COUNT")
    requires forall j :: ArgIndex(args, "COUNT") < j < s ==> !EqualsIgnoreCase(args[j], "COUNT")
    ensures ParseLongLong(args[s + 1]).Some? ==> ParseCount(args, default) == Ok(ParseLongLong(args[s + 1]).value)
    ensures ParseLongLong(args[s + 1]).None? ==> ParseCount(args, default) == Err("TSDB: Couldn't parse COUNT")
  {
    var offset := ArgIndex(args, "COUNT");
    var rest := args[offset + 1..];
    assert forall j :: 0 <= j < |rest| ==> rest[j] == args[offset + 1 + j];
    assert rest[s - offset - 1] == args[s];
    assert ArgIndex(rest, "COUNT") == s - offset - 1;
  }

  /** A limit written after arguments holding no COUNT, and not right after AGGREGATION, reads back as itself. */
  lemma CountRoundTrip(head: seq<string>, n: int, default: int)
    requires |head| >= 1 && !EqualsIgnoreCase(head[|head| - 1], "AGGREGATION")
    requires forall j :: 0 <= j < |head| ==> !EqualsIgnoreCase(head[j], "COUNT")
    requires LLONG_MIN <= n <= LLONG_MAX
    ensures ParseCount(head + ["COUNT", ShowInt(n)], default) == Ok(n)
  {
    var args := head + ["COUNT", ShowInt(n)];
    assert args == head + ["COUNT"] + [ShowInt(n)];
    ArgIndexAfter(head, "COUNT", [ShowInt(n)]);
    assert args[|head| - 1] == head[|head| - 1];
    assert args[|head| + 1] == ShowInt(n);
    ParseShowInt(n);
  }

  // ---------------------------------------------------------------------
  // parseLabelsFromArgs
  // ---------------------------------------------------------------------

  /** A label the module stores: non-empty key, non-empty value free of `(`, `)` and `,`. */
  predicate ValidLabel(l: Label)
  {
    l.key != [] && l.value != [] && forall k :: 0 <= k < |l.value| ==> l.value[k] !in {'(', ')', ','}
  }

  /** The `n` key/value pairs that start at `first`. */
  function PairsFrom(args: seq<string>, first: nat, n: nat): (r: seq<Label>)
    requires first + 2 * n <= |args|
    ensures |r| == n
    ensures forall i :: 0 <= i < n ==> r[i] == Label(args[first + 2 * i], args[first + 2 * i + 1])
  {
    seq(n, i requires 0 <= i < n => Label(args[first + 2 * i], args[first + 2 * i + 1]))
  }

  /**
   * `parseLabelsFromArgs`: everything after the first LABELS is read as
   * key/value pairs (an odd trailing argument is ignored); no LABELS means
   * no labels; one invalid pair refuses the whole list.
   */
  function ParseLabels(args: seq<string>): (r: Result<seq<Label>, ()>)
    ensures ArgIndex(args, "LABELS") < 0 ==> r == Ok([])
    ensures r.Ok? && ArgIndex(args, "LABELS") >= 0 ==> |r.value| == (|args| - ArgIndex(args, "LABELS") - 1) / 2
    ensures r.Ok? ==> forall i :: 0 <= i < |r.value| ==> ValidLabel(r.value[i])
  {
    var pos := ArgIndex(args, "LABELS");
    if pos < 0 then Ok([])
    else
      var pairs := PairsFrom(args, pos + 1, (|args| - pos - 1) / 2);
      if forall i :: 0 <= i < |pairs| ==> ValidLabel(pairs[i]) then Ok(pairs) else Err(())
  }

  /** Labels written out as alternating keys and values. */
  function LabelArgs(labels: seq<Label>): (r: seq<string>)
    ensures |r| == 2 * |labels|
    ensures forall i :: 0 <= i < |labels| ==> r[2 * i] == labels[i].key && r[2 * i + 1] == labels[i].value
  {
    if labels == [] then []
    else
      var rest := LabelArgs(labels[1..]);
      var r := [labels[0].key, labels[0].value] + rest;
      assert forall i :: 1 <= i < |labels| ==> r[2 * i] == rest[2 * (i - 1)] && labels[1..][i - 1] == labels[i];
      r
  }

  /** The pairs read from written-out labels are those labels. */
  lemma PairsOfLabelArgs(args: seq<string>, first: nat, labels: seq<Label>)
    requires first + 2 * |labels| == |args|
    requires args[first..] == LabelArgs(labels)
    ensures PairsFrom(args, first, |labels|) == labels
  {
    var pairs := PairsFrom(args, first, |labels|);
    forall i | 0 <= i < |labels| ensures pairs[i] == labels[i] {
      assert args[first + 2 * i] == args[first..][2 * i];
      assert args[first + 2 * i + 1] == args[first..][2 * i + 1];
    }
  }

  /** Where LABELS is found and valid pairs fill the rest, those pairs are what is read. */
  lemma ReadValidPairs(args: seq<string>, pos: nat, labels: seq<Label>)
    requires ArgIndex(args, "LABELS") == pos
    requires |args| == pos + 1 + 2 * |labels|
    requires PairsFrom(args, pos + 1, |labels|) == labels
    requires forall i :: 0 <= i < |labels| ==> ValidLabel(labels[i])
    ensures ParseLabels(args) == Ok(labels)
  {
    assert (|args| - pos - 1) / 2 == |labels|;
  }

  /** Where LABELS is found and the pairs after it hold an invalid one, the list is refused. */
  lemma ReadInvalidPair(args: seq<string>, pos: nat, labels: seq<Label>, bad: nat)
    requires ArgIndex(args, "LABELS") == pos
    requires |args| == pos + 1 + 2 * |labels|
    requires PairsFrom(args, pos + 1, |labels|) == labels
    requires bad < |labels| && !ValidLabel(labels[bad])
    ensures ParseLabels(args).Err?
  {
    assert (|args| - pos - 1) / 2 == |labels|;
  }

  /** The arguments of a LABELS list written after arguments that are not LABELS. */
  lemma LabelsAfterPrefix(prefix: seq<string>, labels: seq<Label>)
    requires forall j :: 0 <= j < |prefix| ==> !EqualsIgnoreCase(prefix[j], "LABELS")
    ensures var args := prefix + ["LABELS"] + LabelArgs(labels);
      && ArgIndex(args, "LABELS") == |prefix|
      && |args| == |prefix| + 1 + 2 * |labels|
      && PairsFrom(args, |prefix| + 1, |labels|) == labels
  {
    var args := prefix + ["LABELS"] + LabelArgs(labels);
    ArgIndexAfter(prefix, "LABELS", LabelArgs(labels));
    assert args[|prefix| + 1..] == LabelArgs(labels);
    PairsOfLabelArgs(args, |prefix| + 1, labels);
  }

  /** Valid labels written after LABELS are read back exactly. */
  lemma LabelsRoundTrip(prefix: seq<string>, labels: seq<Label>)
    requires forall j :: 0 <= j < |prefix| ==> !EqualsIgnoreCase(prefix[j], "LABELS")
    requires forall i :: 0 <= i < |labels| ==> ValidLabel(labels[i])
    ensures ParseLabels(prefix + ["LABELS"] + LabelArgs(labels)) == Ok(labels)
  {
    LabelsAfterPrefix(prefix, labels);
    ReadValidPairs(prefix + ["LABELS"] + LabelArgs(labels), |prefix|, labels);
  }

  /** A single invalid pair refuses the whole list. */
  lemma InvalidLabelRefused(prefix: seq<string>, labels: seq<Label>, bad: nat)
    requires forall j :: 0 <= j < |prefix| ==> !EqualsIgnoreCase(prefix[j], "LABELS")
    requires bad < |labels| && !ValidLabel(labels[bad])
    ensures ParseLabels(prefix + ["LABELS"] + LabelArgs(labels)).Err?
  {
    LabelsAfterPrefix(prefix, labels);
    ReadInvalidPair(prefix + ["LABELS"] + LabelArgs(labels), |prefix|, labels, bad);
  }

  // ---------------------------------------------------------------------
  // parseCreateArgs
  // ---------------------------------------------------------------------

  /** The configured defaults a new series starts from. */
  datatype CreateDefaults = CreateDefaults(retentionTime: int, chunkSizeBytes: int)

  /** The options of a new series; `P` is the duplicate-policy enumeration. */
  datatype CreateCtx<P> = CreateCtx(
    retentionTime: int,
    chunkSizeBytes: int,
    labels: seq<Label>,
    uncompressed: bool,
    duplicatePolicy: P)

  /**
   * `ParseDuplicatePolicy`: `policyArg` anywhere must be followed by a
   * policy name that `policyOf` knows; without it the policy is `none`.
   */
  function ParseDuplicatePolicy<P>(args: seq<string>, policyArg: string, policyOf: string -> Option<P>, none: P): (r: Result<P, string>)
    ensures ArgIndex(args, policyArg) == -1 ==> r == Ok(none)
    ensures r.Ok? && ArgIndex(args, policyArg) != -1 ==>
      ArgAfter(args, policyArg).Some? && policyOf(ArgAfter(args, policyArg).value) == Some(r.value)
    ensures r.Err? <==>
      (ArgIndex(args, policyArg) != -1 &&
       (ArgAfter(args, policyArg).None? || policyOf(ArgAfter(args, policyArg).value).None?))
  {
    if ArgIndex(args, policyArg) == -1 then Ok(none)
    else
      match ArgAfter(args, policyArg)
      case None => Err("TSDB: Couldn't parse DUPLICATE_POLICY")
      case Some(name) =>
        match policyOf(name)
        case None => Err("TSDB: Unknown DUPLICATE_POLICY")
        case Some(p) => Ok(p)
  }

  /** An optional integer option: `default` unless `name` follows the command name, else the integer after it. */
  function OptionalLong(args: seq<string>, name: string, default: int): Option<int>
  {
    if ArgIndex(args, name) > 0 then LongAfter(args, name) else Some(default)
  }

  /**
   * The validation `parseCreateArgs` performs: labels first, then
   * RETENTION (a non-negative integer), CHUNK_SIZE (a positive integer),
   * UNCOMPRESSED and the duplicate policy. An option word counts only
   * after the command name; a value that is absent keeps its default,
   * which is validated all the same.
   */
  function ParseCreateArgs<P>(args: seq<string>, defaults: CreateDefaults, uncompressed: bool,
                              policyArg: string, policyOf: string -> Option<P>, none: P): (r: Result<CreateCtx<P>, string>)
    ensures r.Ok? ==> r.value.retentionTime >= 0 && r.value.chunkSizeBytes > 0
    ensures r.Ok? ==> ParseLabels(args) == Ok(r.value.labels)
    ensures r.Ok? && ArgIndex(args, "RETENTION") <= 0 ==> r.value.retentionTime == defaults.retentionTime
    ensures r.Ok? && ArgIndex(args, "RETENTION") > 0 ==> LongAfter(args, "RETENTION") == Some(r.value.retentionTime)
    ensures r.Ok? && ArgIndex(args, "CHUNK_SIZE") <= 0 ==> r.value.chunkSizeBytes == defaults.chunkSizeBytes
    ensures r.Ok? && ArgIndex(args, "CHUNK_SIZE") > 0 ==> LongAfter(args, "CHUNK_SIZE") == Some(r.value.chunkSizeBytes)
    ensures r.Ok? ==> (r.value.uncompressed <==> uncompressed || ArgIndex(args, "UNCOMPRESSED") > 0)
    ensures r.Ok? ==> ParseDuplicatePolicy(args, policyArg, policyOf, none) == Ok(r.value.duplicatePolicy)
    ensures ParseLabels(args).Err? ==> r == Err("TSDB: Couldn't parse LABELS")
    ensures r == Err("TSDB: Couldn't parse RETENTION") <==>
      var retention := OptionalLong(args, "RETENTION", defaults.retentionTime);
      ParseLabels(args).Ok? && (retention.None? || retention.value < 0)
    ensures r == Err("TSDB: Couldn't parse CHUNK_SIZE") <==>
      var retention := OptionalLong(args, "RETENTION", defaults.retentionTime);
      var chunk := OptionalLong(args, "CHUNK_SIZE", defaults.chunkSizeBytes);
      && ParseLabels(args).Ok? && retention.Some? && retention.value >= 0
      && (chunk.None? || chunk.value <= 0)
    ensures r.Ok? <==>
      var retention := OptionalLong(args, "RETENTION", defaults.retentionTime);
      var chunk := OptionalLong(args, "CHUNK_SIZE", defaults.chunkSizeBytes);
      && ParseLabels(args).Ok? && retention.Some? && retention.value >= 0
      && chunk.Some? && chunk.value > 0
      && ParseDuplicatePolicy(args, policyArg, policyOf, none).Ok?
    ensures (var retention := OptionalLong(args, "RETENTION", defaults.retentionTime);
             var chunk := OptionalLong(args, "CHUNK_SIZE", defaults.chunkSizeBytes);
             && ParseLabels(args).Ok? && retention.Some? && retention.value >= 0
             && chunk.Some? && chunk.value > 0
             && ParseDuplicatePolicy(args, policyArg, policyOf, none).Err?) ==>
      r == Err(ParseDuplicatePolicy(args, policyArg, policyOf, none).error)
  {
    match ParseLabels(args)
    case Err(_) => Err("TSDB: Couldn't parse LABELS")
    case Ok(labels) =>
      var retention := OptionalLong(args, "RETENTION", defaults.retentionTime);
      if retention.None? || retention.value < 0 then Err("TSDB: Couldn't parse RETENTION")
      else
        var chunk := OptionalLong(args, "CHUNK_SIZE", defaults.chunkSizeBytes);
        if chunk.None? || chunk.value <= 0 then Err("TSDB: Couldn't parse CHUNK_SIZE")
        else
          var compressedOff := uncompressed || ArgIndex(args, "UNCOMPRESSED") > 0;
          match ParseDuplicatePolicy(args, policyArg, policyOf, none)
          case Err(e) => Err(e)
          case Ok(policy) => Ok(CreateCtx(retention.value, chunk.value, labels, compressedOff, policy))
  }

  /**
   * The partner of `ParseCreateArgs`: RETENTION and CHUNK_SIZE written
   * after a head without option words are read back as written, with no
   * labels; the command is then accepted exactly when its duplicate policy
   * is, and always when it names none.
   */
  lemma CreateArgsRoundTrip<P>(head: seq<string>, retention: int, chunkSize: int, defaults: CreateDefaults, uncompressed: bool,
                               policyArg: string, policyOf: string -> Option<P>, none: P)
    requires |head| >= 1
    requires forall j :: 0 <= j < |head| ==>
      !EqualsIgnoreCase(head[j], "RETENTION") && !EqualsIgnoreCase(head[j], "CHUNK_SIZE") && !EqualsIgnoreCase(head[j], "LABELS")
    requires 0 <= retention <= LLONG_MAX && 0 < chunkSize <= LLONG_MAX
    ensures var args := head + ["RETENTION", ShowInt(retention), "CHUNK_SIZE", ShowInt(chunkSize)];
      var r := ParseCreateArgs(args, defaults, uncompressed, policyArg, policyOf, none);
      && (r.Ok? <==> ParseDuplicatePolicy(args, policyArg, policyOf, none).Ok?)
      && (r.Ok? ==> r.value.retentionTime == retention && r.value.chunkSizeBytes == chunkSize && r.value.labels == [])
      && (ArgIndex(args, policyArg) == -1 ==>
            r == Ok(CreateCtx(retention, chunkSize, [], uncompressed || ArgIndex(args, "UNCOMPRESSED") > 0, none)))
  {
    var args := head + ["RETENTION", ShowInt(retention), "CHUNK_SIZE", ShowInt(chunkSize)];
    assert args == head + ["RETENTION"] + [ShowInt(retention), "CHUNK_SIZE", ShowInt(chunkSize)];
    ArgIndexAfter(head, "RETENTION", [ShowInt(retention), "CHUNK_SIZE", ShowInt(chunkSize)]);
    NumberIsNoWord(retention, "CHUNK_SIZE");
    NumberIsNoWord(retention, "LABELS");
    NumberIsNoWord(chunkSize, "LABELS");
    var before := head + ["RETENTION", ShowInt(retention)];
    assert args == before + ["CHUNK_SIZE"] + [ShowInt(chunkSize)];
    ArgIndexAfter(before, "CHUNK_SIZE", [ShowInt(chunkSize)]);
    assert forall j :: 0 <= j < |args| ==> !EqualsIgnoreCase(args[j], "LABELS");
    assert ArgIndex(args, "LABELS") == -1;
    ParseShowInt(retention);
    ParseShowInt(chunkSize);
    assert args[|head| + 1] == ShowInt(retention) && args[|head| + 3] == ShowInt(chunkSize);
  }

  // ---------------------------------------------------------------------
  // parseMRangeCommand
  // ---------------------------------------------------------------------

  /** An AGGREGATION clause: the aggregation type and the bucket width. */
  datatype Aggregation = Aggregation(aggType: int, timeDelta: nat)

  /** A GROUPBY clause: the label to group on and the reducer. */
  datatype GroupBy = GroupBy(labelName: string, reducer: ReduceOp)

  /** The parsed arguments of TS.MRANGE / TS.MREVRANGE (`MRangeArgs`). */
  datatype MRangeArgs = MRangeArgs(
    startTimestamp: nat,
    endTimestamp: nat,
    aggregation: Option<Aggregation>,
    withLabels: bool,
    count: int,
    queryPredicates: PredicateList,
    groupBy: Option<GroupBy>)

  /** How a refused command is answered: the arity error, or an error message. */
  datatype MRangeError = WrongArity | Message(text: string)

  /**
   * The outcome of `parseMRangeCommand`. A refusal records whether a
   * predicate list had been allocated by then and whether it was freed.
   */
  datatype MRangeParse =
    | MRangeOk(args: MRangeArgs)
    | MRangeErr(error: MRangeError, listAllocated: bool, listFreed: bool)

  /** The last filter token: the argument before GROUPBY when GROUPBY follows the command name, else the last one. */
  function LastFilterPos(args: seq<string>, groupby: int): int
  {
    if groupby > 0 then groupby - 1 else |args| - 1
  }

  /**
   * The arguments `parsePredicate` copies into its 255-byte buffer: the
   * filter tokens after FILTER, up to GROUPBY or the end. No other argument
   * of the command is bounded.
   */
  predicate FilterTokensFit(args: seq<string>, filter: int)
  {
    forall i :: 0 <= filter < i < |args| && i <= LastFilterPos(args, ArgIndex(args, "GROUPBY")) ==> |args[i]| < 255
  }

  /**
   * The number of filter tokens as the module computes it: both positions
   * are converted to `size_t` and subtracted there, so a last position
   * before FILTER wraps around instead of going negative.
   */
  function FilterTokenCountAsWritten(lastFilterPos: int, filter: int): (n: nat)
    requires LLONG_MIN <= lastFilterPos <= LLONG_MAX && LLONG_MIN <= filter <= LLONG_MAX
    ensures n < U64_MODULUS
    ensures n == 0 <==> lastFilterPos == filter
  {
    if filter <= lastFilterPos then lastFilterPos - filter else U64_MODULUS + lastFilterPos - filter
  }

  /** The count is the difference of the two positions reinterpreted as `size_t`, taken modulo 2^64. */
  lemma FilterTokenCountWraps(lastFilterPos: int, filter: int)
    requires 0 <= lastFilterPos <= LLONG_MAX && 0 <= filter <= LLONG_MAX
    ensures FilterTokenCountAsWritten(lastFilterPos, filter) == (ToU64(lastFilterPos) - ToU64(filter)) % U64_MODULUS
  {
  }

  /** The number of filter tokens between FILTER and `lastFilterPos`, or none when that range is empty. */
  function FilterTokenCount(lastFilterPos: int, filter: int): (r: Option<nat>)
    ensures r.Some? <==> filter < lastFilterPos
    ensures r.Some? ==> r.value > 0 && filter + r.value == lastFilterPos
  {
    if lastFilterPos <= filter then None else Some(lastFilterPos - filter)
  }

  /** Where the filter range is not empty, the wrapped count is the real one. */
  lemma FilterTokenCountAgrees(lastFilterPos: int, filter: int)
    requires 0 <= filter < lastFilterPos <= LLONG_MAX
    ensures FilterTokenCount(lastFilterPos, filter) == Some(FilterTokenCountAsWritten(lastFilterPos, filter))
  {
  }

  /**
   * The filter count as `parseLabelListFromArgs` receives it: the `size_t`
   * difference narrowed to its `int` parameter. For positions within an
   * argument vector the wrap-around and the narrowing cancel out, so the
   * count is the plain difference, negative when the last filter position
   * comes before FILTER.
   */
  lemma {:induction false} NarrowedFilterCount(last: int, filter: int)
    requires 0 <= filter <= INT_MAX && -1 <= last <= INT_MAX
    ensures ToI32(FilterTokenCountAsWritten(last, filter)) == last - filter
  {
    var d := last - filter;
    if d < 0 {
      assert FilterTokenCountAsWritten(last, filter) == U64_MODULUS + d;
      assert U64_MODULUS + d == I32_MODULUS * (I32_MODULUS - 1) + (I32_MODULUS + d);
      ModOfSplit(U64_MODULUS + d, I32_MODULUS - 1, I32_MODULUS + d);
    }
  }

  /** The count `parseLabelListFromArgs` receives: the narrowed wrapped difference, which is the plain one. */
  function FilterCountArgAsWritten(last: int, filter: int): (n: int)
    requires 0 <= filter <= INT_MAX && -1 <= last <= INT_MAX
    ensures n == last - filter
  {
    NarrowedFilterCount(last, filter);
    ToI32(FilterTokenCountAsWritten(last, filter))
  }

  /** A value written as a multiple of 2^32 plus a remainder has that remainder. */
  lemma ModOfSplit(a: int, k: int, r: int)
    requires 0 <= r < I32_MODULUS && a == I32_MODULUS * k + r
    ensures a % I32_MODULUS == r
  {
  }

  /**
   * GROUPBY right before FILTER puts the last filter position two places
   * before FILTER. The wrapped `size_t` count is then 2^64 - 2, not zero, so
   * the zero test lets it through; narrowed to the `int` parameter of
   * `parseLabelListFromArgs` it is -2, and the list allocation for that
   * many predicates fails, after which the list is cleared through a null
   * pointer. The corrected count refuses the command for missing labels.
   */
  lemma GroupByBeforeFilterAsWritten(o: MRangeOptions)
    requires o.filter == 4
    ensures var args := ["TS.MRANGE", "-", "+", "GROUPBY", "FILTER", "REDUCE", "sum"];
      && ArgIndex(args, "FILTER") == 4
      && ArgIndex(args, "GROUPBY") == 3
      && FilterTokenCountAsWritten(LastFilterPos(args, 3), 4) == U64_MODULUS - 2
      && ToI32(FilterTokenCountAsWritten(LastFilterPos(args, 3), 4)) == -2
      && ParseMRangeFiltersAsWritten(args, o) == None
      && ParseMRangeFilters(args, o) == MRangeErr(Message("TSDB: missing labels for filter argument"), false, false)
  {
    var args := ["TS.MRANGE", "-", "+", "GROUPBY", "FILTER", "REDUCE", "sum"];
    assert !EqualsIgnoreCase(args[0], "FILTER") && !EqualsIgnoreCase(args[0], "GROUPBY");
    assert !EqualsIgnoreCase(args[1], "FILTER") && !EqualsIgnoreCase(args[1], "GROUPBY");
    assert !EqualsIgnoreCase(args[2], "FILTER") && !EqualsIgnoreCase(args[2], "GROUPBY");
    assert !EqualsIgnoreCase(args[3], "FILTER");
    assert EqualsIgnoreCase(args[3], "GROUPBY");
    assert EqualsIgnoreCase(args[4], "FILTER");
    NarrowedFilterCount(2, 4);
  }

  /**
   * The argument the module reads as the reducer name: the one after the
   * first REDUCE, with no check that there is one.
   */
  function ReducerPosAsWritten(args: seq<string>): int
  {
    ArgIndex(args, "REDUCE") + 1
  }

  /**
   * REDUCE as the last argument passes the GROUPBY arity test (four
   * arguments from GROUPBY to the end) and the reducer is then read one
   * past the end of the argument vector; the corrected parse refuses the
   * command for its arity.
   */
  lemma ReduceLastAsWritten()
    ensures var args := ["TS.MRANGE", "-", "+", "FILTER", "a=b", "GROUPBY", "x", "y", "REDUCE"];
      && ArgIndex(args, "GROUPBY") == 5
      && |args| - ArgIndex(args, "GROUPBY") == 4
      && ReducerPosAsWritten(args) == |args|
      && ParseGroupByAsWritten(args) == None
      && ParseGroupBy(args) == Err(WrongArity)
  {
    var args := ["TS.MRANGE", "-", "+", "FILTER", "a=b", "GROUPBY", "x", "y", "REDUCE"];
    ReduceLastArgs();
    ReducerPastEnd(args);
  }

  /** Where GROUPBY and REDUCE sit in the REDUCE-last command above. */
  lemma ReduceLastArgs()
    ensures var args := ["TS.MRANGE", "-", "+", "FILTER", "a=b", "GROUPBY", "x", "y", "REDUCE"];
      && ArgIndex(args, "GROUPBY") == 5
      && ArgIndex(args, "REDUCE") == 8
  {
    var args := ["TS.MRANGE", "-", "+", "FILTER", "a=b", "GROUPBY", "x", "y", "REDUCE"];
    assert !EqualsIgnoreCase(args[0], "GROUPBY") && !EqualsIgnoreCase(args[0], "REDUCE");
    assert ToLower(args[3][0]) != ToLower("REDUCE"[0]);
    assert forall j :: 0 <= j < 5 ==> !EqualsIgnoreCase(args[j], "GROUPBY") && !EqualsIgnoreCase(args[j], "REDUCE");
    assert EqualsIgnoreCase(args[5], "GROUPBY");
    assert !EqualsIgnoreCase(args[5], "REDUCE") && !EqualsIgnoreCase(args[6], "REDUCE") && !EqualsIgnoreCase(args[7], "REDUCE");
    assert EqualsIgnoreCase(args[8], "REDUCE");
  }

  /** With REDUCE last and four arguments from GROUPBY on, the reducer lies past the end; the corrected parse refuses for arity. */
  lemma ReducerPastEnd(args: seq<string>)
    requires 0 < ArgIndex(args, "GROUPBY") && |args| == ArgIndex(args, "GROUPBY") + 4
    requires ArgIndex(args, "REDUCE") == |args| - 1
    ensures ParseGroupByAsWritten(args) == None
    ensures ParseGroupBy(args) == Err(WrongArity)
  {
    ParseGroupByAgrees(args);
  }

  /** A predicate that selects series by value: an equality or a list match. */
  predicate IsMatcher(p: Predicate)
  {
    p.ptype == Eq || p.ptype == ListMatch
  }

  /** The matcher test of `parseMRangeCommand`: equalities plus list matches are not zero. */
  function HasMatcher(list: seq<Predicate>): (b: bool)
    ensures b <==> exists i :: 0 <= i < |list| && IsMatcher(list[i])
  {
    CountPredicateType(list, Eq) + CountPredicateType(list, ListMatch) != 0
  }

  /** The filter tokens: those after FILTER up to the last filter position, when there are any. */
  function FilterTokens(args: seq<string>, filter: nat, groupby: int): (r: Option<seq<string>>)
    requires filter < |args| && groupby < |args|
    ensures r.Some? <==> filter < LastFilterPos(args, groupby)
    ensures r.Some? ==> 0 < |r.value| && filter + |r.value| == LastFilterPos(args, groupby)
    ensures r.Some? ==> forall i :: 0 <= i < |r.value| ==> r.value[i] == args[filter + 1 + i]
  {
    match FilterTokenCount(LastFilterPos(args, groupby), filter)
    case None => None
    case Some(n) => Some(args[filter + 1..filter + 1 + n])
  }

  /**
   * The GROUPBY clause: absent unless GROUPBY follows the command name;
   * otherwise it must end the command as `GROUPBY label REDUCE reducer`,
   * with a reducer name that `parseMultiSeriesReduceOp` accepts.
   */
  function ParseGroupBy(args: seq<string>): (r: Result<Option<GroupBy>, MRangeError>)
    ensures r.Ok? ==> (r.value.Some? <==> ArgIndex(args, "GROUPBY") > 0)
    ensures r.Ok? && r.value.Some? ==>
      var g := ArgIndex(args, "GROUPBY");
      var reduce := ArgIndex(args, "REDUCE");
      && |args| == g + 4 && 0 <= reduce && reduce + 1 < |args|
      && r.value.value.labelName == args[g + 1]
      && ParseReduceOp(args[reduce + 1]) == Some(r.value.value.reducer)
    ensures r == Err(Message("TSDB: failed parsing reducer")) <==>
      var g := ArgIndex(args, "GROUPBY");
      var reduce := ArgIndex(args, "REDUCE");
      && g > 0 && |args| == g + 4 && 0 <= reduce && reduce + 1 < |args|
      && ParseReduceOp(args[reduce + 1]).None?
    ensures r.Err? && r.error != Message("TSDB: failed parsing reducer") ==> r.error == WrongArity
  {
    var groupby := ArgIndex(args, "GROUPBY");
    if groupby <= 0 then Ok(None)
    else if groupby + 1 >= |args| then Err(WrongArity)
    else
      var reduce := ArgIndex(args, "REDUCE");
      if reduce < 0 || |args| - groupby != 4 || reduce + 1 >= |args| then Err(WrongArity)
      else
        match ParseReduceOp(args[reduce + 1])
        case None => Err(Message("TSDB: failed parsing reducer"))
        case Some(op) => Ok(Some(GroupBy(args[groupby + 1], op)))
  }

  /**
   * The GROUPBY clause as written: the reducer is read after REDUCE with no
   * check that an argument follows it. None stands for that read past the
   * end of the argument vector, whose outcome C leaves undefined.
   */
  function ParseGroupByAsWritten(args: seq<string>): (r: Option<Result<Option<GroupBy>, MRangeError>>)
  {
    var groupby := ArgIndex(args, "GROUPBY");
    if groupby <= 0 then Some(Ok(None))
    else if groupby + 1 >= |args| then Some(Err(WrongArity))
    else
      var reduce := ArgIndex(args, "REDUCE");
      if reduce < 0 || |args| - groupby != 4 then Some(Err(WrongArity))
      else if reduce + 1 >= |args| then None
      else
        match ParseReduceOp(args[reduce + 1])
        case None => Some(Err(Message("TSDB: failed parsing reducer")))
        case Some(op) => Some(Ok(Some(GroupBy(args[groupby + 1], op))))
  }

  /**
   * The clause as written agrees with the corrected one wherever it is
   * defined; it is undefined exactly when the command ends in
   * `GROUPBY label x REDUCE`, which the corrected clause refuses for its
   * arity.
   */
  lemma ParseGroupByAgrees(args: seq<string>)
    ensures ParseGroupByAsWritten(args).Some? ==> ParseGroupByAsWritten(args).value == ParseGroupBy(args)
    ensures ParseGroupByAsWritten(args).None? <==>
      && ArgIndex(args, "GROUPBY") > 0
      && |args| == ArgIndex(args, "GROUPBY") + 4
      && ArgIndex(args, "REDUCE") == |args| - 1
    ensures ParseGroupByAsWritten(args).None? ==> ParseGroupBy(args) == Err(WrongArity)
  {
  }

  /** What `parseMRangeCommand` reads before the filter: range, aggregation, FILTER position and COUNT. */
  datatype MRangeOptions = MRangeOptions(
    startTimestamp: nat,
    endTimestamp: nat,
    aggregation: Option<Aggregation>,
    filter: nat,
    count: int)

  /**
   * The first half of `parseMRangeCommand`: at least four arguments, the
   * range from position 1 (`+` is the largest signed timestamp), an
   * optional AGGREGATION, a FILTER somewhere, and an optional COUNT whose
   * default is -1 (no limit).
   */
  function ParseMRangeOptions(args: seq<string>, aggTypeOf: string -> int, typesMax: int): (r: Result<MRangeOptions, MRangeError>)
    ensures |args| < 4 ==> r == Err(WrongArity)
    ensures r.Err? && |args| >= 4 ==> r.error.Message?
    ensures r == Err(Message("TSDB: missing FILTER argument")) ==> ArgIndex(args, "FILTER") == -1
    ensures r.Ok? ==> OptionsRead(args, aggTypeOf, typesMax, r.value)
    ensures |args| >= 4 ==>
      (r.Ok? <==>
        && ParseRangeArguments(args, 1, LLONG_MAX).Ok?
        && !ParseAggregationArgs(args, aggTypeOf, typesMax).AggregationError?
        && ArgIndex(args, "FILTER") != -1
        && ParseCount(args, -1).Ok?)
    ensures |args| >= 4 && ParseRangeArguments(args, 1, LLONG_MAX).Err? ==>
      r == Err(Message(ParseRangeArguments(args, 1, LLONG_MAX).error))
    ensures (|args| >= 4 && ParseRangeArguments(args, 1, LLONG_MAX).Ok?
             && ParseAggregationArgs(args, aggTypeOf, typesMax).AggregationError?) ==>
      r == Err(Message(ParseAggregationArgs(args, aggTypeOf, typesMax).message))
    ensures (|args| >= 4 && ParseRangeArguments(args, 1, LLONG_MAX).Ok?
             && !ParseAggregationArgs(args, aggTypeOf, typesMax).AggregationError?
             && ArgIndex(args, "FILTER") == -1) ==>
      r == Err(Message("TSDB: missing FILTER argument"))
    ensures (|args| >= 4 && ParseRangeArguments(args, 1, LLONG_MAX).Ok?
             && !ParseAggregationArgs(args, aggTypeOf, typesMax).AggregationError?
             && ArgIndex(args, "FILTER") != -1 && ParseCount(args, -1).Err?) ==>
      r == Err(Message(ParseCount(args, -1).error))
  {
    if |args| < 4 then Err(WrongArity)
    else
      var range := ParseRangeArguments(args, 1, LLONG_MAX);
      if range.Err? then Err(Message(range.error))
      else
        var agg := ParseAggregationArgs(args, aggTypeOf, typesMax);
        if agg.AggregationError? then Err(Message(agg.message))
        else
          var filter := ArgIndex(args, "FILTER");
          if filter == -1 then Err(Message("TSDB: missing FILTER argument"))
          else
            var count := ParseCount(args, -1);
            if count.Err? then Err(Message(count.error))
            else
              OptionsReadOf(args, aggTypeOf, typesMax, range.value, filter, count.value);
              Ok(MRangeOptions(range.value.0, range.value.1, AggregationOf(agg), filter, count.value))
  }

  /** The aggregation an AGGREGATION clause's outcome gives the command: none unless it was read. */
  function AggregationOf(p: AggregationParse): (a: Option<Aggregation>)
    ensures a.Some? <==> p.AggregationOk?
    ensures a.Some? ==> a.value.aggType == p.aggType && a.value.timeDelta == p.timeDelta
  {
    if p.AggregationOk? then Some(Aggregation(p.aggType, p.timeDelta)) else None
  }

  /**
   * What an accepted first half has read: FILTER's position, the range
   * `parseRangeArguments` reads from position 1 (`-` and `+` being the
   * widest bounds), the aggregation `_parseAggregationArgs` reads (present
   * exactly when AGGREGATION is given, with a positive bucket and a known
   * type), and the COUNT.
   */
  predicate OptionsRead(args: seq<string>, aggTypeOf: string -> int, typesMax: int, o: MRangeOptions)
  {
    && |args| >= 4 && o.filter == ArgIndex(args, "FILTER") && o.filter < |args|
    && ParseRangeArguments(args, 1, LLONG_MAX) == Ok((o.startTimestamp, o.endTimestamp))
    && o.aggregation == AggregationOf(ParseAggregationArgs(args, aggTypeOf, typesMax))
    && (o.aggregation.Some? <==> ArgIndex(args, "AGGREGATION") > 0)
    && (o.aggregation.Some? ==> o.aggregation.value.timeDelta > 0 && 0 <= o.aggregation.value.aggType < typesMax)
    && (args[2] == "+" ==> o.endTimestamp == LLONG_MAX)
    && (args[1] == "-" ==> o.startTimestamp == 0)
    && ParseCount(args, -1) == Ok(o.count)
  }

  lemma OptionsReadOf(args: seq<string>, aggTypeOf: string -> int, typesMax: int, range: (nat, nat), filter: int, count: int)
    requires |args| >= 4 && ParseRangeArguments(args, 1, LLONG_MAX) == Ok(range)
    requires !ParseAggregationArgs(args, aggTypeOf, typesMax).AggregationError?
    requires filter == ArgIndex(args, "FILTER") && filter != -1
    requires ParseCount(args, -1) == Ok(count)
    ensures OptionsRead(args, aggTypeOf, typesMax,
      MRangeOptions(range.0, range.1, AggregationOf(ParseAggregationArgs(args, aggTypeOf, typesMax)), filter, count))
  {
  }

  /**
   * The second half of `parseMRangeCommand`, given what the first half
   * read: at least one filter token before GROUPBY, every filter token
   * parsed, at least one equality or list match, and the GROUPBY clause.
   * Every refusal here happens after the predicate list exists and frees it.
   */
  function ParseMRangeFilters(args: seq<string>, o: MRangeOptions): (r: MRangeParse)
    requires o.filter < |args|
    requires FilterTokensFit(args, o.filter)
    ensures r.MRangeErr? ==> r.listAllocated == r.listFreed
    ensures r.MRangeOk? ==> r.args.queryPredicates.ref == 1 && HasMatcher(r.args.queryPredicates.list)
    ensures r.MRangeOk? ==>
      var tokens := FilterTokens(args, o.filter, ArgIndex(args, "GROUPBY"));
      tokens.Some? && ParseLabelList(tokens.value) == LabelListParse(r.args.queryPredicates, true)
    ensures r.MRangeOk? ==>
      && r.args.startTimestamp == o.startTimestamp && r.args.endTimestamp == o.endTimestamp
      && r.args.aggregation == o.aggregation && r.args.count == o.count
    ensures r.MRangeOk? ==> ParseGroupBy(args) == Ok(r.args.groupBy)
  {
    match FilterTokens(args, o.filter, ArgIndex(args, "GROUPBY"))
    case None => MRangeErr(Message("TSDB: missing labels for filter argument"), false, false)
    case Some(tokens) => LabelsThenGroupBy(args, o, tokens, Some(ParseGroupBy(args))).value
  }

  /**
   * What follows the filter count in `parseMRangeCommand`: the filter
   * tokens parsed into a list, at least one equality or list match, then
   * the GROUPBY clause's outcome. A refusal frees the list. When the clause's
   * outcome is undefined (None), so is the command's.
   */
  function LabelsThenGroupBy(args: seq<string>, o: MRangeOptions, tokens: seq<string>, groupBy: Option<Result<Option<GroupBy>, MRangeError>>): (r: Option<MRangeParse>)
    requires forall i :: 0 <= i < |tokens| ==> |tokens[i]| < 255
    ensures r.None? <==> ParseLabelList(tokens).ok && HasMatcher(ParseLabelList(tokens).queries.list) && groupBy.None?
    ensures r.Some? && r.value.MRangeErr? ==> r.value.listAllocated && r.value.listFreed
    ensures r.Some? && r.value.MRangeErr? && ParseLabelList(tokens).ok && HasMatcher(ParseLabelList(tokens).queries.list) ==>
      groupBy == Some(Err(r.value.error))
    ensures r.Some? && r.value.MRangeOk? ==>
      && ParseLabelList(tokens) == LabelListParse(r.value.args.queryPredicates, true)
      && HasMatcher(r.value.args.queryPredicates.list)
      && groupBy == Some(Ok(r.value.args.groupBy))
      && r.value.args.startTimestamp == o.startTimestamp && r.value.args.endTimestamp == o.endTimestamp
      && r.value.args.aggregation == o.aggregation && r.value.args.count == o.count
      && r.value.args.withLabels == (ArgIndex(args, "WITHLABELS") > 0)
  {
    var parsed := ParseLabelList(tokens);
    var freed := ReleasePredicates(parsed.queries).1;
    if !parsed.ok then Some(MRangeErr(Message("TSDB: failed parsing labels"), true, freed))
    else if !HasMatcher(parsed.queries.list) then
      Some(MRangeErr(Message("TSDB: please provide at least one matcher"), true, freed))
    else
      match groupBy
      case None => None
      case Some(Err(e)) => Some(MRangeErr(e, true, freed))
      case Some(Ok(g)) =>
        Some(MRangeOk(MRangeArgs(o.startTimestamp, o.endTimestamp, o.aggregation,
                                 ArgIndex(args, "WITHLABELS") > 0, o.count, parsed.queries, g)))
  }

  /**
   * The filter tokens as written: the count is the `size_t` difference,
   * tested against zero (`Some(None)`, no tokens) and then narrowed to the
   * `int` parameter of `parseLabelListFromArgs`, which reads that many
   * arguments after FILTER. None stands for undefined behaviour: a negative
   * count makes the list allocation fail, and the list is then cleared
   * through a null pointer. Otherwise the tokens are those the corrected
   * count finds.
   */
  function FilterTokensAsWritten(args: seq<string>, filter: nat, groupby: int): (r: Option<Option<seq<string>>>)
    requires filter < |args| <= INT_MAX && groupby < |args|
    ensures r.None? <==> LastFilterPos(args, groupby) < filter
    ensures r.Some? ==> r.value == FilterTokens(args, filter, groupby)
  {
    var last := LastFilterPos(args, groupby);
    var count := FilterTokenCountAsWritten(last, filter);
    if count == 0 then Some(None)
    else
      var n := FilterCountArgAsWritten(last, filter);
      if n < 0 then None
      else Some(Some(args[filter + 1..filter + 1 + n]))
  }

  /**
   * The filter half of `parseMRangeCommand` as written: the filter tokens
   * and the GROUPBY clause as written. None stands for undefined behaviour.
   */
  function ParseMRangeFiltersAsWritten(args: seq<string>, o: MRangeOptions): (r: Option<MRangeParse>)
    requires o.filter < |args| <= INT_MAX
    requires FilterTokensFit(args, o.filter)
  {
    match FilterTokensAsWritten(args, o.filter, ArgIndex(args, "GROUPBY"))
    case None => None
    case Some(None) => Some(MRangeErr(Message("TSDB: missing labels for filter argument"), false, false))
    case Some(Some(tokens)) => LabelsThenGroupBy(args, o, tokens, ParseGroupByAsWritten(args))
  }

  /** The filter tokens exist and parse into a list with a matcher. */
  predicate FiltersAccepted(args: seq<string>, filter: nat)
    requires filter < |args|
    requires FilterTokensFit(args, filter)
  {
    var tokens := FilterTokens(args, filter, ArgIndex(args, "GROUPBY"));
    tokens.Some? && ParseLabelList(tokens.value).ok && HasMatcher(ParseLabelList(tokens.value).queries.list)
  }

  /**
   * The filter half as written agrees with the corrected one wherever it is
   * defined. It is undefined exactly when GROUPBY comes before FILTER, or
   * when the filters are accepted and the command ends in
   * `GROUPBY label x REDUCE`; the corrected half then refuses the command,
   * for missing labels or for its arity, with nothing left allocated.
   */
  lemma ParseMRangeFiltersAgrees(args: seq<string>, o: MRangeOptions)
    requires o.filter < |args| <= INT_MAX
    requires FilterTokensFit(args, o.filter)
    ensures ParseMRangeFiltersAsWritten(args, o).Some? ==> ParseMRangeFiltersAsWritten(args, o).value == ParseMRangeFilters(args, o)
    ensures ParseMRangeFiltersAsWritten(args, o).None? <==>
      || 0 < ArgIndex(args, "GROUPBY") <= o.filter
      || (FiltersAccepted(args, o.filter) && ParseGroupByAsWritten(args).None?)
    ensures ParseMRangeFiltersAsWritten(args, o).None? ==>
      || ParseMRangeFilters(args, o) == MRangeErr(Message("TSDB: missing labels for filter argument"), false, false)
      || ParseMRangeFilters(args, o) == MRangeErr(WrongArity, true, true)
  {
    ParseGroupByAgrees(args);
  }

  /**
   * `parseMRangeCommand` as written: the first half, then the filter half as
   * written. None stands for undefined behaviour.
   */
  function ParseMRangeAsWritten(args: seq<string>, aggTypeOf: string -> int, typesMax: int): (r: Option<MRangeParse>)
    requires |args| <= INT_MAX
    requires FilterTokensFit(args, ArgIndex(args, "FILTER"))
  {
    match ParseMRangeOptions(args, aggTypeOf, typesMax)
    case Err(e) => Some(MRangeErr(e, false, false))
    case Ok(o) => ParseMRangeFiltersAsWritten(args, o)
  }

  /**
   * `parseMRangeCommand` as written agrees with the corrected parse wherever
   * it is defined; where it is not, the corrected parse refuses the command
   * with every allocated list freed. Past the first half, GROUPBY before
   * FILTER is always undefined.
   */
  lemma ParseMRangeAgrees(args: seq<string>, aggTypeOf: string -> int, typesMax: int)
    requires |args| <= INT_MAX
    requires FilterTokensFit(args, ArgIndex(args, "FILTER"))
    ensures ParseMRangeAsWritten(args, aggTypeOf, typesMax).Some? ==>
      ParseMRangeAsWritten(args, aggTypeOf, typesMax).value == ParseMRange(args, aggTypeOf, typesMax)
    ensures ParseMRangeAsWritten(args, aggTypeOf, typesMax).None? ==>
      ParseMRange(args, aggTypeOf, typesMax).MRangeErr? && ParseMRange(args, aggTypeOf, typesMax).listAllocated == ParseMRange(args, aggTypeOf, typesMax).listFreed
    ensures ParseMRangeOptions(args, aggTypeOf, typesMax).Ok? && 0 < ArgIndex(args, "GROUPBY") < ArgIndex(args, "FILTER") ==>
      ParseMRangeAsWritten(args, aggTypeOf, typesMax).None?
  {
    match ParseMRangeOptions(args, aggTypeOf, typesMax)
    case Err(_) =>
    case Ok(o) => ParseMRangeFiltersAgrees(args, o);
  }

  /**
   * `parseMRangeCommand` corrected: the filter count is computed without
   * wrapping, and REDUCE must have an argument after it.
   */
  function ParseMRange(args: seq<string>, aggTypeOf: string -> int, typesMax: int): (r: MRangeParse)
    requires FilterTokensFit(args, ArgIndex(args, "FILTER"))
    ensures ParseMRangeOptions(args, aggTypeOf, typesMax).Err? ==>
      r == MRangeErr(ParseMRangeOptions(args, aggTypeOf, typesMax).error, false, false)
    ensures ParseMRangeOptions(args, aggTypeOf, typesMax).Ok? ==>
      r == ParseMRangeFilters(args, ParseMRangeOptions(args, aggTypeOf, typesMax).value)
    ensures r.MRangeErr? ==> r.listAllocated == r.listFreed
  {
    match ParseMRangeOptions(args, aggTypeOf, typesMax)
    case Err(e) => MRangeErr(e, false, false)
    case Ok(o) => ParseMRangeFilters(args, o)
  }

  /** The filter tokens a user writes for `filters`, in order. */
  function FilterArgs(filters: seq<Predicate>): (r: seq<string>)
    requires forall i :: 0 <= i < |filters| ==> WritablePredicate(filters[i])
    ensures |r| == |filters|
    ensures forall i :: 0 <= i < |filters| ==> r[i] == Render(filters[i])
  {
    seq(|filters|, i requires 0 <= i < |filters| => Render(filters[i]))
  }

  /** Written filters short enough for the filter parser's buffer give tokens that fit it. */
  lemma FilterArgsFit(filters: seq<Predicate>)
    requires forall i :: 0 <= i < |filters| ==> WritablePredicate(filters[i]) && |Render(filters[i])| < 255
    ensures forall i :: 0 <= i < |filters| ==> |FilterArgs(filters)[i]| < 255
  {
    var tokens := FilterArgs(filters);
    forall i | 0 <= i < |filters| ensures |tokens[i]| < 255 {
      assert tokens[i] == Render(filters[i]);
    }
  }

  /** An argument holding `=` is never an option word, whose letters hold none. */
  lemma WithEqualsIsNoKeyword(tok: string, kw: string, i: nat)
    requires i < |tok| && tok[i] == '='
    requires forall k :: 0 <= k < |kw| ==> kw[k] != '='
    ensures !EqualsIgnoreCase(tok, kw)
  {
    if i < |kw| {
      assert ToLower(tok[i]) != ToLower(kw[i]);
    }
  }

  /** A written filter token is never an option word. */
  lemma FilterTokenIsNoKeyword(p: Predicate, kw: string)
    requires WritablePredicate(p)
    requires forall k :: 0 <= k < |kw| ==> kw[k] != '='
    ensures !EqualsIgnoreCase(Render(p), kw)
  {
    var t := Render(p);
    if p.ptype == Neq || p.ptype == Contains || p.ptype == ListNotMatch {
      assert t[|p.key| + 1] == '=';
      WithEqualsIsNoKeyword(t, kw, |p.key| + 1);
    } else {
      assert t[|p.key|] == '=';
      WithEqualsIsNoKeyword(t, kw, |p.key|);
    }
  }

  /** Results that all succeed are all taken. */
  lemma TakeParsedAllOk(results: seq<Result<Predicate, ()>>, ps: seq<Predicate>)
    requires |results| == |ps|
    requires forall i :: 0 <= i < |ps| ==> results[i] == Ok(ps[i])
    ensures TakeParsed(results) == (ps, true)
  {
    var r := TakeParsed(results);
    assert r.1;
    assert forall i :: 0 <= i < |ps| ==> r.0[i] == ps[i];
  }

  /** Written filter tokens parse back, all of them, into the predicates they were written from. */
  lemma LabelListOfFilters(filters: seq<Predicate>)
    requires forall i :: 0 <= i < |filters| ==> WritablePredicate(filters[i]) && |Render(filters[i])| < 255
    ensures ParseLabelList(FilterArgs(filters)) == LabelListParse(PredicateList(filters, |filters|, 1), true)
  {
    var tokens := FilterArgs(filters);
    forall i | 0 <= i < |filters| ensures ParseEach(tokens)[i] == Ok(filters[i]) {
      RenderRoundTrip(filters[i]);
    }
    TakeParsedAllOk(ParseEach(tokens), filters);
  }

  /** The command head of the filter-only MRANGE below. */
  const MRANGE_HEAD: seq<string> := ["TS.MRANGE", "-", "+", "FILTER"]

  /** An option word other than FILTER, without `=`, is absent from a filter-only MRANGE. */
  lemma KeywordAbsent(filters: seq<Predicate>, kw: string)
    requires forall i :: 0 <= i < |filters| ==> WritablePredicate(filters[i])
    requires forall k :: 0 <= k < |kw| ==> kw[k] != '='
    requires |kw| != 9 && |kw| != 1 && |kw| != 6
    ensures ArgIndex(MRANGE_HEAD + FilterArgs(filters), kw) == -1
  {
    var args := MRANGE_HEAD + FilterArgs(filters);
    forall j | 0 <= j < |args| ensures !EqualsIgnoreCase(args[j], kw) {
      if j >= 4 {
        assert args[j] == Render(filters[j - 4]);
        FilterTokenIsNoKeyword(filters[j - 4], kw);
      }
    }
  }

  /** In a filter-only MRANGE, FILTER stands at 3 and no other option word appears. */
  lemma FilterOnlyKeywords(filters: seq<Predicate>)
    requires forall i :: 0 <= i < |filters| ==> WritablePredicate(filters[i])
    ensures var args := MRANGE_HEAD + FilterArgs(filters);
      && ArgIndex(args, "FILTER") == 3
      && ArgIndex(args, "AGGREGATION") == -1
      && ArgIndex(args, "COUNT") == -1
      && ArgIndex(args, "GROUPBY") == -1
      && ArgIndex(args, "WITHLABELS") == -1
  {
    assert MRANGE_HEAD + FilterArgs(filters) == ["TS.MRANGE", "-", "+"] + ["FILTER"] + FilterArgs(filters);
    ArgIndexAfter(["TS.MRANGE", "-", "+"], "FILTER", FilterArgs(filters));
    KeywordAbsent(filters, "AGGREGATION");
    KeywordAbsent(filters, "COUNT");
    KeywordAbsent(filters, "GROUPBY");
    KeywordAbsent(filters, "WITHLABELS");
  }

  /** A filter-only MRANGE over the whole range reads no option. */
  lemma FilterOnlyOptions(filters: seq<Predicate>, aggTypeOf: string -> int, typesMax: int)
    requires forall i :: 0 <= i < |filters| ==> WritablePredicate(filters[i])
    ensures ParseMRangeOptions(MRANGE_HEAD + FilterArgs(filters), aggTypeOf, typesMax)
      == Ok(MRangeOptions(0, LLONG_MAX, None, 3, -1))
  {
    var args := MRANGE_HEAD + FilterArgs(filters);
    FilterOnlyKeywords(filters);
    assert args[1] == "-" && args[2] == "+";
    assert ParseRangeArguments(args, 1, LLONG_MAX) == Ok((0, LLONG_MAX));
    assert ParseAggregationArgs(args, aggTypeOf, typesMax) == AggregationNotExists;
    assert ParseCount(args, -1) == Ok(-1);
  }

  /** After a head ending in FILTER, and with no GROUPBY, every later argument is a filter token. */
  lemma FilterTokensAfterHead(head: seq<string>, tokens: seq<string>)
    requires |head| >= 1 && tokens != []
    ensures FilterTokens(head + tokens, |head| - 1, -1) == Some(tokens)
  {
    assert (head + tokens)[|head|..|head| + |tokens|] == tokens;
  }

  /** The same fact, stated at the positions the filter parser reads. */
  lemma FilterTokensAt(head: seq<string>, tokens: seq<string>, args: seq<string>, filter: nat, groupby: int)
    requires |head| >= 1 && tokens != [] && args == head + tokens
    requires filter == |head| - 1 && groupby == -1
    ensures filter < |args| && groupby < |args|
    ensures FilterTokens(args, filter, groupby) == Some(tokens)
  {
    FilterTokensAfterHead(head, tokens);
  }

  /**
   * The filter half of a filter-only MRANGE: when the tokens after the head
   * parse into a list with a matcher and there is no GROUPBY or WITHLABELS,
   * the command is accepted with that list.
   */
  lemma FilterOnlyFilters(head: seq<string>, tokens: seq<string>, ps: seq<Predicate>, o: MRangeOptions)
    requires |head| >= 1 && o.filter == |head| - 1
    requires forall i :: 0 <= i < |tokens| ==> |tokens[i]| < 255
    requires ArgIndex(head + tokens, "GROUPBY") == -1 && ArgIndex(head + tokens, "WITHLABELS") == -1
    requires |ps| == |tokens| && HasMatcher(ps)
    requires ParseLabelList(tokens) == LabelListParse(PredicateList(ps, |ps|, 1), true)
    ensures FilterTokensFit(head + tokens, o.filter)
    ensures ParseMRangeFilters(head + tokens, o)
      == MRangeOk(MRangeArgs(o.startTimestamp, o.endTimestamp, o.aggregation, false, o.count, PredicateList(ps, |ps|, 1), None))
  {
    var args := head + tokens;
    TokensAfterHeadFit(head, tokens);
    FilterTokensAfterHead(head, tokens);
    NoGroupBy(args);
    FilterTokensAt(head, tokens, args, o.filter, ArgIndex(args, "GROUPBY"));
    FiltersOfTokens(args, o, tokens);
    LabelsWithoutGroupBy(args, o, tokens, ps);
  }

  /** Once the filter tokens are known, the filter half is what follows the filter count. */
  lemma FiltersOfTokens(args: seq<string>, o: MRangeOptions, tokens: seq<string>)
    requires o.filter < |args| && FilterTokensFit(args, o.filter)
    requires forall i :: 0 <= i < |tokens| ==> |tokens[i]| < 255
    requires ArgIndex(args, "GROUPBY") < |args| && FilterTokens(args, o.filter, ArgIndex(args, "GROUPBY")) == Some(tokens)
    ensures ParseMRangeFilters(args, o) == LabelsThenGroupBy(args, o, tokens, Some(ParseGroupBy(args))).value
  {
  }

  /** Parsed filter tokens with a matcher, and no GROUPBY or WITHLABELS, make an accepted command. */
  lemma LabelsWithoutGroupBy(args: seq<string>, o: MRangeOptions, tokens: seq<string>, ps: seq<Predicate>)
    requires forall i :: 0 <= i < |tokens| ==> |tokens[i]| < 255
    requires ArgIndex(args, "WITHLABELS") == -1
    requires HasMatcher(ps)
    requires ParseLabelList(tokens) == LabelListParse(PredicateList(ps, |ps|, 1), true)
    ensures LabelsThenGroupBy(args, o, tokens, Some(Ok(None)))
      == Some(MRangeOk(MRangeArgs(o.startTimestamp, o.endTimestamp, o.aggregation, false, o.count, PredicateList(ps, |ps|, 1), None)))
  {
  }

  /** Without GROUPBY the tokens after a head ending in FILTER are its filter tokens, so they bound the same arguments. */
  lemma TokensAfterHeadFit(head: seq<string>, tokens: seq<string>)
    requires |head| >= 1
    requires forall i :: 0 <= i < |tokens| ==> |tokens[i]| < 255
    ensures FilterTokensFit(head + tokens, |head| - 1)
  {
    assert forall i :: |head| <= i < |head + tokens| ==> (head + tokens)[i] == tokens[i - |head|];
  }

  lemma ConcatFits(head: seq<string>, tokens: seq<string>)
    requires forall i :: 0 <= i < |head| ==> |head[i]| < 255
    requires forall i :: 0 <= i < |tokens| ==> |tokens[i]| < 255
    ensures forall i :: 0 <= i < |head + tokens| ==> |(head + tokens)[i]| < 255
  {
    assert forall i :: |head| <= i < |head + tokens| ==> (head + tokens)[i] == tokens[i - |head|];
  }

  /** Without GROUPBY there is no grouping clause to parse. */
  lemma NoGroupBy(args: seq<string>)
    requires ArgIndex(args, "GROUPBY") == -1
    ensures ParseGroupBy(args) == Ok(None)
  {
  }

  /** The command head fits the filter parser's buffer. */
  lemma HeadFits()
    ensures forall i :: 0 <= i < |MRANGE_HEAD| ==> |MRANGE_HEAD[i]| < 255
  {
  }

  /**
   * The partner of `ParseMRange`: written-out filters, at least one of
   * them a matcher, read back as exactly those predicates, over the whole
   * range, with no aggregation, no limit, no labels and no grouping.
   */
  lemma MRangeOfFilters(filters: seq<Predicate>, aggTypeOf: string -> int, typesMax: int)
    requires forall i :: 0 <= i < |filters| ==> WritablePredicate(filters[i]) && |Render(filters[i])| < 255
    requires HasMatcher(filters)
    ensures var args := MRANGE_HEAD + FilterArgs(filters);
      && (forall i :: 0 <= i < |args| ==> |args[i]| < 255)
      && ParseMRange(args, aggTypeOf, typesMax)
        == MRangeOk(MRangeArgs(0, LLONG_MAX, None, false, -1, PredicateList(filters, |filters|, 1), None))
  {
    var tokens := FilterArgs(filters);
    FilterArgsFit(filters);
    HeadFits();
    FilterOnlyOptions(filters, aggTypeOf, typesMax);
    FilterOnlyKeywords(filters);
    LabelListOfFilters(filters);
    ConcatFits(MRANGE_HEAD, tokens);
    FilterOnlyFilters(MRANGE_HEAD, tokens, filters, MRangeOptions(0, LLONG_MAX, None, 3, -1));
  }

  /** The head of an MRANGE over written bounds with an AGGREGATION clause, ending in FILTER. */
  function WrittenHead(from: int, to: int, name: string, d: int): seq<string>
  {
    ["TS.MRANGE", ShowInt(from), ShowInt(to), "AGGREGATION", name, ShowInt(d), "FILTER"]
  }

  /** An option word of its own length, not the aggregation name, is absent from such an MRANGE. */
  lemma WrittenKeywordAbsent(from: int, to: int, name: string, d: int, filters: seq<Predicate>, kw: string)
    requires forall i :: 0 <= i < |filters| ==> WritablePredicate(filters[i])
    requires |kw| >= 1 && 'A' <= kw[0] <= 'Z' && forall k :: 0 <= k < |kw| ==> kw[k] != '='
    requires |kw| != 9 && |kw| != 11 && |kw| != 6 && !EqualsIgnoreCase(name, kw)
    ensures ArgIndex(WrittenHead(from, to, name, d) + FilterArgs(filters), kw) == -1
  {
    var args := WrittenHead(from, to, name, d) + FilterArgs(filters);
    NumberIsNoWord(from, kw);
    NumberIsNoWord(to, kw);
    NumberIsNoWord(d, kw);
    forall j | 0 <= j < |args| ensures !EqualsIgnoreCase(args[j], kw) {
      if j >= 7 {
        assert args[j] == Render(filters[j - 7]);
        FilterTokenIsNoKeyword(filters[j - 7], kw);
      }
    }
  }

  /** Where the option words of such an MRANGE stand. */
  lemma WrittenKeywords(from: int, to: int, name: string, d: int, filters: seq<Predicate>)
    requires forall i :: 0 <= i < |filters| ==> WritablePredicate(filters[i])
    requires forall kw :: kw in {"FILTER", "AGGREGATION", "COUNT", "GROUPBY", "WITHLABELS"} ==> !EqualsIgnoreCase(name, kw)
    ensures var args := WrittenHead(from, to, name, d) + FilterArgs(filters);
      && ArgIndex(args, "AGGREGATION") == 3
      && ArgIndex(args, "FILTER") == 6
      && ArgIndex(args, "COUNT") == -1
      && ArgIndex(args, "GROUPBY") == -1
      && ArgIndex(args, "WITHLABELS") == -1
  {
    var args := WrittenHead(from, to, name, d) + FilterArgs(filters);
    var bounds := ["TS.MRANGE", ShowInt(from), ShowInt(to)];
    NumberIsNoWord(from, "AGGREGATION");
    NumberIsNoWord(to, "AGGREGATION");
    assert args == bounds + ["AGGREGATION"] + ([name, ShowInt(d), "FILTER"] + FilterArgs(filters));
    ArgIndexAfter(bounds, "AGGREGATION", [name, ShowInt(d), "FILTER"] + FilterArgs(filters));
    var before := bounds + ["AGGREGATION", name, ShowInt(d)];
    NumberIsNoWord(from, "FILTER");
    NumberIsNoWord(to, "FILTER");
    NumberIsNoWord(d, "FILTER");
    assert !EqualsIgnoreCase(name, "FILTER");
    assert args == before + ["FILTER"] + FilterArgs(filters);
    ArgIndexAfter(before, "FILTER", FilterArgs(filters));
    assert !EqualsIgnoreCase(name, "COUNT") && !EqualsIgnoreCase(name, "GROUPBY") && !EqualsIgnoreCase(name, "WITHLABELS");
    WrittenKeywordAbsent(from, to, name, d, filters, "COUNT");
    WrittenKeywordAbsent(from, to, name, d, filters, "GROUPBY");
    WrittenKeywordAbsent(from, to, name, d, filters, "WITHLABELS");
  }

  /** The first half of such an MRANGE reads the written bounds and aggregation, and no limit. */
  lemma WrittenOptions(from: int, to: int, name: string, d: int, filters: seq<Predicate>, aggTypeOf: string -> int, typesMax: int)
    requires forall i :: 0 <= i < |filters| ==> WritablePredicate(filters[i])
    requires forall kw :: kw in {"FILTER", "AGGREGATION", "COUNT", "GROUPBY", "WITHLABELS"} ==> !EqualsIgnoreCase(name, kw)
    requires LLONG_MIN <= from <= LLONG_MAX && LLONG_MIN <= to <= LLONG_MAX
    requires 0 <= aggTypeOf(name) < typesMax && 0 < d <= LLONG_MAX
    ensures ParseMRangeOptions(WrittenHead(from, to, name, d) + FilterArgs(filters), aggTypeOf, typesMax)
      == Ok(MRangeOptions(ToU64(from), ToU64(to), Some(Aggregation(aggTypeOf(name), d)), 6, -1))
  {
    var args := WrittenHead(from, to, name, d) + FilterArgs(filters);
    WrittenKeywords(from, to, name, d, filters);
    RangeOfWrittenBounds(args, 1, LLONG_MAX, from, to);
    WrittenAggregation(from, to, name, d, FilterArgs(filters), aggTypeOf, typesMax);
    assert ParseCount(args, -1) == Ok(-1);
  }

  /** The AGGREGATION clause of such an MRANGE is read back as written. */
  lemma WrittenAggregation(from: int, to: int, name: string, d: int, tokens: seq<string>, aggTypeOf: string -> int, typesMax: int)
    requires 0 <= aggTypeOf(name) < typesMax && 0 < d <= LLONG_MAX
    ensures ParseAggregationArgs(WrittenHead(from, to, name, d) + tokens, aggTypeOf, typesMax) == AggregationOk(aggTypeOf(name), d)
  {
    var bounds := ["TS.MRANGE", ShowInt(from), ShowInt(to)];
    NumberIsNoWord(from, "AGGREGATION");
    NumberIsNoWord(to, "AGGREGATION");
    assert WrittenHead(from, to, name, d) + tokens == bounds + ["AGGREGATION", name, ShowInt(d)] + (["FILTER"] + tokens);
    AggregationRoundTrip(bounds, name, d, ["FILTER"] + tokens, aggTypeOf, typesMax);
  }

  /**
   * The partner of `ParseMRange` beyond the widest range: bounds written
   * in decimal, an AGGREGATION clause with a known type and a positive
   * bucket, and written filters with a matcher are read back as those
   * timestamps, that aggregation and exactly those predicates.
   */
  lemma MRangeOfWritten(from: int, to: int, name: string, d: int, filters: seq<Predicate>, aggTypeOf: string -> int, typesMax: int)
    requires forall i :: 0 <= i < |filters| ==> WritablePredicate(filters[i]) && |Render(filters[i])| < 255
    requires HasMatcher(filters)
    requires forall kw :: kw in {"FILTER", "AGGREGATION", "COUNT", "GROUPBY", "WITHLABELS"} ==> !EqualsIgnoreCase(name, kw)
    requires LLONG_MIN <= from <= LLONG_MAX && LLONG_MIN <= to <= LLONG_MAX
    requires 0 <= aggTypeOf(name) < typesMax && 0 < d <= LLONG_MAX
    ensures var args := WrittenHead(from, to, name, d) + FilterArgs(filters);
      && FilterTokensFit(args, ArgIndex(args, "FILTER"))
      && ParseMRange(args, aggTypeOf, typesMax)
        == MRangeOk(MRangeArgs(ToU64(from), ToU64(to), Some(Aggregation(aggTypeOf(name), d)), false, -1,
                               PredicateList(filters, |filters|, 1), None))
  {
    var head := WrittenHead(from, to, name, d);
    var tokens := FilterArgs(filters);
    var o := MRangeOptions(ToU64(from), ToU64(to), Some(Aggregation(aggTypeOf(name), d)), 6, -1);
    FilterArgsFit(filters);
    WrittenKeywords(from, to, name, d, filters);
    WrittenOptions(from, to, name, d, filters, aggTypeOf, typesMax);
    LabelListOfFilters(filters);
    FilterOnlyFilters(head, tokens, filters, o);
  }

  /**
   * `MRangeArgs_Free`: releases the predicate list's reference; the list
   * of an accepted command, still held once, is freed by it.
   */
  function MRangeArgsFree(a: MRangeArgs): (r: (PredicateList, bool))
    requires a.queryPredicates.ref >= 1
    ensures r.1 <==> a.queryPredicates.ref == 1
  {
    ReleasePredicates(a.queryPredicates)
  }

  /** Freeing the arguments of an accepted command frees its predicate list. */
  lemma AcceptedArgsFreed(args: seq<string>, aggTypeOf: string -> int, typesMax: int)
    requires FilterTokensFit(args, ArgIndex(args, "FILTER"))
    requires ParseMRange(args, aggTypeOf, typesMax).MRangeOk?
    ensures MRangeArgsFree(ParseMRange(args, aggTypeOf, typesMax).args).1
  {
  }
}

=== FILE: reply.dfy ===
/**
 * The reply shapes of range queries (src/reply.c): a series' samples as
 * an array of `[timestamp, value]` pairs after the retention clamp and
 * the COUNT cap, the three-element per-series entry of multi-series
 * replies, the label pairs, and the last data point.
 *
 * A reply is the tree of values the module writes to the client. A
 * sample value is sent as the text `fpconv_dtoa` makes of it; here it
 * stays the value itself (`Dbl`).
 */
module Reply {

  import opened Common
  import opened Tsdb
  import opened SeriesIterator

  datatype Reply =
    | Arr(items: seq<Reply>)
    | Str(text: string)
    | Int(n: int)
    | Dbl(v: Value)
    | Error(msg: string)

  /** `ReplyWithSample`: a two-element array of the timestamp and the value. */
  function SampleReply(s: Sample): (r: Reply)
    ensures r.Arr? && |r.items| == 2
  {
    Arr([Int(s.timestamp), Dbl(s.value)])
  }

  /** Reading a sample back from its reply, as a client does. */
  function DecodeSample(r: Reply): Option<Sample>
  {
    if r.Arr? && |r.items| == 2 && r.items[0].Int? && r.items[0].n >= 0 && r.items[1].Dbl? then
      Some(Sample(r.items[0].n, r.items[1].v))
    else None
  }

  /** A sample reply reads back as the sample. */
  lemma SampleRoundTrip(s: Sample)
    ensures DecodeSample(SampleReply(s)) == Some(s)
  {
  }

  // ---------------------------------------------------------------------
  // ReplySeriesRange
  // ---------------------------------------------------------------------

  /**
   * The start of the range after the retention clamp: with a retention
   * set and a last timestamp past it, nothing older than the retention
   * window before the last timestamp is returned.
   */
  function ClampedStart(series: Series, start: Timestamp): (r: Timestamp)
    ensures start <= r
    ensures series.retentionTime != 0 && series.lastTimestamp > series.retentionTime ==>
      r >= series.lastTimestamp - series.retentionTime
    ensures r > start ==> series.retentionTime != 0 && r == series.lastTimestamp - series.retentionTime
  {
    if series.retentionTime != 0 && series.lastTimestamp > series.retentionTime then
      var floor := series.lastTimestamp - series.retentionTime;
      if start < floor then floor else start
    else start
  }

  /**
   * How many samples a COUNT of `maxResults` lets through out of `n`: the
   * reply loop writes a sample while the count written so far is below
   * `maxResults`, or always when it is -1, and stops when the samples run out.
   */
  function CapCount(n: nat, maxResults: int): (k: nat)
    ensures k <= n
    ensures k > 0 && maxResults != -1 ==> k <= maxResults
    ensures k == n || !(maxResults == -1 || k < maxResults)
    ensures maxResults == -1 ==> k == n
    ensures maxResults >= 0 ==> k == (if maxResults < n then maxResults else n)
    ensures maxResults < -1 ==> k == 0
  {
    if maxResults == -1 then n
    else if maxResults < 0 then 0
    else if maxResults < n then maxResults
    else n
  }

  /**
   * The reply loop of `ReplySeriesRange`: samples are written while the
   * iterator has one and the cap is not reached; the postponed array length
   * is the number written.
   */
  method ReplySamples(samples: seq<Sample>, maxResults: int) returns (r: Reply)
    ensures r.Arr? && |r.items| == CapCount(|samples|, maxResults)
    ensures forall k :: 0 <= k < |r.items| ==> r.items[k] == SampleReply(samples[k])
  {
    var items: seq<Reply> := [];
    var arraylen := 0;
    while arraylen < |samples| && (maxResults == -1 || arraylen < maxResults)
      invariant 0 <= arraylen <= |samples|
      invariant maxResults != -1 ==> arraylen <= (if maxResults < 0 then 0 else maxResults)
      invariant |items| == arraylen
      invariant forall k :: 0 <= k < arraylen ==> items[k] == SampleReply(samples[k])
    {
      items := items + [SampleReply(samples[arraylen])];
      arraylen := arraylen + 1;
    }
    r := Arr(items);
  }

  /**
   * `ReplySeriesRange`: an empty array when the clamp leaves an empty range,
   * otherwise the capped samples of the range query from the clamped start.
   * Without aggregation, on a well-formed series, that is the series'
   * samples in `[ClampedStart, end]` in the requested order, as many as the
   * cap lets through, so none is older than the retention window.
   */
  method ReplySeriesRange(series: Series, start: Timestamp, end: Timestamp, agg: Option<Aggregator>, maxResults: int, rev: bool)
    returns (r: Reply)
    requires |series.chunks| >= 1 && (agg.Some? ==> agg.value.timeDelta > 0)
    ensures r.Arr?
    ensures series.retentionTime != 0 && ClampedStart(series, start) > end ==> r == Arr([])
    ensures !(series.retentionTime != 0 && ClampedStart(series, start) > end) ==>
      var samples := RangeQuery(series.chunks, ClampedStart(series, start), end, rev, agg);
      |r.items| == CapCount(|samples|, maxResults)
      && forall k :: 0 <= k < |r.items| ==> r.items[k] == SampleReply(samples[k])
    ensures WellFormedChunks(series.chunks) && agg.None? ==>
      var inRange := Filter(Flatten(series.chunks), ClampedStart(series, start), end);
      var ordered := if rev then Reverse(inRange) else inRange;
      |r.items| == CapCount(|ordered|, maxResults)
      && forall k :: 0 <= k < |r.items| ==> DecodeSample(r.items[k]) == Some(ordered[k])
  {
    var from := ClampedStart(series, start);
    if series.retentionTime != 0 && from > end {
      FilterEmptyRange(Flatten(series.chunks), from, end);
      return Arr([]);
    }
    if WellFormedChunks(series.chunks) && agg.None? {
      RangeQueryIsReference(series.chunks, from, end, rev, None);
    }
    r := ReplySamples(RangeQuery(series.chunks, from, end, rev, agg), maxResults);
  }

  /** An empty range holds no samples. */
  lemma {:induction false} FilterEmptyRange(s: seq<Sample>, min: Timestamp, max: Timestamp)
    requires min > max
    ensures Filter(s, min, max) == []
  {
    if s != [] {
      FilterEmptyRange(s[1..], min, max);
    }
  }

  // ---------------------------------------------------------------------
  // Labels, the per-series entry and the last data point
  // ---------------------------------------------------------------------

  /** `ReplyWithSeriesLabels`: one `[key, value]` pair per label, in stored order. */
  function LabelsReply(labels: seq<Label>): (r: Reply)
    ensures r.Arr? && |r.items| == |labels|
    ensures forall i :: 0 <= i < |labels| ==> r.items[i] == Arr([Str(labels[i].key), Str(labels[i].value)])
  {
    Arr(seq(|labels|, i requires 0 <= i < |labels| => LabelPair(labels[i])))
  }

  function LabelPair(l: Label): Reply
  {
    Arr([Str(l.key), Str(l.value)])
  }

  /** Reading label pairs back from the items of their reply. */
  function DecodePairs(items: seq<Reply>): Option<seq<Label>>
  {
    if items == [] then Some([])
    else if !IsPair(items[0]) then None
    else match DecodePairs(items[1..])
      case None => None
      case Some(rest) => Some([Label(items[0].items[0].text, items[0].items[1].text)] + rest)
  }

  function DecodeLabels(r: Reply): Option<seq<Label>>
  {
    if r.Arr? then DecodePairs(r.items) else None
  }

  predicate IsPair(r: Reply)
  {
    r.Arr? && |r.items| == 2 && r.items[0].Str? && r.items[1].Str?
  }

  /** The label reply reads back as the series' labels. */
  lemma {:induction false} LabelsRoundTrip(labels: seq<Label>)
    ensures DecodeLabels(LabelsReply(labels)) == Some(labels)
  {
    if labels != [] {
      LabelsRoundTrip(labels[1..]);
      var items := LabelsReply(labels).items;
      assert items[1..] == LabelsReply(labels[1..]).items;
      assert labels == [labels[0]] + labels[1..];
    }
  }

  /**
   * `ReplySeriesArrayPos`: exactly three elements, the key name, the labels
   * (an empty array unless WITHLABELS) and the range reply.
   */
  method ReplySeriesArrayPos(series: Series, withLabels: bool, start: Timestamp, end: Timestamp, agg: Option<Aggregator>, maxResults: int, rev: bool)
    returns (r: Reply)
    requires |series.chunks| >= 1 && (agg.Some? ==> agg.value.timeDelta > 0)
    ensures r.Arr? && |r.items| == 3
    ensures r.items[0] == Str(series.keyName)
    ensures withLabels ==> DecodeLabels(r.items[1]) == Some(series.labels)
    ensures !withLabels ==> r.items[1] == Arr([])
    ensures r.items[2].Arr?
    ensures series.retentionTime != 0 && ClampedStart(series, start) > end ==> r.items[2] == Arr([])
    ensures !(series.retentionTime != 0 && ClampedStart(series, start) > end) ==>
      var samples := RangeQuery(series.chunks, ClampedStart(series, start), end, rev, agg);
      |r.items[2].items| == CapCount(|samples|, maxResults)
      && forall k :: 0 <= k < |r.items[2].items| ==> r.items[2].items[k] == SampleReply(samples[k])
  {
    var labels := if withLabels then LabelsReply(series.labels) else Arr([]);
    if withLabels {
      LabelsRoundTrip(series.labels);
    }
    var range := ReplySeriesRange(series, start, end, agg, maxResults, rev);
    r := Arr([Str(series.keyName), labels, range]);
  }

  /** `ReplyWithSeriesLastDatapoint`: an empty array for a series without samples, else its last sample. */
  function LastDatapointReply(series: Series): (r: Reply)
    ensures r == Arr([]) <==> NumSamples(series) == 0
    ensures NumSamples(series) != 0 ==> DecodeSample(r) == Some(Sample(series.lastTimestamp, series.lastValue))
  {
    if NumSamples(series) == 0 then Arr([]) else SampleReply(Sample(series.lastTimestamp, series.lastValue))
  }
}

=== FILE: resultset.dfy ===
/**
 * The GROUPBY result set of multi-series range queries (src/resultset.c).
 *
 * Series are bucketed by the value of one label into groups kept in a
 * dictionary ordered by key; each group is then reduced to one synthetic
 * series named `<label>=<value>` with three labels, and the reply has one
 * entry per group in key order.
 *
 * The dictionary is a radix tree iterated from its smallest key; here it is
 * a sequence of groups kept strictly increasing in byte-wise order of their
 * label values, which is what that iteration visits. `MultiSerieReduce`,
 * the sample-level combine of two series, is an opaque function parameter.
 */
module ResultSet {

  import opened Common
  import opened Tsdb
  import opened Indexer
  import opened QueryLanguage

  // ---------------------------------------------------------------------
  // Key order of the group dictionary
  // ---------------------------------------------------------------------

  /** Byte-wise lexicographic order, the order the dictionary's `^` seek and iteration follow. */
  predicate Less(a: string, b: string)
  {
    if a == [] then b != []
    else if b == [] then false
    else if a[0] != b[0] then a[0] < b[0]
    else Less(a[1..], b[1..])
  }

  lemma {:induction false} LessIrreflexive(a: string)
    ensures !Less(a, a)
  {
    if a != [] {
      LessIrreflexive(a[1..]);
    }
  }

  lemma {:induction false} LessTransitive(a: string, b: string, c: string)
    requires Less(a, b) && Less(b, c)
    ensures Less(a, c)
  {
    if a != [] && b != [] && c != [] && a[0] == b[0] && b[0] == c[0] {
      LessTransitive(a[1..], b[1..], c[1..]);
    }
  }

  lemma {:induction false} LessTotal(a: string, b: string)
    requires a != b
    ensures Less(a, b) || Less(b, a)
  {
    if a != [] && b != [] && a[0] == b[0] {
      assert a == [a[0]] + a[1..] && b == [b[0]] + b[1..];
      LessTotal(a[1..], b[1..]);
    }
  }

  // ---------------------------------------------------------------------
  // Groups
  // ---------------------------------------------------------------------

  /** `TS_GroupList`: a label value and the series listed under it; `count` is `|list|`. */
  datatype GroupList = GroupList(labelValue: string, list: seq<Series>)

  /** `TS_ResultSet`: the label to group by and the groups in key order. */
  datatype ResultSet = ResultSet(labelKey: string, groups: seq<GroupList>)

  /** Groups in strictly increasing key order, none of them empty. */
  predicate Valid(rs: ResultSet)
  {
    && (forall i, j :: 0 <= i < j < |rs.groups| ==> Less(rs.groups[i].labelValue, rs.groups[j].labelValue))
    && (forall i :: 0 <= i < |rs.groups| ==> rs.groups[i].list != [])
  }

  /** The series listed under label value `v`, none when there is no such group. */
  function ListOf(groups: seq<GroupList>, v: string): seq<Series>
  {
    if groups == [] then []
    else if groups[0].labelValue == v then groups[0].list
    else ListOf(groups[1..], v)
  }

  /** The label values that have a group. */
  function Keys(groups: seq<GroupList>): set<string>
  {
    set i | 0 <= i < |groups| :: groups[i].labelValue
  }

  /** Sorted keys are distinct. */
  lemma SortedDistinct(rs: ResultSet, i: nat, j: nat)
    requires Valid(rs) && i < |rs.groups| && j < |rs.groups| && i != j
    ensures rs.groups[i].labelValue != rs.groups[j].labelValue
  {
    if i < j {
      LessIrreflexive(rs.groups[i].labelValue);
    } else {
      LessIrreflexive(rs.groups[j].labelValue);
    }
  }

  /** With distinct keys, the group of `v` is found wherever it stands, and a key with no group lists nothing. */
  lemma {:induction false} ListOfAt(groups: seq<GroupList>, v: string)
    requires forall i, j :: 0 <= i < j < |groups| ==> groups[i].labelValue != groups[j].labelValue
    ensures forall i :: 0 <= i < |groups| && groups[i].labelValue == v ==> ListOf(groups, v) == groups[i].list
    ensures v !in Keys(groups) ==> ListOf(groups, v) == []
  {
    if groups != [] {
      ListOfAt(groups[1..], v);
      assert forall i :: 1 <= i < |groups| ==> groups[1..][i - 1] == groups[i];
      assert Keys(groups) == {groups[0].labelValue} + Keys(groups[1..]) by {
        forall w | w in Keys(groups) ensures w in {groups[0].labelValue} + Keys(groups[1..]) {
          var i :| 0 <= i < |groups| && groups[i].labelValue == w;
          if i > 0 { assert groups[1..][i - 1].labelValue == w; }
        }
      }
    }
  }

  lemma ValidDistinct(rs: ResultSet)
    requires Valid(rs)
    ensures forall i, j :: 0 <= i < j < |rs.groups| ==> rs.groups[i].labelValue != rs.groups[j].labelValue
  {
    forall i, j | 0 <= i < j < |rs.groups| ensures rs.groups[i].labelValue != rs.groups[j].labelValue {
      SortedDistinct(rs, i, j);
    }
  }

  /** In a valid result set a label value has a group exactly when it lists some series. */
  lemma KeysListSomething(rs: ResultSet, v: string)
    requires Valid(rs)
    ensures v in Keys(rs.groups) <==> ListOf(rs.groups, v) != []
  {
    ValidDistinct(rs);
    ListOfAt(rs.groups, v);
  }

  /** `ResultSet_Create` followed by `ResultSet_GroupbyLabel`: no groups yet. */
  function NewResultSet(labelKey: string): (rs: ResultSet)
    ensures Valid(rs) && rs.labelKey == labelKey
    ensures forall v :: ListOf(rs.groups, v) == []
  {
    ResultSet(labelKey, [])
  }

  /** `GroupList_AddSerie`: the series goes at the end; the entries already there stay as they were. */
  function AddToGroup(g: GroupList, s: Series): (r: GroupList)
    ensures r.labelValue == g.labelValue
    ensures |r.list| == |g.list| + 1 && r.list[|g.list|] == s
    ensures forall k :: 0 <= k < |g.list| ==> r.list[k] == g.list[k]
  {
    GroupList(g.labelValue, g.list + [s])
  }

  /** The position of the first group whose key is not below `v` (the dictionary lookup). */
  function Seek(groups: seq<GroupList>, v: string): (p: nat)
    ensures p <= |groups|
    ensures forall k :: 0 <= k < p ==> Less(groups[k].labelValue, v)
    ensures p < |groups| ==> !Less(groups[p].labelValue, v)
  {
    if groups == [] || !Less(groups[0].labelValue, v) then 0 else 1 + Seek(groups[1..], v)
  }

  /**
   * `ResultSet_AddSerie`: a series without the group-by label is not added
   * (false); otherwise it joins the group of its label value, which is
   * created, holding that value, on its first occurrence.
   */
  function AddSerie(rs: ResultSet, s: Series): (r: (ResultSet, bool))
    ensures r.1 <==> LabelValue(s.labels, rs.labelKey).Some?
    ensures !r.1 ==> r.0 == rs
    ensures r.0.labelKey == rs.labelKey
  {
    match LabelValue(s.labels, rs.labelKey)
    case None => (rs, false)
    case Some(v) =>
      var p := Seek(rs.groups, v);
      if p < |rs.groups| && rs.groups[p].labelValue == v then
        (rs.(groups := rs.groups[p := AddToGroup(rs.groups[p], s)]), true)
      else
        (rs.(groups := rs.groups[..p] + [GroupList(v, [s])] + rs.groups[p..]), true)
  }

  /** A new group put where the lookup stopped keeps the keys sorted. */
  lemma InsertSorted(rs: ResultSet, g: GroupList)
    requires Valid(rs) && g.list != []
    requires Seek(rs.groups, g.labelValue) == |rs.groups| || rs.groups[Seek(rs.groups, g.labelValue)].labelValue != g.labelValue
    ensures var p := Seek(rs.groups, g.labelValue);
      Valid(rs.(groups := rs.groups[..p] + [g] + rs.groups[p..]))
  {
    var v := g.labelValue;
    var p := Seek(rs.groups, v);
    var out := rs.groups[..p] + [g] + rs.groups[p..];
    if p < |rs.groups| {
      LessTotal(v, rs.groups[p].labelValue);
    }
    forall i, j | 0 <= i < j < |out| ensures Less(out[i].labelValue, out[j].labelValue) {
      if j < p {
        assert out[i] == rs.groups[i] && out[j] == rs.groups[j];
      } else if i > p {
        assert out[i] == rs.groups[i - 1] && out[j] == rs.groups[j - 1];
      } else if i < p {
        assert out[i] == rs.groups[i];
        if j > p {
          assert out[j] == rs.groups[j - 1];
          if j - 1 > p {
            LessTransitive(v, rs.groups[p].labelValue, rs.groups[j - 1].labelValue);
          }
          LessTransitive(out[i].labelValue, v, out[j].labelValue);
        }
      } else {
        assert out[j] == rs.groups[j - 1];
        if j - 1 > p {
          LessTransitive(v, rs.groups[p].labelValue, rs.groups[j - 1].labelValue);
        }
      }
    }
    forall i | 0 <= i < |out| ensures out[i].list != [] {
      if i < p { assert out[i] == rs.groups[i]; }
      else if i > p { assert out[i] == rs.groups[i - 1]; }
    }
  }

  /** What adding series `s` appends to the list of label value `w`. */
  function Added(key: string, s: Series, w: string): seq<Series>
  {
    if LabelValue(s.labels, key) == Some(w) then [s] else []
  }

  /** Appending to an existing group: keys stay, and only that group's list grows. */
  lemma AddExisting(rs: ResultSet, s: Series, p: nat)
    requires Valid(rs) && p < |rs.groups|
    ensures var r := rs.(groups := rs.groups[p := AddToGroup(rs.groups[p], s)]);
      && Valid(r)
      && Keys(r.groups) == Keys(rs.groups)
      && forall w :: ListOf(r.groups, w) == ListOf(rs.groups, w) + (if w == rs.groups[p].labelValue then [s] else [])
  {
    var r := rs.(groups := rs.groups[p := AddToGroup(rs.groups[p], s)]);
    var v := rs.groups[p].labelValue;
    assert forall i :: 0 <= i < |r.groups| ==> r.groups[i].labelValue == rs.groups[i].labelValue;
    assert Valid(r);
    ValidDistinct(rs);
    ValidDistinct(r);
    assert Keys(r.groups) == Keys(rs.groups);
    forall w ensures ListOf(r.groups, w) == ListOf(rs.groups, w) + (if w == v then [s] else []) {
      ListOfAt(rs.groups, w);
      ListOfAt(r.groups, w);
      if w in Keys(rs.groups) {
        var i :| 0 <= i < |rs.groups| && rs.groups[i].labelValue == w;
        assert (i == p) == (w == v);
      }
    }
  }

  /** Creating a group where the lookup stopped: the key joins, and only its list is new. */
  lemma AddNew(rs: ResultSet, s: Series, v: string)
    requires Valid(rs)
    requires Seek(rs.groups, v) == |rs.groups| || rs.groups[Seek(rs.groups, v)].labelValue != v
    ensures var p := Seek(rs.groups, v);
      var r := rs.(groups := rs.groups[..p] + [GroupList(v, [s])] + rs.groups[p..]);
      && Valid(r)
      && Keys(r.groups) == Keys(rs.groups) + {v}
      && forall w :: ListOf(r.groups, w) == ListOf(rs.groups, w) + (if w == v then [s] else [])
  {
    var p := Seek(rs.groups, v);
    var g := GroupList(v, [s]);
    var r := rs.(groups := rs.groups[..p] + [g] + rs.groups[p..]);
    InsertSorted(rs, g);
    ValidDistinct(rs);
    InsertKeys(rs.groups, p, g);
    assert v !in Keys(rs.groups) by {
      if v in Keys(rs.groups) {
        var i :| 0 <= i < |rs.groups| && rs.groups[i].labelValue == v;
        if i < p { LessIrreflexive(v); }
      }
    }
    InsertListOf(rs.groups, p, g);
  }

  /** Inserting a group under a new key gives that key its list and leaves every other key's list alone. */
  lemma InsertListOf(groups: seq<GroupList>, p: nat, g: GroupList)
    requires p <= |groups| && g.labelValue !in Keys(groups)
    requires forall i, j :: 0 <= i < j < |groups| ==> groups[i].labelValue != groups[j].labelValue
    ensures var out := groups[..p] + [g] + groups[p..];
      forall w :: ListOf(out, w) == ListOf(groups, w) + (if w == g.labelValue then g.list else [])
  {
    var out := groups[..p] + [g] + groups[p..];
    InsertDistinct(groups, p, g);
    InsertKeys(groups, p, g);
    forall w ensures ListOf(out, w) == ListOf(groups, w) + (if w == g.labelValue then g.list else []) {
      InsertListOfAt(groups, p, g, w);
    }
  }

  /** One label value's list after the insertion. */
  lemma InsertListOfAt(groups: seq<GroupList>, p: nat, g: GroupList, w: string)
    requires p <= |groups| && g.labelValue !in Keys(groups)
    requires forall i, j :: 0 <= i < j < |groups| ==> groups[i].labelValue != groups[j].labelValue
    requires var out := groups[..p] + [g] + groups[p..];
      forall i, j :: 0 <= i < j < |out| ==> out[i].labelValue != out[j].labelValue
    requires Keys(groups[..p] + [g] + groups[p..]) == Keys(groups) + {g.labelValue}
    ensures ListOf(groups[..p] + [g] + groups[p..], w) == ListOf(groups, w) + (if w == g.labelValue then g.list else [])
  {
    var out := groups[..p] + [g] + groups[p..];
    ListOfAt(groups, w);
    ListOfAt(out, w);
    if w == g.labelValue {
      InsertAt(groups, p, g, p);
      EmptyConcat(g.list);
    } else if w in Keys(groups) {
      var i :| 0 <= i < |groups| && groups[i].labelValue == w;
      if i < p { InsertAt(groups, p, g, i); } else { InsertAt(groups, p, g, i + 1); }
      EmptyConcat(groups[i].list);
    }
  }

  /** Where each group sits after inserting `g` at position `p`. */
  lemma InsertAt(groups: seq<GroupList>, p: nat, g: GroupList, i: nat)
    requires p <= |groups| && i <= |groups|
    ensures (groups[..p] + [g] + groups[p..])[i] == if i < p then groups[i] else if i == p then g else groups[i - 1]
  {
  }

  /** Inserting a group under a new key keeps the keys distinct. */
  lemma InsertDistinct(groups: seq<GroupList>, p: nat, g: GroupList)
    requires p <= |groups| && g.labelValue !in Keys(groups)
    requires forall i, j :: 0 <= i < j < |groups| ==> groups[i].labelValue != groups[j].labelValue
    ensures var out := groups[..p] + [g] + groups[p..];
      forall i, j :: 0 <= i < j < |out| ==> out[i].labelValue != out[j].labelValue
  {
    var out := groups[..p] + [g] + groups[p..];
    forall i, j | 0 <= i < j < |out| ensures out[i].labelValue != out[j].labelValue {
      InsertAt(groups, p, g, i);
      InsertAt(groups, p, g, j);
      if i < p { assert groups[i].labelValue in Keys(groups); }
      if j > p { assert groups[j - 1].labelValue in Keys(groups); }
    }
  }

  /**
   * Adding a series keeps the result set valid, appends the series to the
   * list of its label value, which then has a group, and changes the list
   * of no other value.
   */
  lemma AddSerieSpec(rs: ResultSet, s: Series)
    requires Valid(rs)
    ensures Valid(AddSerie(rs, s).0)
    ensures forall w :: ListOf(AddSerie(rs, s).0.groups, w) == ListOf(rs.groups, w) + Added(rs.labelKey, s, w)
    ensures LabelValue(s.labels, rs.labelKey).Some? ==>
      Keys(AddSerie(rs, s).0.groups) == Keys(rs.groups) + {LabelValue(s.labels, rs.labelKey).value}
  {
    if LabelValue(s.labels, rs.labelKey).Some? {
      var v := LabelValue(s.labels, rs.labelKey).value;
      var p := Seek(rs.groups, v);
      if p < |rs.groups| && rs.groups[p].labelValue == v {
        AddExisting(rs, s, p);
        assert v in Keys(rs.groups);
      } else {
        AddNew(rs, s, v);
      }
    }
  }

  /** The keys after an insertion are the old keys and the new one. */
  lemma InsertKeys(groups: seq<GroupList>, p: nat, g: GroupList)
    requires p <= |groups|
    ensures Keys(groups[..p] + [g] + groups[p..]) == Keys(groups) + {g.labelValue}
  {
    var out := groups[..p] + [g] + groups[p..];
    forall w | w in Keys(out) ensures w in Keys(groups) + {g.labelValue} {
      var i :| 0 <= i < |out| && out[i].labelValue == w;
      if i < p { assert out[i] == groups[i]; } else if i > p { assert out[i] == groups[i - 1]; }
    }
    forall w | w in Keys(groups) ensures w in Keys(out) {
      var i :| 0 <= i < |groups| && groups[i].labelValue == w;
      if i < p { assert out[i] == groups[i]; } else { assert out[i + 1] == groups[i]; }
    }
    assert out[p] == g;
  }

  // ---------------------------------------------------------------------
  // Building the groups of a query's series
  // ---------------------------------------------------------------------

  /** The series added one by one, in order. */
  function AddAll(rs: ResultSet, series: seq<Series>): ResultSet
    decreases |series|
  {
    if series == [] then rs else AddAll(AddSerie(rs, series[0]).0, series[1..])
  }

  /** The series whose `key` label has the value `v`, in order. */
  function WithLabel(series: seq<Series>, key: string, v: string): seq<Series>
  {
    if series == [] then []
    else (if LabelValue(series[0].labels, key) == Some(v) then [series[0]] else []) + WithLabel(series[1..], key, v)
  }

  /**
   * Grouping law: after adding series one by one, each label value lists
   * what it listed before followed by exactly the added series carrying
   * that value, in the order they came, and the result set stays valid.
   */
  lemma {:induction false} AddAllGroups(rs: ResultSet, series: seq<Series>)
    requires Valid(rs)
    ensures Valid(AddAll(rs, series)) && AddAll(rs, series).labelKey == rs.labelKey
    ensures forall v :: ListOf(AddAll(rs, series).groups, v) == ListOf(rs.groups, v) + WithLabel(series, rs.labelKey, v)
    decreases |series|
  {
    if series != [] {
      var next := AddSerie(rs, series[0]).0;
      AddSerieSpec(rs, series[0]);
      AddAllGroups(next, series[1..]);
      forall v ensures ListOf(AddAll(rs, series).groups, v) == ListOf(rs.groups, v) + WithLabel(series, rs.labelKey, v) {
        AddAllStep(rs, series, v);
      }
    }
  }

  /** One label value through one step of the grouping. */
  lemma AddAllStep(rs: ResultSet, series: seq<Series>, v: string)
    requires series != []
    requires ListOf(AddSerie(rs, series[0]).0.groups, v) == ListOf(rs.groups, v) + Added(rs.labelKey, series[0], v)
    requires ListOf(AddAll(AddSerie(rs, series[0]).0, series[1..]).groups, v)
      == ListOf(AddSerie(rs, series[0]).0.groups, v) + WithLabel(series[1..], rs.labelKey, v)
    ensures ListOf(AddAll(rs, series).groups, v) == ListOf(rs.groups, v) + WithLabel(series, rs.labelKey, v)
  {
    ConcatAssoc(ListOf(rs.groups, v), Added(rs.labelKey, series[0], v), WithLabel(series[1..], rs.labelKey, v));
  }

  /** The groups of a query: one per label value present, listing exactly the series with that value, in order. */
  lemma GroupsOfSeries(labelKey: string, series: seq<Series>)
    ensures Valid(AddAll(NewResultSet(labelKey), series)) && AddAll(NewResultSet(labelKey), series).labelKey == labelKey
    ensures forall v :: ListOf(AddAll(NewResultSet(labelKey), series).groups, v) == WithLabel(series, labelKey, v)
  {
    AddAllGroups(NewResultSet(labelKey), series);
  }

  // ---------------------------------------------------------------------
  // GroupList_ApplyReducer
  // ---------------------------------------------------------------------

  /** The arguments `MultiSerieReduce` receives besides the two series. */
  datatype ReduceCall = ReduceCall(op: ReduceOp, start: Timestamp, end: Timestamp, agg: Option<Aggregation>, rev: bool)

  /** `MultiSerieReduce`: folds the samples of a source series into the reduced one. */
  type Merge = (ReduceCall, Series, Series) -> Series

  /** The `__reducer__` label value. */
  function ReducerName(op: ReduceOp): string
  {
    match op
    case Max => "max"
    case Min => "min"
    case Sum => "sum"
  }

  /** The reducer's label value parses back as the reducer with `parseMultiSeriesReduceOp`. */
  lemma ReducerNameRoundTrip(op: ReduceOp)
    ensures |ReducerName(op)| == 3
    ensures ParseReduceOp(ReducerName(op)) == Some(op)
  {
    assert "max"[..3] == "max" && "min"[..3] == "min" && "sum"[..3] == "sum";
    assert ToLower("max"[0]) != ToLower("sum"[0]);
    assert ToLower("min"[0]) != ToLower("sum"[0]);
    assert ToLower("min"[1]) != ToLower("max"[1]);
  }

  function KeyNames(list: seq<Series>): (r: seq<string>)
    ensures |r| == |list| && forall k :: 0 <= k < |list| ==> r[k] == list[k].keyName
  {
    seq(|list|, k requires 0 <= k < |list| => list[k].keyName)
  }

  /**
   * `createReducedSeriesLabels` with the `__source__` value the reducer
   * fills in: the group's label, the reducer and the source key names.
   */
  function ReducedLabels(labelKey: string, labelValue: string, op: ReduceOp, source: string): seq<Label>
  {
    [Label(labelKey, labelValue), Label("__reducer__", ReducerName(op)), Label("__source__", source)]
  }

  /** The empty temporary series `NewSeries` creates for the reduction. */
  function TempSeries(name: string): Series
  {
    Series(name, [], [Chunk(0, [])], 0, 0.0, 0)
  }

  /** The source series folded into the reduced one, in group order. */
  function MergeAll(merge: Merge, call: ReduceCall, acc: Series, list: seq<Series>): Series
    decreases |list|
  {
    if list == [] then acc else MergeAll(merge, call, merge(call, acc, list[0]), list[1..])
  }

  lemma MergeAllSnoc(merge: Merge, call: ReduceCall, acc: Series, list: seq<Series>, x: Series)
    ensures MergeAll(merge, call, acc, list + [x]) == merge(call, MergeAll(merge, call, acc, list), x)
    decreases |list|
  {
    if list != [] {
      assert (list + [x])[1..] == list[1..] + [x];
      MergeAllSnoc(merge, call, merge(call, acc, list[0]), list[1..], x);
    } else {
      assert (list + [x])[1..] == [];
    }
  }

  /** `parts` joined with commas, one more part at the end. */
  lemma JoinSnoc(parts: seq<string>, x: string)
    ensures Join(parts + [x], ",") == if parts == [] then x else Join(parts, ",") + "," + x
  {
    if |parts| > 1 {
      assert (parts + [x])[1..] == parts[1..] + [x];
      JoinSnoc(parts[1..], x);
    } else if |parts| == 1 {
      assert (parts + [x])[1..] == [x];
    }
  }

  /** The group a reduction leaves: the folded series under its new name and labels, alone. */
  function ReducedGroup(g: GroupList, labelKey: string, call: ReduceCall, merge: Merge): GroupList
  {
    var name := labelKey + "=" + g.labelValue;
    GroupList(g.labelValue, [MergeAll(merge, call, TempSeries(name), g.list).(
      keyName := name,
      labels := ReducedLabels(labelKey, g.labelValue, call.op, Join(KeyNames(g.list), ",")))])
  }

  /** Every group reduced, keys kept. */
  function ReduceAll(rs: ResultSet, call: ReduceCall, merge: Merge): ResultSet
  {
    rs.(groups := seq(|rs.groups|, i requires 0 <= i < |rs.groups| => ReducedGroup(rs.groups[i], rs.labelKey, call, merge)))
  }

  /**
   * `GroupList_ApplyReducer`: the group's series are folded, in order, into
   * one series named `<labelKey>=<labelValue>`, which becomes the group's
   * only entry; it carries exactly the three reduced labels, the source
   * label holding the key names joined by commas with none trailing. The
   * group holds at least one series (`ResultSet_AddSerie` never creates an
   * empty group, and the replacement writes the list's first slot).
   */
  method GroupApplyReducer(g: GroupList, labelKey: string, call: ReduceCall, merge: Merge) returns (r: GroupList)
    requires g.list != []
    ensures r.labelValue == g.labelValue && |r.list| == 1
    ensures r.list[0].keyName == labelKey + "=" + g.labelValue
    ensures r.list[0].labels == ReducedLabels(labelKey, g.labelValue, call.op, Join(KeyNames(g.list), ","))
    ensures r == ReducedGroup(g, labelKey, call, merge)
  {
    var name := labelKey + "=" + g.labelValue;
    var reduced := TempSeries(name);
    var source := "";
    var i := 0;
    while i < |g.list|
      invariant 0 <= i <= |g.list|
      invariant reduced == MergeAll(merge, call, TempSeries(name), g.list[..i])
      invariant source == Join(KeyNames(g.list[..i]), ",") + (if 0 < i < |g.list| then "," else "")
    {
      reduced := merge(call, reduced, g.list[i]);
      MergeAllSnoc(merge, call, TempSeries(name), g.list[..i], g.list[i]);
      assert g.list[..i + 1] == g.list[..i] + [g.list[i]];
      assert KeyNames(g.list[..i + 1]) == KeyNames(g.list[..i]) + [g.list[i].keyName];
      JoinSnoc(KeyNames(g.list[..i]), g.list[i].keyName);
      source := source + g.list[i].keyName;
      if i < |g.list| - 1 {
        source := source + ",";
      }
      i := i + 1;
    }
    assert g.list[..i] == g.list;
    assert source == Join(KeyNames(g.list), ",");
    r := GroupList(g.labelValue, [reduced.(keyName := name, labels := ReducedLabels(labelKey, g.labelValue, call.op, source))]);
  }

  /** The reduced series still belongs to its group, and its reducer label reads back as the reducer. */
  lemma ReducedLabelsRead(labelKey: string, labelValue: string, op: ReduceOp, source: string)
    requires labelKey != "__reducer__"
    ensures LabelValue(ReducedLabels(labelKey, labelValue, op, source), labelKey) == Some(labelValue)
    ensures LabelValue(ReducedLabels(labelKey, labelValue, op, source), "__reducer__") == Some(ReducerName(op))
    ensures ParseReduceOp(ReducerName(op)) == Some(op)
  {
    ReducerNameRoundTrip(op);
  }

  /** The source label lists the group's key names: commas split it back into the non-empty ones. */
  lemma SourceNamesRoundTrip(list: seq<Series>)
    requires list != []
    requires forall i, k :: 0 <= i < |list| && 0 <= k < |list[i].keyName| ==> list[i].keyName[k] != ','
    ensures Tokens(Join(KeyNames(list), ","), COMMA) == NonEmpty(KeyNames(list))
  {
    TokensOfJoin(KeyNames(list));
  }

  /** Every group holds exactly one series, as `ApplyReducer` leaves them. */
  predicate Reduced(rs: ResultSet)
  {
    forall i :: 0 <= i < |rs.groups| ==> |rs.groups[i].list| == 1
  }

  /**
   * `ResultSet_ApplyReducer`: every group, in key order, is reduced; keys
   * are untouched, so the result set stays valid.
   */
  method ApplyReducer(rs: ResultSet, call: ReduceCall, merge: Merge) returns (r: ResultSet)
    requires Valid(rs)
    ensures r.labelKey == rs.labelKey && |r.groups| == |rs.groups|
    ensures Valid(r) && Reduced(r)
    ensures forall i :: 0 <= i < |r.groups| ==>
      && r.groups[i].labelValue == rs.groups[i].labelValue
      && r.groups[i].list[0].keyName == rs.labelKey + "=" + rs.groups[i].labelValue
      && r.groups[i].list[0].labels == ReducedLabels(rs.labelKey, rs.groups[i].labelValue, call.op, Join(KeyNames(rs.groups[i].list), ","))
    ensures r == ReduceAll(rs, call, merge)
  {
    var groups: seq<GroupList> := [];
    var i := 0;
    while i < |rs.groups|
      invariant 0 <= i <= |rs.groups| && |groups| == i
      invariant forall k :: 0 <= k < i ==>
        && groups[k].labelValue == rs.groups[k].labelValue
        && |groups[k].list| == 1
        && groups[k].list[0].keyName == rs.labelKey + "=" + rs.groups[k].labelValue
        && groups[k].list[0].labels == ReducedLabels(rs.labelKey, rs.groups[k].labelValue, call.op, Join(KeyNames(rs.groups[k].list), ","))
      invariant forall k :: 0 <= k < i ==> groups[k] == ReducedGroup(rs.groups[k], rs.labelKey, call, merge)
    {
      var g := GroupApplyReducer(rs.groups[i], rs.labelKey, call, merge);
      groups := groups + [g];
      i := i + 1;
    }
    r := ResultSet(rs.labelKey, groups);
  }

  /**
   * The reduction as a function: a valid result set stays valid, every
   * group keeps its value and is left with the one reduced series, named
   * after the group and labelled with its sources.
   */
  lemma ReduceAllSpec(rs: ResultSet, call: ReduceCall, merge: Merge)
    requires Valid(rs)
    ensures var r := ReduceAll(rs, call, merge);
      && r.labelKey == rs.labelKey && |r.groups| == |rs.groups|
      && Valid(r) && Reduced(r)
      && forall i :: 0 <= i < |r.groups| ==>
        && r.groups[i].labelValue == rs.groups[i].labelValue
        && r.groups[i].list[0].keyName == rs.labelKey + "=" + rs.groups[i].labelValue
        && r.groups[i].list[0].labels == ReducedLabels(rs.labelKey, rs.groups[i].labelValue, call.op, Join(KeyNames(rs.groups[i].list), ","))
  {
  }

  // ---------------------------------------------------------------------
  // replyResultSet and ResultSet_Free
  // ---------------------------------------------------------------------

  /** The arguments of one `ReplySeriesArrayPos` call. */
  datatype SeriesReply = SeriesReply(
    series: Series,
    withLabels: bool,
    start: Timestamp,
    end: Timestamp,
    agg: Option<Aggregation>,
    maxResults: int,
    rev: bool)

  /** What a reply writer emits: an array header with its declared length, or one per-series entry. */
  datatype Token = Header(len: int) | Entry(call: SeriesReply)

  /** All listed series, group after group, each group's in list order. */
  function Members(groups: seq<GroupList>): seq<Series>
  {
    if groups == [] then [] else groups[0].list + Members(groups[1..])
  }

  /** In a reduced result set the members are the groups' single series, one per group. */
  lemma {:induction false} ReducedMembers(rs: ResultSet)
    requires Reduced(rs)
    ensures |Members(rs.groups)| == |rs.groups|
    ensures forall i :: 0 <= i < |rs.groups| ==> Members(rs.groups)[i] == rs.groups[i].list[0]
    decreases |rs.groups|
  {
    if rs.groups != [] {
      ReducedMembers(rs.(groups := rs.groups[1..]));
      assert forall i :: 1 <= i < |rs.groups| ==> rs.groups[1..][i - 1] == rs.groups[i];
    }
  }

  /**
   * A valid result set declares as many entries as it writes exactly when
   * every group holds one series.
   */
  lemma {:induction false} MembersCount(rs: ResultSet)
    requires Valid(rs)
    ensures |Members(rs.groups)| >= |rs.groups|
    ensures |Members(rs.groups)| == |rs.groups| <==> Reduced(rs)
    decreases |rs.groups|
  {
    if rs.groups != [] {
      var tail := rs.(groups := rs.groups[1..]);
      assert forall i :: 1 <= i < |rs.groups| ==> rs.groups[1..][i - 1] == rs.groups[i];
      assert Valid(tail);
      MembersCount(tail);
      if Reduced(rs) {
        assert Reduced(tail);
      }
      if |Members(rs.groups)| == |rs.groups| {
        assert |rs.groups[0].list| == 1;
        forall i | 0 <= i < |rs.groups| ensures |rs.groups[i].list| == 1 {
          if i > 0 { assert rs.groups[i] == tail.groups[i - 1]; }
        }
      }
    }
  }

  /** The reply tokens of a result set: the header, then one entry per member. */
  function ResultSetReply(rs: ResultSet, withLabels: bool, start: Timestamp, end: Timestamp, agg: Option<Aggregation>, maxResults: int, rev: bool): seq<Token>
  {
    [Header(|rs.groups|)] + Entries(Members(rs.groups), withLabels, start, end, agg, maxResults, rev)
  }

  /** One reply entry per series, in order, all with the same reply arguments. */
  function Entries(series: seq<Series>, withLabels: bool, start: Timestamp, end: Timestamp, agg: Option<Aggregation>, maxResults: int, rev: bool): seq<Token>
  {
    seq(|series|, k requires 0 <= k < |series| => Entry(SeriesReply(series[k], withLabels, start, end, agg, maxResults, rev)))
  }

  /** The entries of one more series. */
  lemma EntriesSnoc(series: seq<Series>, s: Series, withLabels: bool, start: Timestamp, end: Timestamp, agg: Option<Aggregation>, maxResults: int, rev: bool)
    ensures Entries(series + [s], withLabels, start, end, agg, maxResults, rev)
      == Entries(series, withLabels, start, end, agg, maxResults, rev) + [Entry(SeriesReply(s, withLabels, start, end, agg, maxResults, rev))]
  {
  }

  /**
   * `replyResultSet`: an array header declaring one entry per group, then,
   * group by group in key order, one entry per listed series with the
   * given reply arguments.
   */
  method ReplyResultSet(rs: ResultSet, withLabels: bool, start: Timestamp, end: Timestamp, agg: Option<Aggregation>, maxResults: int, rev: bool)
    returns (tokens: seq<Token>)
    ensures |tokens| == 1 + |Members(rs.groups)| && tokens[0] == Header(|rs.groups|)
    ensures forall k :: 0 <= k < |Members(rs.groups)| ==>
      tokens[k + 1] == Entry(SeriesReply(Members(rs.groups)[k], withLabels, start, end, agg, maxResults, rev))
    ensures tokens == ResultSetReply(rs, withLabels, start, end, agg, maxResults, rev)
  {
    tokens := [Header(|rs.groups|)];
    var written: seq<Series> := [];
    var i := 0;
    while i < |rs.groups|
      invariant 0 <= i <= |rs.groups|
      invariant written + Members(rs.groups[i..]) == Members(rs.groups)
      invariant tokens == [Header(|rs.groups|)] + Entries(written, withLabels, start, end, agg, maxResults, rev)
    {
      var g := rs.groups[i];
      EnterGroup(written, rs.groups, i);
      var j := 0;
      while j < |g.list|
        invariant 0 <= j <= |g.list|
        invariant written + g.list[j..] + Members(rs.groups[i + 1..]) == Members(rs.groups)
        invariant tokens == [Header(|rs.groups|)] + Entries(written, withLabels, start, end, agg, maxResults, rev)
      {
        EntriesSnoc(written, g.list[j], withLabels, start, end, agg, maxResults, rev);
        ConcatAssoc([Header(|rs.groups|)], Entries(written, withLabels, start, end, agg, maxResults, rev), [Entry(SeriesReply(g.list[j], withLabels, start, end, agg, maxResults, rev))]);
        tokens := tokens + [Entry(SeriesReply(g.list[j], withLabels, start, end, agg, maxResults, rev))];
        TakeOne(written, g.list, j, Members(rs.groups[i + 1..]));
        written := written + [g.list[j]];
        j := j + 1;
      }
      LeaveGroup(written, g.list, Members(rs.groups[i + 1..]));
      i := i + 1;
    }
    AllTaken(written, rs.groups);
  }

  /** Starting on group `i`: its list is next in line, before the later groups. */
  lemma EnterGroup(done: seq<Series>, groups: seq<GroupList>, i: nat)
    requires i < |groups|
    ensures done + Members(groups[i..]) == done + groups[i].list[0..] + Members(groups[i + 1..])
  {
    assert groups[i..][1..] == groups[i + 1..];
    ConcatAssoc(done, groups[i].list, Members(groups[i + 1..]));
  }

  /** Taking one more listed series. */
  lemma TakeOne(done: seq<Series>, list: seq<Series>, j: nat, rest: seq<Series>)
    requires j < |list|
    ensures done + list[j..] + rest == (done + [list[j]]) + list[j + 1..] + rest
  {
    ConsSlice(list, j);
    ConcatAssoc(done, [list[j]], list[j + 1..]);
  }

  /** A group's list, all taken. */
  lemma LeaveGroup(done: seq<Series>, list: seq<Series>, rest: seq<Series>)
    ensures done + list[|list|..] + rest == done + rest
  {
    EmptyConcat(done);
  }

  /** Past the last group nothing is left. */
  lemma AllTaken(done: seq<Series>, groups: seq<GroupList>)
    ensures done + Members(groups[|groups|..]) == done
  {
    EmptyConcat(done);
  }

  /**
   * `ResultSet_Free`: every group, in key order, frees the series it lists
   * now (`GroupList_Free` walks `count` entries): each listed series is
   * freed once, and nothing else.
   */
  method Free(rs: ResultSet) returns (freed: seq<Series>)
    ensures freed == Members(rs.groups)
  {
    freed := [];
    var i := 0;
    while i < |rs.groups|
      invariant 0 <= i <= |rs.groups|
      invariant freed + Members(rs.groups[i..]) == Members(rs.groups)
    {
      var list := rs.groups[i].list;
      EnterGroup(freed, rs.groups, i);
      var j := 0;
      while j < |list|
        invariant 0 <= j <= |list|
        invariant freed + list[j..] + Members(rs.groups[i + 1..]) == Members(rs.groups)
      {
        TakeOne(freed, list, j, Members(rs.groups[i + 1..]));
        freed := freed + [list[j]];
        j := j + 1;
      }
      LeaveGroup(freed, list, Members(rs.groups[i + 1..]));
      i := i + 1;
    }
    AllTaken(freed, rs.groups);
  }
}

=== FILE: series_iterator.dfy ===
/**
 * Range iteration over a chunked series (src/series_iterator.c): the
 * start-chunk seek of `SeriesQuery`, the forward and reverse scans of
 * `_seriesIteratorGetNext`, and the time-bucket aggregation of
 * `SeriesIteratorGetNextAggregated`.
 *
 * The iterator is stateful in the module, handing out one sample per
 * call; here a scan is the whole sequence of samples the calls hand out
 * until the first CR_END. Chunk decoding never fails, so CR_ERR is not
 * produced.
 */
module SeriesIterator {

  import opened Common
  import opened Tsdb

  // ---------------------------------------------------------------------
  // The reference: the samples of a range, in order
  // ---------------------------------------------------------------------

  /** The samples of `s` with `min <= timestamp <= max`, in their order. */
  function Filter(s: seq<Sample>, min: Timestamp, max: Timestamp): (r: seq<Sample>)
    ensures |r| <= |s|
    ensures forall k :: 0 <= k < |r| ==> min <= r[k].timestamp <= max && r[k] in s
  {
    if s == [] then []
    else (if min <= s[0].timestamp <= max then [s[0]] else []) + Filter(s[1..], min, max)
  }

  /** Every timestamp of `s` is above `t`. */
  predicate Above(s: seq<Sample>, t: int)
  {
    forall k :: 0 <= k < |s| ==> s[k].timestamp > t
  }

  /** Every timestamp of `s` is below `t`. */
  predicate Below(s: seq<Sample>, t: int)
  {
    forall k :: 0 <= k < |s| ==> s[k].timestamp < t
  }

  lemma {:induction false} FilterConcat(a: seq<Sample>, b: seq<Sample>, min: Timestamp, max: Timestamp)
    ensures Filter(a + b, min, max) == Filter(a, min, max) + Filter(b, min, max)
  {
    if a == [] {
      assert a + b == b;
    } else {
      assert (a + b)[0] == a[0];
      assert (a + b)[1..] == a[1..] + b;
      FilterConcat(a[1..], b, min, max);
    }
  }

  lemma {:induction false} FilterAbove(s: seq<Sample>, min: Timestamp, max: Timestamp)
    requires Above(s, max)
    ensures Filter(s, min, max) == []
  {
    if s != [] {
      FilterAbove(s[1..], min, max);
    }
  }

  lemma {:induction false} FilterBelow(s: seq<Sample>, min: Timestamp, max: Timestamp)
    requires Below(s, min)
    ensures Filter(s, min, max) == []
  {
    if s != [] {
      FilterBelow(s[1..], min, max);
    }
  }

  lemma {:induction false} FlattenConcat(a: seq<Chunk>, b: seq<Chunk>)
    ensures Flatten(a + b) == Flatten(a) + Flatten(b)
  {
    if a == [] {
      assert a + b == b;
    } else {
      assert (a + b)[0] == a[0];
      assert (a + b)[1..] == a[1..] + b;
      FlattenConcat(a[1..], b);
    }
  }

  /** Chunks whose samples are all above `t` flatten to samples above `t`. */
  lemma {:induction false} FlattenAbove(cs: seq<Chunk>, t: int)
    requires forall j :: 0 <= j < |cs| ==> Above(cs[j].samples, t)
    ensures Above(Flatten(cs), t)
  {
    if cs != [] {
      FlattenAbove(cs[1..], t);
    }
  }

  /** Chunks whose samples are all below `t` flatten to samples below `t`. */
  lemma {:induction false} FlattenBelow(cs: seq<Chunk>, t: int)
    requires forall j :: 0 <= j < |cs| ==> Below(cs[j].samples, t)
    ensures Below(Flatten(cs), t)
  {
    if cs != [] {
      FlattenBelow(cs[1..], t);
    }
  }

  /** The samples from position `i` of chunk `c` to the end of the series. */
  function Rest(chunks: seq<Chunk>, c: nat, i: nat): seq<Sample>
    requires c < |chunks| && i <= |chunks[c].samples|
  {
    chunks[c].samples[i..] + Flatten(chunks[c + 1..])
  }

  /** The samples from the start of the series up to, not including, position `i` of chunk `c`. */
  function Upto(chunks: seq<Chunk>, c: nat, i: nat): seq<Sample>
    requires c < |chunks| && i <= |chunks[c].samples|
  {
    Flatten(chunks[..c]) + chunks[c].samples[..i]
  }

  /** The series is its samples before chunk `c`, then chunk `c`, then the rest. */
  lemma FlattenAt(chunks: seq<Chunk>, c: nat)
    requires c < |chunks|
    ensures Flatten(chunks) == Flatten(chunks[..c]) + chunks[c].samples + Flatten(chunks[c + 1..])
    ensures Flatten(chunks[..c + 1]) == Flatten(chunks[..c]) + chunks[c].samples
  {
    assert chunks == chunks[..c] + chunks[c..];
    FlattenConcat(chunks[..c], chunks[c..]);
    assert chunks[c..][1..] == chunks[c + 1..];
    assert chunks[..c + 1] == chunks[..c] + [chunks[c]];
    FlattenConcat(chunks[..c], [chunks[c]]);
  }

  /** In a well-formed series every sample of a chunk lies between the chunk's first and last timestamps. */
  lemma ChunkBounds(chunks: seq<Chunk>, c: nat)
    requires WellFormedChunks(chunks) && c < |chunks|
    ensures forall k :: 0 <= k < |chunks[c].samples| ==>
      ChunkFirst(chunks[c]) <= chunks[c].samples[k].timestamp <= ChunkLast(chunks[c])
  {
    var s := chunks[c].samples;
    assert StrictlyIncreasing(s);
    forall k | 0 <= k < |s| ensures ChunkFirst(chunks[c]) <= s[k].timestamp <= ChunkLast(chunks[c]) {
      if 0 < k { assert s[0].timestamp < s[k].timestamp; }
      if k < |s| - 1 { assert s[k].timestamp < s[|s| - 1].timestamp; }
    }
  }

  // ---------------------------------------------------------------------
  // SeriesQuery: the start chunk
  // ---------------------------------------------------------------------

  /** The last of the first `n` chunks whose key is at most `key`, or -1. */
  function LastKeyAtMost(chunks: seq<Chunk>, key: Timestamp, n: nat): (r: int)
    requires n <= |chunks|
    ensures -1 <= r < n
    ensures r >= 0 ==> chunks[r].key <= key
    ensures forall j :: r < j < n ==> chunks[j].key > key
  {
    if n == 0 then -1
    else if chunks[n - 1].key <= key then n - 1
    else LastKeyAtMost(chunks, key, n - 1)
  }

  /**
   * The chunk `SeriesQuery` starts from: a `<=` seek on `key` lands on the
   * chunk with the greatest key at most `key`; when there is none, the
   * iterator is reseeked to the first chunk.
   */
  function StartChunk(chunks: seq<Chunk>, key: Timestamp): (c: nat)
    requires |chunks| >= 1
    ensures c < |chunks|
    ensures c > 0 ==> chunks[c].key <= key
    ensures forall j :: c < j < |chunks| ==> chunks[j].key > key
    ensures chunks[0].key <= key ==> chunks[c].key <= key
  {
    var r := LastKeyAtMost(chunks, key, |chunks|);
    if r < 0 then 0 else r
  }

  // ---------------------------------------------------------------------
  // _seriesIteratorGetNext
  // ---------------------------------------------------------------------

  /**
   * The forward scan from sample `i` of chunk `c`: samples before `min`
   * are skipped, the first sample after `max` ends the scan. At the end
   * of a chunk the next chunk is taken unless there is none, it starts
   * after `max` or it ends before `min`.
   */
  function Forward(chunks: seq<Chunk>, c: nat, i: nat, min: Timestamp, max: Timestamp): seq<Sample>
    requires c < |chunks| && i <= |chunks[c].samples|
    decreases |chunks| - c, |chunks[c].samples| - i
  {
    if i == |chunks[c].samples| then
      if c + 1 == |chunks| || ChunkFirst(chunks[c + 1]) > max || ChunkLast(chunks[c + 1]) < min then []
      else if chunks[c + 1].samples == [] then []
      else Forward(chunks, c + 1, 0, min, max)
    else
      var x := chunks[c].samples[i];
      if x.timestamp < min then Forward(chunks, c, i + 1, min, max)
      else if x.timestamp > max then []
      else [x] + Forward(chunks, c, i + 1, min, max)
  }

  /**
   * The reverse scan, reading sample `i - 1` of chunk `c` next: samples
   * after `max` are skipped, the first sample before `min` ends the scan.
   * At the start of a chunk the previous chunk is taken under the same
   * three conditions as going forward.
   */
  function Backward(chunks: seq<Chunk>, c: nat, i: nat, min: Timestamp, max: Timestamp): seq<Sample>
    requires c < |chunks| && i <= |chunks[c].samples|
    decreases c, i
  {
    if i == 0 then
      if c == 0 || ChunkFirst(chunks[c - 1]) > max || ChunkLast(chunks[c - 1]) < min then []
      else if chunks[c - 1].samples == [] then []
      else Backward(chunks, c - 1, |chunks[c - 1].samples|, min, max)
    else
      var x := chunks[c].samples[i - 1];
      if x.timestamp > max then Backward(chunks, c, i - 1, min, max)
      else if x.timestamp < min then []
      else [x] + Backward(chunks, c, i - 1, min, max)
  }

  /**
   * `SeriesQuery` followed by `_seriesIteratorGetNext` until CR_END: a
   * forward scan starts at the chunk found for `min`, a reverse one at
   * the chunk found for `max`, from its last sample.
   */
  function Scan(chunks: seq<Chunk>, min: Timestamp, max: Timestamp, rev: bool): seq<Sample>
    requires |chunks| >= 1
  {
    if !rev then Forward(chunks, StartChunk(chunks, min), 0, min, max)
    else
      var s := StartChunk(chunks, max);
      Backward(chunks, s, |chunks[s].samples|, min, max)
  }

  // ---------------------------------------------------------------------
  // The scans yield exactly the samples of the range
  // ---------------------------------------------------------------------

  lemma AboveConcat(a: seq<Sample>, b: seq<Sample>, t: int)
    requires Above(a, t) && Above(b, t)
    ensures Above(a + b, t)
  {
    assert forall k :: 0 <= k < |a + b| ==> (a + b)[k] == if k < |a| then a[k] else b[k - |a|];
  }

  lemma BelowConcat(a: seq<Sample>, b: seq<Sample>, t: int)
    requires Below(a, t) && Below(b, t)
    ensures Below(a + b, t)
  {
    assert forall k :: 0 <= k < |a + b| ==> (a + b)[k] == if k < |a| then a[k] else b[k - |a|];
  }

  /** Chunk `c` and every later chunk hold only samples above `t` when chunk `c` starts above `t`. */
  lemma SuffixAbove(chunks: seq<Chunk>, c: nat, t: int)
    requires WellFormedChunks(chunks) && c < |chunks|
    requires chunks[c].samples != [] && t < ChunkFirst(chunks[c])
    ensures Above(Flatten(chunks[c..]), t)
  {
    var cs := chunks[c..];
    forall j | 0 <= j < |cs| ensures Above(cs[j].samples, t) {
      ChunkBounds(chunks, c + j);
      if j > 0 {
        ChunkBounds(chunks, c);
        assert ChunkLast(chunks[c]) < ChunkFirst(chunks[c + j]);
      }
    }
    FlattenAbove(cs, t);
  }

  /** Chunk `c` and every earlier chunk hold only samples below `t` when chunk `c` ends below `t`. */
  lemma PrefixBelow(chunks: seq<Chunk>, c: nat, t: int)
    requires WellFormedChunks(chunks) && c < |chunks|
    requires chunks[c].samples != [] && ChunkLast(chunks[c]) < t
    ensures Below(Flatten(chunks[..c + 1]), t)
  {
    var cs := chunks[..c + 1];
    forall j | 0 <= j < |cs| ensures Below(cs[j].samples, t) {
      ChunkBounds(chunks, j);
      if j < c {
        ChunkBounds(chunks, c);
        assert ChunkLast(chunks[j]) < ChunkFirst(chunks[c]);
      }
    }
    FlattenBelow(cs, t);
  }

  /** Filtering a sample followed by more samples. */
  lemma FilterCons(x: Sample, r: seq<Sample>, min: Timestamp, max: Timestamp)
    ensures Filter([x] + r, min, max) == (if min <= x.timestamp <= max then [x] else []) + Filter(r, min, max)
  {
    assert ([x] + r)[0] == x;
    assert ([x] + r)[1..] == r;
  }

  /** At the end of chunk `c` the forward scan either stops with nothing left in range, or moves on to chunk `c + 1`. */
  lemma ForwardChunkEnd(chunks: seq<Chunk>, c: nat, min: Timestamp, max: Timestamp)
    requires WellFormedChunks(chunks) && c < |chunks|
    requires forall j :: c < j < |chunks| ==> chunks[j].key > min
    ensures var e := |chunks[c].samples|;
      if c + 1 < |chunks| && ChunkFirst(chunks[c + 1]) <= max then
        Forward(chunks, c, e, min, max) == Forward(chunks, c + 1, 0, min, max)
        && Rest(chunks, c, e) == Rest(chunks, c + 1, 0)
      else
        Forward(chunks, c, e, min, max) == [] && Filter(Rest(chunks, c, e), min, max) == []
  {
    var e := |chunks[c].samples|;
    assert chunks[c].samples[e..] == [];
    assert Rest(chunks, c, e) == Flatten(chunks[c + 1..]);
    if c + 1 < |chunks| {
      var n := chunks[c + 1];
      ChunkBounds(chunks, c + 1);
      assert n.samples != [];
      assert ChunkLast(n) >= ChunkFirst(n) == n.key > min;
      assert chunks[c + 1..][1..] == chunks[c + 2..];
      assert n.samples[0..] == n.samples;
      assert Flatten(chunks[c + 1..]) == Rest(chunks, c + 1, 0);
      if ChunkFirst(n) > max {
        SuffixAbove(chunks, c + 1, max);
        FilterAbove(Flatten(chunks[c + 1..]), min, max);
      }
    } else {
      assert chunks[c + 1..] == [];
    }
  }

  /** A sample after `max` inside chunk `c` ends the forward scan, and nothing from it on is in range. */
  lemma ForwardPastMax(chunks: seq<Chunk>, c: nat, i: nat, min: Timestamp, max: Timestamp)
    requires WellFormedChunks(chunks) && c < |chunks| && i < |chunks[c].samples|
    requires min <= chunks[c].samples[i].timestamp && chunks[c].samples[i].timestamp > max
    ensures Forward(chunks, c, i, min, max) == []
    ensures Filter(Rest(chunks, c, i), min, max) == []
  {
    var s := chunks[c].samples;
    assert Above(s[i..], max) by {
      assert StrictlyIncreasing(s);
      assert forall k :: i < k < |s| ==> s[i].timestamp < s[k].timestamp;
    }
    if c + 1 < |chunks| {
      ChunkBounds(chunks, c);
      assert ChunkLast(chunks[c]) < ChunkFirst(chunks[c + 1]);
      SuffixAbove(chunks, c + 1, max);
    } else {
      assert chunks[c + 1..] == [];
    }
    AboveConcat(s[i..], Flatten(chunks[c + 1..]), max);
    FilterAbove(Rest(chunks, c, i), min, max);
  }

  /** Inside chunk `c`, the rest of the series is the current sample followed by the rest after it. */
  lemma RestStep(chunks: seq<Chunk>, c: nat, i: nat)
    requires c < |chunks| && i < |chunks[c].samples|
    ensures Rest(chunks, c, i) == [chunks[c].samples[i]] + Rest(chunks, c, i + 1)
  {
    var s := chunks[c].samples;
    assert s[i..] == [s[i]] + s[i + 1..];
  }

  /**
   * From any position, the forward scan yields the in-range samples of the
   * rest of the series, provided no later chunk is keyed at or before `min`.
   */
  lemma {:induction false} ForwardIsFilter(chunks: seq<Chunk>, c: nat, i: nat, min: Timestamp, max: Timestamp)
    requires WellFormedChunks(chunks)
    requires c < |chunks| && i <= |chunks[c].samples|
    requires forall j :: c < j < |chunks| ==> chunks[j].key > min
    ensures Forward(chunks, c, i, min, max) == Filter(Rest(chunks, c, i), min, max)
    decreases |chunks| - c, |chunks[c].samples| - i
  {
    if i == |chunks[c].samples| {
      ForwardChunkEnd(chunks, c, min, max);
      if c + 1 < |chunks| && ChunkFirst(chunks[c + 1]) <= max {
        ForwardIsFilter(chunks, c + 1, 0, min, max);
      }
    } else {
      var x := chunks[c].samples[i];
      RestStep(chunks, c, i);
      FilterCons(x, Rest(chunks, c, i + 1), min, max);
      if min <= x.timestamp && x.timestamp > max {
        ForwardPastMax(chunks, c, i, min, max);
      } else {
        ForwardIsFilter(chunks, c, i + 1, min, max);
      }
    }
  }

  /** Inside chunk `c`, the samples up to position `i` are those up to `i - 1` followed by sample `i - 1`. */
  lemma UptoStep(chunks: seq<Chunk>, c: nat, i: nat)
    requires c < |chunks| && 0 < i <= |chunks[c].samples|
    ensures Upto(chunks, c, i) == Upto(chunks, c, i - 1) + [chunks[c].samples[i - 1]]
  {
    var s := chunks[c].samples;
    assert s[..i] == s[..i - 1] + [s[i - 1]];
  }

  /** Reversing the in-range samples of a sequence extended by one sample. */
  lemma ReverseFilterSnoc(a: seq<Sample>, x: Sample, min: Timestamp, max: Timestamp)
    ensures Reverse(Filter(a + [x], min, max))
      == (if min <= x.timestamp <= max then [x] else []) + Reverse(Filter(a, min, max))
  {
    FilterConcat(a, [x], min, max);
    assert Filter([x], min, max) == if min <= x.timestamp <= max then [x] else [] by {
      FilterCons(x, [], min, max);
      assert [x] + [] == [x];
    }
    var f := Filter(a, min, max);
    if min <= x.timestamp <= max {
      assert (f + [x])[..|f|] == f;
    } else {
      assert f + [] == f;
    }
  }

  /** At the start of chunk `c` the reverse scan either stops with nothing left in range, or moves back to chunk `c - 1`. */
  lemma BackwardChunkStart(chunks: seq<Chunk>, c: nat, min: Timestamp, max: Timestamp)
    requires WellFormedChunks(chunks) && c < |chunks|
    requires forall j :: 0 <= j < c ==> ChunkFirst(chunks[j]) <= max
    ensures c > 0 ==> Upto(chunks, c, 0) == Upto(chunks, c - 1, |chunks[c - 1].samples|)
    ensures if c > 0 && ChunkLast(chunks[c - 1]) >= min then
        Backward(chunks, c, 0, min, max) == Backward(chunks, c - 1, |chunks[c - 1].samples|, min, max)
      else
        Backward(chunks, c, 0, min, max) == [] && Filter(Upto(chunks, c, 0), min, max) == []
  {
    assert chunks[c].samples[..0] == [];
    assert Upto(chunks, c, 0) == Flatten(chunks[..c]);
    if c > 0 {
      var p := chunks[c - 1];
      assert p.samples != [];
      FlattenAt(chunks, c - 1);
      assert p.samples[..|p.samples|] == p.samples;
      if ChunkLast(p) < min {
        PrefixBelow(chunks, c - 1, min);
        FilterBelow(Flatten(chunks[..c]), min, max);
      }
    } else {
      assert chunks[..c] == [];
    }
  }

  /** A sample before `min` inside chunk `c` ends the reverse scan, and nothing up to it is in range. */
  lemma BackwardPastMin(chunks: seq<Chunk>, c: nat, i: nat, min: Timestamp, max: Timestamp)
    requires WellFormedChunks(chunks) && c < |chunks| && 0 < i <= |chunks[c].samples|
    requires chunks[c].samples[i - 1].timestamp <= max && chunks[c].samples[i - 1].timestamp < min
    ensures Backward(chunks, c, i, min, max) == []
    ensures Filter(Upto(chunks, c, i), min, max) == []
  {
    var s := chunks[c].samples;
    assert Below(s[..i], min) by {
      assert StrictlyIncreasing(s);
      assert forall k :: 0 <= k < i - 1 ==> s[k].timestamp < s[i - 1].timestamp;
    }
    if c > 0 {
      ChunkBounds(chunks, c);
      assert ChunkLast(chunks[c - 1]) < ChunkFirst(chunks[c]);
      assert chunks[c - 1].samples != [];
      PrefixBelow(chunks, c - 1, min);
    } else {
      assert chunks[..c] == [];
    }
    BelowConcat(Flatten(chunks[..c]), s[..i], min);
    FilterBelow(Upto(chunks, c, i), min, max);
  }

  /**
   * From any position, the reverse scan yields the in-range samples before
   * that position, latest first, provided no earlier chunk starts after `max`.
   */
  lemma {:induction false} BackwardIsFilter(chunks: seq<Chunk>, c: nat, i: nat, min: Timestamp, max: Timestamp)
    requires WellFormedChunks(chunks)
    requires c < |chunks| && i <= |chunks[c].samples|
    requires forall j :: 0 <= j < c ==> ChunkFirst(chunks[j]) <= max
    ensures Backward(chunks, c, i, min, max) == Reverse(Filter(Upto(chunks, c, i), min, max))
    decreases c, i
  {
    if i == 0 {
      BackwardChunkStart(chunks, c, min, max);
      if c > 0 && ChunkLast(chunks[c - 1]) >= min {
        BackwardIsFilter(chunks, c - 1, |chunks[c - 1].samples|, min, max);
      }
    } else {
      var x := chunks[c].samples[i - 1];
      if x.timestamp <= max && x.timestamp < min {
        BackwardPastMin(chunks, c, i, min, max);
      } else {
        BackwardIsFilter(chunks, c, i - 1, min, max);
        BackwardStep(chunks, c, i, min, max);
        UptoStep(chunks, c, i);
        ReverseFilterSnoc(Upto(chunks, c, i - 1), x, min, max);
      }
    }
  }

  /** Inside a chunk, a sample not before `min` is yielded when in range and skipped otherwise. */
  lemma BackwardStep(chunks: seq<Chunk>, c: nat, i: nat, min: Timestamp, max: Timestamp)
    requires c < |chunks| && 0 < i <= |chunks[c].samples|
    requires var x := chunks[c].samples[i - 1]; !(x.timestamp <= max && x.timestamp < min)
    ensures var x := chunks[c].samples[i - 1];
      Backward(chunks, c, i, min, max) == (if min <= x.timestamp <= max then [x] else []) + Backward(chunks, c, i - 1, min, max)
  {
    EmptyConcat(Backward(chunks, c, i - 1, min, max));
  }

  /** A forward scan from a chunk keyed at or before `min`, with every later chunk keyed after it, covers the whole range. */
  lemma ForwardFromStart(chunks: seq<Chunk>, s: nat, min: Timestamp, max: Timestamp)
    requires WellFormedChunks(chunks) && s < |chunks|
    requires s > 0 ==> chunks[s].key <= min
    requires forall j :: s < j < |chunks| ==> chunks[j].key > min
    ensures Forward(chunks, s, 0, min, max) == Filter(Flatten(chunks), min, max)
  {
    ForwardIsFilter(chunks, s, 0, min, max);
    FlattenAtStart(chunks, s);
    PrefixOutOfRange(chunks, s, min, max);
    FilterConcat(Flatten(chunks[..s]), Rest(chunks, s, 0), min, max);
    EmptyConcat(Filter(Rest(chunks, s, 0), min, max));
  }

  /** The series is the chunks before `s` followed by everything from the start of chunk `s`. */
  lemma FlattenAtStart(chunks: seq<Chunk>, s: nat)
    requires s < |chunks|
    ensures Flatten(chunks) == Flatten(chunks[..s]) + Rest(chunks, s, 0)
  {
    FlattenAt(chunks, s);
    assert chunks[s].samples[0..] == chunks[s].samples;
    ConcatAssoc(Flatten(chunks[..s]), chunks[s].samples, Flatten(chunks[s + 1..]));
  }

  /** Before a chunk keyed at or before `min`, nothing is in range. */
  lemma PrefixOutOfRange(chunks: seq<Chunk>, s: nat, min: Timestamp, max: Timestamp)
    requires WellFormedChunks(chunks) && s < |chunks|
    requires s > 0 ==> chunks[s].key <= min
    ensures Filter(Flatten(chunks[..s]), min, max) == []
  {
    if s > 0 {
      assert chunks[s - 1].samples != [];
      assert ChunkLast(chunks[s - 1]) < ChunkFirst(chunks[s]);
      PrefixBelow(chunks, s - 1, min);
      FilterBelow(Flatten(chunks[..s]), min, max);
    } else {
      assert chunks[..s] == [];
    }
  }

  /** Every chunk before one keyed at or before `t` starts at or before `t`. */
  lemma EarlierChunksStartBy(chunks: seq<Chunk>, s: nat, t: Timestamp)
    requires WellFormedChunks(chunks) && s < |chunks|
    requires s > 0 ==> chunks[s].key <= t
    ensures forall j :: 0 <= j < s ==> ChunkFirst(chunks[j]) <= t
  {
    forall j | 0 <= j < s ensures ChunkFirst(chunks[j]) <= t {
      ChunkBounds(chunks, j);
      assert chunks[j].samples != [];
      assert ChunkLast(chunks[j]) < ChunkFirst(chunks[s]);
    }
  }

  /** Chunks keyed after `max` contribute nothing to the range, so the range lies in the chunks up to `s`. */
  lemma RangeUpToChunk(chunks: seq<Chunk>, s: nat, min: Timestamp, max: Timestamp)
    requires WellFormedChunks(chunks) && s < |chunks|
    requires forall j :: s < j < |chunks| ==> chunks[j].key > max
    ensures Filter(Flatten(chunks), min, max) == Filter(Upto(chunks, s, |chunks[s].samples|), min, max)
  {
    var e := |chunks[s].samples|;
    FlattenAt(chunks, s);
    assert chunks[s].samples[..e] == chunks[s].samples;
    assert Upto(chunks, s, e) == Flatten(chunks[..s + 1]);
    if s + 1 < |chunks| {
      ChunkBounds(chunks, s + 1);
      SuffixAbove(chunks, s + 1, max);
      FilterAbove(Flatten(chunks[s + 1..]), min, max);
    } else {
      assert chunks[s + 1..] == [];
    }
    assert Flatten(chunks) == Upto(chunks, s, e) + Flatten(chunks[s + 1..]);
    FilterConcat(Upto(chunks, s, e), Flatten(chunks[s + 1..]), min, max);
  }

  /** A reverse scan from the end of a chunk keyed at or before `max`, with every later chunk keyed after it, covers the whole range. */
  lemma BackwardFromStart(chunks: seq<Chunk>, s: nat, min: Timestamp, max: Timestamp)
    requires WellFormedChunks(chunks) && s < |chunks|
    requires s > 0 ==> chunks[s].key <= max
    requires forall j :: s < j < |chunks| ==> chunks[j].key > max
    ensures Backward(chunks, s, |chunks[s].samples|, min, max) == Reverse(Filter(Flatten(chunks), min, max))
  {
    EarlierChunksStartBy(chunks, s, max);
    BackwardIsFilter(chunks, s, |chunks[s].samples|, min, max);
    RangeUpToChunk(chunks, s, min, max);
  }

  /** A forward range query yields exactly the samples of the series in `[min, max]`, in time order. */
  lemma ScanForward(chunks: seq<Chunk>, min: Timestamp, max: Timestamp)
    requires WellFormedChunks(chunks)
    ensures Scan(chunks, min, max, false) == Filter(Flatten(chunks), min, max)
  {
    ForwardFromStart(chunks, StartChunk(chunks, min), min, max);
  }

  /** A reverse range query yields exactly the samples of the series in `[min, max]`, latest first. */
  lemma ScanReverse(chunks: seq<Chunk>, min: Timestamp, max: Timestamp)
    requires WellFormedChunks(chunks)
    ensures Scan(chunks, min, max, true) == Reverse(Filter(Flatten(chunks), min, max))
  {
    BackwardFromStart(chunks, StartChunk(chunks, max), min, max);
  }

  // ---------------------------------------------------------------------
  // SeriesIteratorGetNextAggregated: time buckets
  // ---------------------------------------------------------------------

  /** The start of the time bucket of width `delta` holding `t`. */
  function Bucket(t: Timestamp, delta: nat): Timestamp
    requires delta > 0
  {
    t - t % delta
  }

  lemma MulNonNeg(a: int, b: int)
    requires a >= 0 && b >= 0
    ensures a * b >= 0
  {
  }

  /** Euclidean division has one quotient and one remainder. */
  lemma DivModUnique(n: int, delta: int, q: int, r: int)
    requires delta > 0 && n == q * delta + r && 0 <= r < delta
    ensures n % delta == r && n / delta == q
  {
    var q', r' := n / delta, n % delta;
    assert n == q' * delta + r';
    assert (q - q') * delta == r' - r;
    if q > q' {
      MulNonNeg(q - q' - 1, delta);
    } else if q < q' {
      MulNonNeg(q' - q - 1, delta);
    }
  }

  /** A bucket start is a multiple of the width, and the bucket holds its timestamp. */
  lemma BucketAligned(t: Timestamp, delta: nat)
    requires delta > 0
    ensures Bucket(t, delta) % delta == 0
    ensures Bucket(t, delta) <= t < Bucket(t, delta) + delta
  {
    var q := t / delta;
    assert t == q * delta + t % delta;
    DivModUnique(Bucket(t, delta), delta, q, 0);
  }

  /** A timestamp inside the bucket starting at an aligned `b` belongs to that bucket. */
  lemma BucketOf(t: Timestamp, b: Timestamp, delta: nat)
    requires delta > 0 && b % delta == 0 && b <= t < b + delta
    ensures Bucket(t, delta) == b
  {
    var k := b / delta;
    assert b == k * delta + b % delta;
    DivModUnique(t, delta, k, t - b);
  }

  /**
   * The aggregation part of the iterator: how far the raw samples have
   * been consumed, the current bucket start, whether no sample has been
   * seen yet, the values appended to the aggregation context since its
   * last reset, and whether the last bucket has been flushed.
   */
  datatype AggState = AggState(pos: nat, last: Timestamp, isFirst: bool, pending: seq<Value>, finalized: bool)

  /** The states the iterator can be in over `raw`. */
  predicate ValidAgg(raw: seq<Sample>, delta: nat, st: AggState)
  {
    && delta > 0
    && st.pos <= |raw|
    && st.last % delta == 0
    && (st.isFirst ==> st.pos == 0 && st.pending == [] && !st.finalized)
    && (st.finalized ==> st.pos == |raw|)
  }

  /** `SeriesQuery`'s aggregation set-up: the bucket of the start chunk's first (last, in reverse) timestamp. */
  function InitAgg(initTs: Timestamp, delta: nat): (st: AggState)
    requires delta > 0
    ensures st.isFirst && st.pos == 0 && st.pending == [] && !st.finalized
    ensures st.last % delta == 0 && st.last <= initTs < st.last + delta
  {
    BucketAligned(initTs, delta);
    AggState(0, Bucket(initTs, delta), true, [], false)
  }

  /** A raw sample closes the current bucket: going forward it is past the bucket, in reverse before it. */
  predicate Crosses(ts: Timestamp, last: Timestamp, delta: nat, rev: bool)
  {
    if !rev then ts >= last + delta else ts < last
  }

  /**
   * One call of `SeriesIteratorGetNextAggregated`: raw samples are appended
   * to the context until one crosses into another bucket, which hands out
   * the finished bucket; at the end of the raw samples the open bucket is
   * flushed once. A sample is the bucket start and the finalized value.
   */
  function NextAggregated(raw: seq<Sample>, delta: nat, rev: bool, finalize: seq<Value> -> Value, st: AggState): (r: (Option<Sample>, AggState))
    requires ValidAgg(raw, delta, st)
    ensures ValidAgg(raw, delta, r.1)
    ensures r.0.None? <==> st.finalized || (st.isFirst && |raw| == 0)
    ensures r.0.None? ==> r.1 == st
    ensures r.0.Some? ==> r.0.value.timestamp % delta == 0 && (st.pos < r.1.pos || r.1.finalized)
    ensures r.0.Some? && !st.isFirst ==> r.0.value.timestamp == st.last
    ensures st.pos <= r.1.pos
    decreases |raw| - st.pos
  {
    if st.pos == |raw| then
      if st.finalized || st.isFirst then (None, st)
      else (Some(Sample(st.last, finalize(st.pending))), st.(finalized := true))
    else
      var x := raw[st.pos];
      var cross := Crosses(x.timestamp, st.last, delta, rev);
      var emit := cross && !st.isFirst;
      BucketAligned(x.timestamp, delta);
      var st' := AggState(
        st.pos + 1,
        if cross then Bucket(x.timestamp, delta) else st.last,
        false,
        (if emit then [] else st.pending) + [x.value],
        false);
      if emit then (Some(Sample(st.last, finalize(st.pending))), st')
      else NextAggregated(raw, delta, rev, finalize, st')
  }

  /** Calling `SeriesIteratorGetNextAggregated` until it reports CR_END. */
  function Drain(raw: seq<Sample>, delta: nat, rev: bool, finalize: seq<Value> -> Value, st: AggState): seq<Sample>
    requires ValidAgg(raw, delta, st)
    decreases |raw| - st.pos + (if st.finalized then 0 else 1)
  {
    var r := NextAggregated(raw, delta, rev, finalize, st);
    if r.0.None? then [] else [r.0.value] + Drain(raw, delta, rev, finalize, r.1)
  }

  // ---------------------------------------------------------------------
  // The reference: one sample per run of raw samples sharing a bucket
  // ---------------------------------------------------------------------

  /** Raw samples in the scan's order: non-decreasing going forward, non-increasing in reverse. */
  predicate Monotone(raw: seq<Sample>, rev: bool)
  {
    forall i, j :: 0 <= i < j < |raw| ==>
      if !rev then raw[i].timestamp <= raw[j].timestamp else raw[i].timestamp >= raw[j].timestamp
  }

  /**
   * The buckets of `raw` given an open run in bucket `b` holding `vals`:
   * each maximal run of consecutive samples with the same bucket becomes
   * one sample, stamped with the bucket start, whose value is `finalize`
   * of the run's values.
   */
  function Groups(raw: seq<Sample>, delta: nat, finalize: seq<Value> -> Value, b: Timestamp, vals: seq<Value>): (r: seq<Sample>)
    requires delta > 0
    ensures 1 <= |r| <= |raw| + 1 && r[0].timestamp == b
  {
    if raw == [] then [Sample(b, finalize(vals))]
    else if Bucket(raw[0].timestamp, delta) == b then Groups(raw[1..], delta, finalize, b, vals + [raw[0].value])
    else [Sample(b, finalize(vals))] + Groups(raw[1..], delta, finalize, Bucket(raw[0].timestamp, delta), [raw[0].value])
  }

  /** The aggregated series of `raw`: its runs of equal bucket, one sample each. */
  function Aggregate(raw: seq<Sample>, delta: nat, finalize: seq<Value> -> Value): (r: seq<Sample>)
    requires delta > 0
    ensures |r| <= |raw| && (r == [] <==> raw == [])
  {
    if raw == [] then [] else Groups(raw[1..], delta, finalize, Bucket(raw[0].timestamp, delta), [raw[0].value])
  }

  /** With the remaining samples on the right side of the current bucket, a raw sample crosses exactly when its bucket differs. */
  lemma CrossesIffNewBucket(ts: Timestamp, last: Timestamp, delta: nat, rev: bool)
    requires delta > 0 && last % delta == 0
    requires if !rev then ts >= last else ts < last + delta
    ensures Crosses(ts, last, delta, rev) <==> Bucket(ts, delta) != last
  {
    BucketAligned(ts, delta);
    if !Crosses(ts, last, delta, rev) {
      BucketOf(ts, last, delta);
    }
  }

  /** The state after the iterator consumes one more raw sample. */
  function Consume(raw: seq<Sample>, delta: nat, rev: bool, st: AggState): (st': AggState)
    requires ValidAgg(raw, delta, st) && st.pos < |raw|
    ensures ValidAgg(raw, delta, st') && st'.pos == st.pos + 1 && !st'.isFirst && !st'.finalized
  {
    var x := raw[st.pos];
    var cross := Crosses(x.timestamp, st.last, delta, rev);
    BucketAligned(x.timestamp, delta);
    AggState(
      st.pos + 1,
      if cross then Bucket(x.timestamp, delta) else st.last,
      false,
      (if cross && !st.isFirst then [] else st.pending) + [x.value],
      false)
  }

  /** One raw sample's effect on a drain: it either hands out the open bucket or is only absorbed. */
  lemma DrainStep(raw: seq<Sample>, delta: nat, rev: bool, finalize: seq<Value> -> Value, st: AggState)
    requires ValidAgg(raw, delta, st) && st.pos < |raw|
    ensures Crosses(raw[st.pos].timestamp, st.last, delta, rev) && !st.isFirst ==>
      Drain(raw, delta, rev, finalize, st)
        == [Sample(st.last, finalize(st.pending))] + Drain(raw, delta, rev, finalize, Consume(raw, delta, rev, st))
    ensures !(Crosses(raw[st.pos].timestamp, st.last, delta, rev) && !st.isFirst) ==>
      Drain(raw, delta, rev, finalize, st) == Drain(raw, delta, rev, finalize, Consume(raw, delta, rev, st))
  {
    var st' := Consume(raw, delta, rev, st);
    if Crosses(raw[st.pos].timestamp, st.last, delta, rev) && !st.isFirst {
      assert NextAggregated(raw, delta, rev, finalize, st) == (Some(Sample(st.last, finalize(st.pending))), st');
    } else {
      assert NextAggregated(raw, delta, rev, finalize, st) == NextAggregated(raw, delta, rev, finalize, st');
    }
  }

  /** At the end of the raw samples, a drain flushes the open bucket and stops. */
  lemma DrainFlush(raw: seq<Sample>, delta: nat, rev: bool, finalize: seq<Value> -> Value, st: AggState)
    requires ValidAgg(raw, delta, st) && st.pos == |raw| && !st.isFirst && !st.finalized
    ensures Drain(raw, delta, rev, finalize, st) == [Sample(st.last, finalize(st.pending))]
  {
    var r := NextAggregated(raw, delta, rev, finalize, st);
    assert r.0 == Some(Sample(st.last, finalize(st.pending)));
    assert Drain(raw, delta, rev, finalize, r.1) == [];
  }

  /**
   * Once a sample has been seen, draining the iterator yields the buckets
   * of the remaining raw samples, continuing the open run.
   */
  lemma {:induction false} DrainGroups(raw: seq<Sample>, delta: nat, rev: bool, finalize: seq<Value> -> Value, st: AggState)
    requires ValidAgg(raw, delta, st) && !st.isFirst && !st.finalized
    requires Monotone(raw, rev)
    requires forall k :: st.pos <= k < |raw| ==>
      if !rev then raw[k].timestamp >= st.last else raw[k].timestamp < st.last + delta
    ensures Drain(raw, delta, rev, finalize, st) == Groups(raw[st.pos..], delta, finalize, st.last, st.pending)
    decreases |raw| - st.pos
  {
    if st.pos == |raw| {
      DrainFlush(raw, delta, rev, finalize, st);
      assert raw[st.pos..] == [];
    } else {
      var x := raw[st.pos];
      CrossesIffNewBucket(x.timestamp, st.last, delta, rev);
      var st' := Consume(raw, delta, rev, st);
      assert st'.last == Bucket(x.timestamp, delta);
      assert raw[st.pos..][0] == x;
      assert raw[st.pos..][1..] == raw[st.pos + 1..];
      forall k | st'.pos <= k < |raw|
        ensures if !rev then raw[k].timestamp >= st'.last else raw[k].timestamp < st'.last + delta
      {
        BucketAligned(x.timestamp, delta);
        assert if !rev then x.timestamp <= raw[k].timestamp else x.timestamp >= raw[k].timestamp;
      }
      DrainStep(raw, delta, rev, finalize, st);
      DrainGroups(raw, delta, rev, finalize, st');
      var rest := raw[st.pos + 1..];
      if Bucket(x.timestamp, delta) == st.last {
        assert st'.pending == st.pending + [x.value];
        assert Groups(raw[st.pos..], delta, finalize, st.last, st.pending)
          == Groups(rest, delta, finalize, st.last, st.pending + [x.value]);
      } else {
        assert st'.pending == [x.value];
        assert Groups(raw[st.pos..], delta, finalize, st.last, st.pending)
          == [Sample(st.last, finalize(st.pending))] + Groups(rest, delta, finalize, st'.last, [x.value]);
      }
    }
  }

  /**
   * Draining a freshly set-up aggregation over samples in scan order yields
   * the reference buckets, provided the set-up timestamp lies on the right
   * side of the first sample.
   */
  lemma DrainIsAggregate(raw: seq<Sample>, delta: nat, rev: bool, finalize: seq<Value> -> Value, initTs: Timestamp)
    requires delta > 0 && Monotone(raw, rev)
    requires raw != [] ==> if !rev then initTs <= raw[0].timestamp else initTs >= raw[0].timestamp
    ensures Drain(raw, delta, rev, finalize, InitAgg(initTs, delta)) == Aggregate(raw, delta, finalize)
  {
    var st := InitAgg(initTs, delta);
    if raw != [] {
      var x := raw[0];
      BucketAligned(x.timestamp, delta);
      if !Crosses(x.timestamp, st.last, delta, rev) {
        assert st.last <= x.timestamp < st.last + delta;
        BucketOf(x.timestamp, st.last, delta);
      }
      var st' := Consume(raw, delta, rev, st);
      assert st'.last == Bucket(x.timestamp, delta);
      assert st'.pending == [x.value];
      DrainStep(raw, delta, rev, finalize, st);
      forall k | 1 <= k < |raw|
        ensures if !rev then raw[k].timestamp >= st'.last else raw[k].timestamp < st'.last + delta
      {
        assert if !rev then x.timestamp <= raw[k].timestamp else x.timestamp >= raw[k].timestamp;
      }
      DrainGroups(raw, delta, rev, finalize, st');
    }
  }

  // ---------------------------------------------------------------------
  // SeriesIteratorGetNext: the whole range query
  // ---------------------------------------------------------------------

  lemma IncreasingConcat(a: seq<Sample>, b: seq<Sample>)
    requires StrictlyIncreasing(a) && StrictlyIncreasing(b)
    requires a != [] ==> Above(b, a[|a| - 1].timestamp)
    ensures StrictlyIncreasing(a + b)
  {
    forall i, j | 0 <= i < j < |a + b| ensures (a + b)[i].timestamp < (a + b)[j].timestamp {
      if j < |a| {
        assert (a + b)[i] == a[i] && (a + b)[j] == a[j];
      } else if i >= |a| {
        assert (a + b)[i] == b[i - |a|] && (a + b)[j] == b[j - |a|];
      } else {
        assert (a + b)[i] == a[i] && (a + b)[j] == b[j - |a|];
        assert a[i].timestamp <= a[|a| - 1].timestamp;
      }
    }
  }

  /** The samples from chunk `c` on are in strictly increasing time order. */
  lemma {:induction false} SuffixIncreasing(chunks: seq<Chunk>, c: nat)
    requires WellFormedChunks(chunks) && c <= |chunks|
    ensures StrictlyIncreasing(Flatten(chunks[c..]))
    decreases |chunks| - c
  {
    if c == |chunks| {
      assert chunks[c..] == [];
    } else {
      SuffixIncreasing(chunks, c + 1);
      assert chunks[c..][1..] == chunks[c + 1..];
      var s := chunks[c].samples;
      if s != [] && c + 1 < |chunks| {
        assert ChunkLast(chunks[c]) < ChunkFirst(chunks[c + 1]);
        SuffixAbove(chunks, c + 1, ChunkLast(chunks[c]));
      } else if c + 1 == |chunks| {
        assert chunks[c + 1..] == [];
      }
      IncreasingConcat(s, Flatten(chunks[c + 1..]));
    }
  }

  /** Filtering keeps the time order. */
  lemma {:induction false} FilterIncreasing(s: seq<Sample>, min: Timestamp, max: Timestamp)
    requires StrictlyIncreasing(s)
    ensures StrictlyIncreasing(Filter(s, min, max))
  {
    if s != [] {
      assert StrictlyIncreasing(s[1..]);
      FilterIncreasing(s[1..], min, max);
      var t := Filter(s[1..], min, max);
      assert Above(t, s[0].timestamp) by {
        forall k | 0 <= k < |t| ensures t[k].timestamp > s[0].timestamp {
          var m :| 0 <= m < |s[1..]| && s[1..][m] == t[k];
          assert s[m + 1] == t[k];
        }
      }
      if min <= s[0].timestamp <= max {
        IncreasingConcat([s[0]], t);
      } else {
        assert [] + t == t;
      }
    }
  }

  /** Samples in increasing order are in scan order forward, and reversed they are in scan order in reverse. */
  lemma IncreasingMonotone(s: seq<Sample>)
    requires StrictlyIncreasing(s)
    ensures Monotone(s, false) && Monotone(Reverse(s), true)
  {
  }

  /** Going forward, the start chunk's first timestamp is at or before the first sample of the range. */
  lemma ForwardInit(chunks: seq<Chunk>, min: Timestamp, max: Timestamp)
    requires WellFormedChunks(chunks)
    ensures var raw := Filter(Flatten(chunks), min, max);
      raw != [] ==> ChunkFirst(chunks[StartChunk(chunks, min)]) <= raw[0].timestamp
  {
    var raw := Filter(Flatten(chunks), min, max);
    var s := StartChunk(chunks, min);
    if raw != [] && s == 0 && chunks[0].samples != [] {
      SuffixAbove(chunks, 0, ChunkFirst(chunks[0]) - 1);
      assert chunks[0..] == chunks;
      var m :| 0 <= m < |Flatten(chunks)| && Flatten(chunks)[m] == raw[0];
    }
  }

  /** In reverse, the start chunk's last timestamp is at or after the latest sample of the range. */
  lemma ReverseInit(chunks: seq<Chunk>, min: Timestamp, max: Timestamp)
    requires WellFormedChunks(chunks)
    ensures var raw := Reverse(Filter(Flatten(chunks), min, max));
      raw != [] ==> ChunkLast(chunks[StartChunk(chunks, max)]) >= raw[0].timestamp
  {
    var s := StartChunk(chunks, max);
    var e := |chunks[s].samples|;
    RangeUpToChunk(chunks, s, min, max);
    var f := Filter(Upto(chunks, s, e), min, max);
    if f != [] && chunks[s].samples != [] {
      var y := f[|f| - 1];
      var m :| 0 <= m < |Upto(chunks, s, e)| && Upto(chunks, s, e)[m] == y;
      PrefixBelow(chunks, s, ChunkLast(chunks[s]) + 1);
      FlattenAt(chunks, s);
      assert chunks[s].samples[..e] == chunks[s].samples;
      assert Upto(chunks, s, e) == Flatten(chunks[..s + 1]);
    }
  }

  /** An aggregation: the bucket width and the function turning a bucket's values into one. */
  datatype Aggregator = Aggregator(timeDelta: nat, finalize: seq<Value> -> Value)

  /** The timestamp `SeriesQuery` aligns the first bucket on. */
  function InitTimestamp(chunks: seq<Chunk>, min: Timestamp, max: Timestamp, rev: bool): Timestamp
    requires |chunks| >= 1
  {
    if !rev then ChunkFirst(chunks[StartChunk(chunks, min)]) else ChunkLast(chunks[StartChunk(chunks, max)])
  }

  /** `SeriesQuery` then `SeriesIteratorGetNext` until CR_END: raw samples, or buckets when aggregating. */
  function RangeQuery(chunks: seq<Chunk>, min: Timestamp, max: Timestamp, rev: bool, agg: Option<Aggregator>): seq<Sample>
    requires |chunks| >= 1 && (agg.Some? ==> agg.value.timeDelta > 0)
  {
    var raw := Scan(chunks, min, max, rev);
    if agg.None? then raw
    else
      var a := agg.value;
      Drain(raw, a.timeDelta, rev, a.finalize, InitAgg(InitTimestamp(chunks, min, max, rev), a.timeDelta))
  }

  /**
   * A range query returns the samples of the series in `[min, max]`, in
   * time order or latest first, and with an aggregation one sample per run
   * of those samples that share a time bucket.
   */
  lemma RangeQueryIsReference(chunks: seq<Chunk>, min: Timestamp, max: Timestamp, rev: bool, agg: Option<Aggregator>)
    requires WellFormedChunks(chunks) && (agg.Some? ==> agg.value.timeDelta > 0)
    ensures var inRange := Filter(Flatten(chunks), min, max);
      var ordered := if rev then Reverse(inRange) else inRange;
      RangeQuery(chunks, min, max, rev, agg)
        == if agg.None? then ordered else Aggregate(ordered, agg.value.timeDelta, agg.value.finalize)
  {
    var inRange := Filter(Flatten(chunks), min, max);
    SuffixIncreasing(chunks, 0);
    assert chunks[0..] == chunks;
    FilterIncreasing(Flatten(chunks), min, max);
    IncreasingMonotone(inRange);
    if rev {
      ScanReverse(chunks, min, max);
      ReverseInit(chunks, min, max);
    } else {
      ScanForward(chunks, min, max);
      ForwardInit(chunks, min, max);
    }
    if agg.Some? {
      var ordered := if rev then Reverse(inRange) else inRange;
      DrainIsAggregate(ordered, agg.value.timeDelta, rev, agg.value.finalize, InitTimestamp(chunks, min, max, rev));
    }
  }
}

=== FILE: tsdb.dfy ===
/**
 * The shapes shared by the time-series components: samples, labels,
 * chunks and series. A series keeps its samples in chunks held in a
 * dictionary ordered by key; the first chunk is stored under key 0 or
 * under its first timestamp, every later chunk under its first
 * timestamp. Timestamps are unsigned 64-bit values; sample values are
 * floating point in the module and are only carried around here, never
 * computed on.
 */
module Tsdb {

  import opened Common

  type Timestamp = nat

  type Value = real

  datatype Sample = Sample(timestamp: Timestamp, value: Value)

  datatype Label = Label(key: string, value: string)

  /** A chunk as the series' chunk dictionary sees it: its key, and the samples it decodes to. */
  datatype Chunk = Chunk(key: Timestamp, samples: seq<Sample>)

  datatype Series = Series(
    keyName: string,
    labels: seq<Label>,
    chunks: seq<Chunk>,
    lastTimestamp: Timestamp,
    lastValue: Value,
    retentionTime: nat)

  /** All samples of `chunks`, in chunk order. */
  function Flatten(chunks: seq<Chunk>): seq<Sample>
  {
    if |chunks| == 0 then [] else chunks[0].samples + Flatten(chunks[1..])
  }

  /** Timestamps strictly increase along `s`. */
  predicate StrictlyIncreasing(s: seq<Sample>)
  {
    forall i, j :: 0 <= i < j < |s| ==> s[i].timestamp < s[j].timestamp
  }

  /** The first timestamp of a chunk; an empty chunk reports 0, its zeroed base timestamp. */
  function ChunkFirst(ch: Chunk): Timestamp
  {
    if ch.samples == [] then 0 else ch.samples[0].timestamp
  }

  /** The last timestamp of a chunk; an empty chunk reports 0. */
  function ChunkLast(ch: Chunk): Timestamp
  {
    if ch.samples == [] then 0 else ch.samples[|ch.samples| - 1].timestamp
  }

  /**
   * The shape every stored series has: at least one chunk, no empty chunk
   * unless it is the only one, timestamps strictly increasing inside each
   * chunk and from each chunk to every later one, and the chunk keys
   * described above.
   */
  predicate WellFormedChunks(chunks: seq<Chunk>)
  {
    && |chunks| >= 1
    && (forall c :: 0 <= c < |chunks| ==> chunks[c].samples != [] || |chunks| == 1)
    && (forall c :: 0 <= c < |chunks| ==> StrictlyIncreasing(chunks[c].samples))
    && (forall j, k :: 0 <= j < k < |chunks| ==> ChunkLast(chunks[j]) < ChunkFirst(chunks[k]))
    && chunks[0].key <= ChunkFirst(chunks[0])
    && (forall c :: 0 < c < |chunks| ==> chunks[c].key == ChunkFirst(chunks[c]))
  }

  /** `SeriesGetNumSamples`. */
  function NumSamples(s: Series): nat
  {
    |Flatten(s.chunks)|
  }

  /** The value of the first label named `key` (the series' label lookup). */
  function LabelValue(labels: seq<Label>, key: string): (r: Option<string>)
    ensures r.Some? <==> exists i :: 0 <= i < |labels| && labels[i].key == key
    ensures r.Some? ==> exists i :: 0 <= i < |labels| && labels[i].key == key && labels[i].value == r.value
  {
    if |labels| == 0 then None
    else if labels[0].key == key then Some(labels[0].value)
    else
      var r := LabelValue(labels[1..], key);
      assert forall i :: 1 <= i < |labels| ==> labels[1..][i - 1] == labels[i];
      r
  }
}
